=== FILE: README.md ===
# GJS 20th-anniversary RSVP site: a Dafny model of its server core

This project models the sequential logic behind the event site's API
handlers. It covers:

- the SQLite-backed invite and RSVP store;
- invite creation, single and bulk;
- sending invitations and counting the outcomes;
- RSVP intake with its HTML escaper;
- the admin export with its CSV writer;
- the admin route guard;
- the calendar timestamp compaction.

Each handler is a pure function (or, for the send loop, a method) from a
request and the current tables to a response and the new tables. The mail
service, the clock, the base URL and the library helpers
(`encodeURIComponent`, Zod's e-mail test, SQLite's rendering of a
`DATETIME`) are parameters.

Modules, one per component:

- `Base`: `Option`, `Result`, `Filter` and the stable sort `SortBy`.
- `Text`: the JavaScript string operations the handlers use, covering UTF-16
  `length`, `trim`, `toLowerCase`, `replace(/c/g, …)`, `join` and number
  printing.
- `Json`: the parsed request body.
- `Zod`: issue paths and kinds, and the `min`/`max` checks.
- `Env`: the environment variables, the library parameters and the mail
  outcome.
- `Fields`: the `name` and `email` schemas shared by two routes.
- `Store`: `src/lib/database.ts`.
- `Invites`: `POST /api/invites`.
- `SendInvites`: `POST /api/send-invites`.
- `Html`: `sanitizeHtml`.
- `Rsvp`: `POST /api/rsvp`.
- `Csv`: the CSV writer of the export route, plus a reader for it.
- `Export`: `GET /api/export`.
- `Middleware`: `src/middleware.ts`.
- `Calendar`: `formatDateForCalendar`.

Some behaviours follow the code, and are worth stating because a reader
might expect otherwise.

RSVP handler:
- The handler as written stores nothing. It neither inserts an RSVP row nor
  changes the invite of the guest.
- Its schema requires a `guests` number between 0 and 3.

Store:
- The listings sort on `created_at`, newest first. Rows created in the same
  second keep the order of SQLite's rowid scan, lowest id first.
- `getRSVPByEmail` returns the first row with the address in that order.
  Among RSVPs created in the same second, that is the lowest id.
- The tables are well formed (`Store.Valid`) when ids rise with insertion
  order and creation times never fall. The lemmas that keep the tables well
  formed assume that the database clock never runs backwards
  (`Store.ClockNotBehind`).
- `updateInviteStatus` rewrites every row with the address whose status is
  not `responded`, not only the newest one.
- It always stamps `invite_sent_date`.
- It sets `rsvp_id` to the argument, or to null when the argument is absent
  or 0.

Validation:
- Zod runs the length and e-mail checks on the raw string. `toLowerCase`
  and `trim` run after them.
- So a name of two spaces passes `min(2)` and is stored empty
  (`Fields.BlankNameAccepted`).

Summary CSV:
- The export takes its header line from the keys of the first object only.
- The second and third summary objects have other keys, so the invite
  counts and the event details come out as empty fields
  (`Export.SummaryCsvReadsBack`).

Route guard:
- The textual `startsWith('/admin')` test rejects `/administrator` without
  a token.
- The matcher never routes that path through the guard, so the request
  proceeds (`Middleware.PrefixIsTextual`).

## Model

| member | source | states |
|---|---|---|
| Store.CheckAttendance | src/lib/database.ts:22 | the attendance CHECK accepts exactly `yes` and `no`, and tells them apart |
| Store.NullIfEmpty | src/lib/database.ts:81 | `value \|\| null` stores an absent or empty text as null and keeps any other text |
| Store.NullIfZero | src/lib/database.ts:113 | `rsvp_id \|\| null` stores an absent id or 0 as null and keeps any other id |
| Store.InsertRsvp | src/lib/database.ts:70-82 | fails exactly when the attendance is neither `yes` nor `no`. Otherwise it appends one row with a fresh id larger than every existing one, leaves the earlier rows and the invites alone, stores empty or absent dietary requirements and confirmation ids as null, and stamps both dates with the clock |
| Store.InsertInvite | src/lib/database.ts:95-105 | appends exactly one row with a fresh id larger than every existing one. The row is `pending`, with null `rsvp_id` and `invite_sent_date` and the current time as `created_at`; an empty link is stored as null, and the earlier rows and the RSVPs are untouched |
| Store.InsertInviteKeepsValid | src/lib/database.ts:29-39 | inserting an invite keeps the ids increasing and the creation times ordered |
| Store.InsertRsvpKeepsValid | src/lib/database.ts:18-27 | inserting an RSVP keeps the ids increasing and the creation times ordered |
| Store.Targets | src/lib/database.ts:111 | the WHERE clause: the email matches exactly and the status is not `responded` |
| Store.Stamp | src/lib/database.ts:110 | the SET clause keeps the id, name, email, link and creation time, sets the status and the current time as `invite_sent_date`, and sets `rsvp_id` to the argument, or to null when it is absent or 0 |
| Store.UpdateRows | src/lib/database.ts:108-113 | a row whose email matches exactly and whose status is not `responded` gets the new status, the new `rsvp_id` (null for absent or 0) and the current time as `invite_sent_date`, keeping its id, name, email, link and creation time; every other row is unchanged |
| Store.CountTargets | src/lib/database.ts:111 | the number of changed rows is 0 exactly when no row has the email with a status other than `responded` |
| Store.UpdateInviteStatus | src/lib/database.ts:107-114 | the UPDATE changes exactly the targeted rows, reports how many, leaves the RSVPs and id counters alone, and leaves the whole table unchanged when nothing matches |
| Store.UpdateKeepsValid | src/lib/database.ts:107-114 | an update keeps the table well formed |
| Store.UpdateIdempotent | src/lib/database.ts:107-114 | repeating the same update at the same time changes nothing more |
| Store.ListInvites | src/lib/database.ts:116-119 | `getAllInvites` returns every row exactly once, creation times descending; rows created at the same time come in ascending id order, as SQLite's rowid scan meets them |
| Store.ListRsvps | src/lib/database.ts:84-87 | `getAllRSVPs` returns every row exactly once, creation times descending, ties in ascending id order |
| Store.FirstWithEmail | src/lib/database.ts:90 | finds a row of a listing with the email exactly when one exists, and it is the first such row |
| Store.GetRsvpByEmail | src/lib/database.ts:89-92 | returns a row with the email exactly when there is one; it is the first such row of the newest-first listing, so no row with the email is newer, and among rows created in the same second it has the lowest id |
| Base.SortBy | src/lib/database.ts:117 | `ORDER BY created_at DESC` over a scan in id order: the result is a permutation of the input, descending on the major key and ascending on the minor key among ties |
| Base.FilterOrdered | src/app/api/send-invites/route.ts:22-29 | `filter` keeps the order of the listing it filters |
| Base.Filter | src/app/api/send-invites/route.ts:25-29 | `filter` keeps exactly the elements that pass the test, never adds one, never lengthens the list and keeps each element at most as often as it occurs |
| Store.StatusCountsPartition | src/lib/database.ts:36 | every invite has one of the four statuses, so their counts add up to the table size |
| Store.AttendanceCountsPartition | src/lib/database.ts:22 | every RSVP is `yes` or `no`, so the two counts add up to the table size |
| Store.AttendanceText | src/lib/database.ts:22 | the stored text of an attendance passes the CHECK and reads back as the same attendance |
| Store.CheckStatus | src/lib/database.ts:36 | the status CHECK accepts exactly `pending`, `sent`, `responded` and `declined` |
| Store.StatusText | src/lib/database.ts:36 | the stored text of a status passes the CHECK and reads back as the same status |
| Store.Groups | src/lib/database.ts:121-130 | each GROUP BY row has a positive count equal to the number of rows with its status, and the counts add up to the rows covered |
| Store.GroupsComplete | src/lib/database.ts:121-130 | every status that occurs gets a group |
| Store.GroupsOrdered | src/lib/database.ts:121-130 | the groups come in the order of the status list |
| Store.InviteStats | src/lib/database.ts:121-130 | `getInviteStats` lists exactly the statuses present, each with its count, in ascending text order; the counts sum to the number of invites |
| Store.GroupsOfAllStatuses | src/lib/database.ts:121-130 | grouping by all four statuses lists exactly the ones present, in order, and covers every row |
| Store.RsvpStats | src/lib/database.ts:132-141 | `getRSVPStats` lists exactly the answers present, each with its count, `no` before `yes`; the counts sum to the number of RSVPs |
| Text.Utf16Length | src/app/api/rsvp/route.ts:9 | JavaScript `length` counts UTF-16 units: between one and two per character, one for every character of the basic plane |
| Text.Trim | src/app/api/rsvp/route.ts:9 | `trim` removes a run of leading and trailing JavaScript whitespace and keeps the middle; the result starts and ends with a non-space |
| Text.TrimOfTrimmed | src/app/api/rsvp/route.ts:9 | trimming trimmed text changes nothing |
| Text.ToLower | src/app/api/rsvp/route.ts:10 | lower-casing keeps the length, maps each character, and leaves no ASCII capital |
| Text.ReplaceAll | src/app/api/rsvp/route.ts:42 | `replace(/c/g, rep)` leaves no `c` behind when the replacement holds none |
| Text.ReplaceAbsent | src/app/api/rsvp/route.ts:41-47 | a global replacement leaves text without the character unchanged |
| Text.Join | src/app/api/export/route.ts:44-56 | `join` of one part is that part, and every character of the result comes from the separator or from a part |
| Text.StartsWith | src/middleware.ts:7 | `startsWith(p)`: `p` is a prefix of the string |
| Text.RemoveAll | src/lib/utils.ts:35 | `replace(/[-:]/g, '')` leaves none of the removed characters, is never longer, and adds no character |
| Text.RemoveAllKeeps | src/lib/utils.ts:35 | every character that is not removed survives |
| Text.BeforeFirst | src/lib/utils.ts:35 | `split(c)[0]` is the longest prefix without `c`, followed in the input by `c` or by nothing |
| Text.BeforeFirstOf | src/lib/utils.ts:35 | cutting `a + c + b` at its first `c` gives `a` when `a` holds no `c` |
| Text.NatToString | src/app/api/export/route.ts:53 | the decimal text of a count is a non-empty run of digits without a leading zero |
| Text.IntToString | src/app/api/export/route.ts:53 | the decimal text of an integer is digits with at most a leading minus sign |
| Text.NatToStringValue | src/app/api/export/route.ts:53 | the decimal text of a count reads back as the count |
| Env.OrDefault | src/app/api/invites/route.ts:48 | `process.env.X \|\| fallback` gives the fallback for an unset or empty variable and the variable's text otherwise |
| Env.EmailConfigured | src/app/api/rsvp/route.ts:19 | mail is configured exactly when `RESEND_API_KEY` is set, non-empty and not the placeholder `re_placeholder` |
| Env.Delivered | src/app/api/send-invites/route.ts:58 | `emailResult.data?.id` is truthy: the service answered with an id that is present and non-empty |
| Json.Truthy | src/app/api/send-invites/route.ts:22 | JavaScript truthiness of a body property: `undefined`, `null`, `false`, `0` and the empty string are falsy, any array or object is truthy |
| Json.Get | src/app/api/invites/route.ts:19 | a property read such as `body.invites` finds a value exactly when the body is an object holding that key |
| Zod.LengthIssues | src/app/api/invites/route.ts:6-7 | `.min(lo).max(hi)` reports no issue exactly when the UTF-16 length lies between the bounds, and every issue sits under the field's path |
| Zod.RangeIssues | src/app/api/rsvp/route.ts:12 | `.min(lo).max(hi)` on a number reports no issue exactly when the number lies between the bounds, and every issue sits under the field's path |
| Fields.ParseName | src/app/api/invites/route.ts:6 | a name is accepted exactly when it is a string of 2 to 100 UTF-16 units before trimming, and comes out trimmed; a rejection reports issues under the field's path |
| Fields.ParseEmail | src/app/api/invites/route.ts:7 | an email is accepted exactly when it passes the e-mail test and has at most 255 units, and comes out lower-cased and trimmed |
| Fields.BlankNameAccepted | src/app/api/invites/route.ts:6 | the length check sees the raw string, so two spaces pass and are stored as the empty name |
| Fields.ParsedEmailNormal | src/app/api/invites/route.ts:7 | an accepted email is trimmed and holds no ASCII capital |
| Invites.IsBulk | src/app/api/invites/route.ts:19 | `body.invites && Array.isArray(body.invites)`: the body has an `invites` property holding an array |
| Invites.HasInvite | src/app/api/invites/route.ts:35-36 | `getAllInvites().find(i => i.email === email)` finds a row exactly when some stored invite has that email |
| Invites.ParseInvite | src/app/api/invites/route.ts:5-8 | `inviteSchema` accepts exactly the objects with a valid name and email and yields them normalised; a rejection carries issues under the element's path |
| Invites.ParseItems | src/app/api/invites/route.ts:11 | the array is valid exactly when every element is; the values are the elements' values in order; every issue names an element of the array |
| Invites.ParseBulk | src/app/api/invites/route.ts:10-12 | `bulkInviteSchema` accepts exactly a non-empty `invites` array of valid elements; an empty array is the single `too_small` issue |
| Invites.InviteUrl | src/app/api/invites/route.ts:48 | the link is built exactly when both `encodeURIComponent` calls return; it is the base URL, `/20-years?name=`, the encoded name, `&email=` and the encoded email, in that order; the base is `https://gjsproperty.events` when the variable is unset or empty |
| Invites.InviteUrlReadsBack | src/app/api/invites/route.ts:48 | when the encoded name holds no `&`, the query reads back: the text before its first `&` is the encoded name, and the rest is `email=` and the encoded email |
| Invites.CreateRow | src/app/api/invites/route.ts:32-70 | one loop pass reports the duplicate exactly when a row has the email; otherwise it creates a row exactly when the link can be built, and reports the failure when encoding throws; only a created row changes the table, and it is appended and `pending`, with the element's name and email and the id and link the result reports |
| Invites.CreateRows | src/app/api/invites/route.ts:32-71 | one result per input row in input order; a row is a duplicate exactly when its email was stored or an earlier element with it had a link, and is created exactly when it is no duplicate and its link can be built; the table grows by the number of created results, and afterwards holds exactly the stored emails and those of elements with a link; for each created result a `pending` row with the element's name and email and the result's id and link is appended, and every appended row is `pending` |
| Invites.CreateRowsAppended | src/app/api/invites/route.ts:32-71 | one loop pass followed by the rest of the loop leaves every created row appended and every new row `pending` |
| Invites.CreateRowsKeepsUnique | src/app/api/invites/route.ts:35-45 | a batch never creates a second invite for an email |
| Invites.CreateRowsKeepsValid | src/app/api/invites/route.ts:32-71 | a batch keeps the table well formed |
| Invites.PostSingle | src/app/api/invites/route.ts:79-125 | an invalid body is a 400, a known email is the 400 `already exists`, a link whose encoding throws is the 500 of the outer catch, and otherwise one row is inserted and its id and link returned; only the last case changes the table |
| Invites.PostBulk | src/app/api/invites/route.ts:19-78 | an invalid or empty array is a 400 that inserts nothing; otherwise the reply carries the number of rows and the loop's per-row results, and the tables are the ones the loop leaves |
| Invites.Post | src/app/api/invites/route.ts:14-127 | an unreadable or null body is the 500 reply; a body whose `invites` is an array takes the bulk path, and any other body the single one |
| Invites.StatusCode | src/app/api/invites/route.ts:23-142 | a created invite or a processed batch is 200; an invalid body or a known email is 400; a server error is 500 |
| Invites.PostFailureUnchanged | src/app/api/invites/route.ts:22-27 | every reply other than 200 leaves the tables as they were |
| Invites.PostUnlinkableFails | src/app/api/invites/route.ts:103-125 | a new single invite whose link cannot be built ends in the 500 reply with nothing inserted |
| Invites.PostCreatesRow | src/app/api/invites/route.ts:103-117 | a single invite for a new email appends one `pending` row with the normalised name and email and the returned id and link |
| Invites.PostKeepsInvariants | src/app/api/invites/route.ts:14-127 | every request keeps invite emails unique and the tables well formed |
| SendInvites.Select | src/app/api/send-invites/route.ts:20-35 | `sendToAll` selects exactly the `pending` invites and wins over `inviteIds`; otherwise an id array selects exactly the listed invites whatever their status; with neither there is no selection; a selection holds each row at most once, in the listing's order (newest first, ties by ascending id) |
| SendInvites.Kept | src/app/api/send-invites/route.ts:24-29 | `getAllInvites().filter(keep)` holds exactly the table's rows that pass the test, each at most once, in the listing's order |
| SendInvites.SendToAll | src/app/api/send-invites/route.ts:18-22 | `sendToAll` is a truthy property; an absent one defaults to `false` |
| SendInvites.HasIdList | src/app/api/send-invites/route.ts:26 | `inviteIds` is present and an array |
| SendInvites.Listed | src/app/api/send-invites/route.ts:29 | `includes` matches only a JSON number equal to the id |
| SendInvites.SameRows | src/app/api/send-invites/route.ts:24-29 | the newest-first listing holds the same rows as the table |
| SendInvites.MarkSent | src/app/api/send-invites/route.ts:58-60 | the reference for a run of sends: every row keeps its id, email and creation time; a row is either unchanged or `sent` with the send time and a null `rsvp_id`; a row whose address got nothing, or that is `responded`, is unchanged |
| SendInvites.MarkSentStep | src/app/api/send-invites/route.ts:60 | the `updateInviteStatus(email, 'sent')` of one more delivered address, applied to the rows already marked, gives the rows marked for the enlarged set of addresses |
| SendInvites.ResultOf | src/app/api/send-invites/route.ts:58-79 | an attempt reports success with the message id exactly when the service answered with a non-empty id |
| SendInvites.StatusCode | src/app/api/send-invites/route.ts:11-95 | the summary is 200; no selection is 400; an empty selection is 404; a missing key or a server error is 500 |
| SendInvites.Attempt | src/app/api/send-invites/route.ts:49-79 | one pass sends to the invite, and on delivery marks its address `sent` |
| SendInvites.SendAll | src/app/api/send-invites/route.ts:44-80 | one result per selected invite in selection order with its email; success exactly on delivery; success and fail counts add up to the selection; the table becomes the old one with the delivered addresses marked `sent` |
| SendInvites.Post | src/app/api/send-invites/route.ts:7-97 | the reply is the not-configured 500 exactly when there is no usable key, before the body is read; with a key, an unreadable or null body is exactly the other 500; no selection is the 400, an empty one the 404, and a non-empty selection always reaches the send loop and gets the 200 summary; only a summary changes the table; the success count is the number of deliveries; in a summary each result carries its selected invite's email, succeeds exactly when that send was delivered, and then carries the service's message id; the id counters stay as they were |
| SendInvites.MarkSentEffect | src/app/api/send-invites/route.ts:58-60 | a `responded` row is never touched by sending, and a changed row is `sent` with the send time and a null `rsvp_id` |
| SendInvites.MarkSentKeepsValid | src/app/api/send-invites/route.ts:60 | sending keeps the table well formed |
| SendInvites.SendToAllTargetsPending | src/app/api/send-invites/route.ts:22-25 | with `sendToAll`, every delivered address belongs to a row that was `pending` |
| Html.Chain | src/app/api/rsvp/route.ts:41-47 | the six global replacements applied in order from a given rule on, each to the output of the one before |
| Html.EscapeChar | src/app/api/rsvp/route.ts:41-47 | each special character becomes a non-empty entity free of markup characters; every other character stays |
| Html.SanitizeHtml | src/app/api/rsvp/route.ts:40-48 | the chained replacements equal the per-character map; the output has no `<`, `>`, `"`, `'` or `/`, is never shorter than the input, and leaves plain text unchanged |
| Html.ChainAppend | src/app/api/rsvp/route.ts:41-47 | the chain of global replacements works piece by piece on a concatenation |
| Html.RulesShape | src/app/api/rsvp/route.ts:42-47 | the six rule characters differ, and no entity holds the character of a later rule |
| Html.ChainRule | src/app/api/rsvp/route.ts:41-47 | a lone rule character becomes its entity and is not rewritten again |
| Html.SanitizeIsEscape | src/app/api/rsvp/route.ts:41-47 | because `&` is replaced first, the six chained replacements equal escaping character by character |
| Html.EscapeFacts | src/app/api/rsvp/route.ts:40-48 | escaped text holds no markup character, is never shorter, and equals the input when it has no special character |
| Html.EscapePlain | src/app/api/rsvp/route.ts:40-48 | text without the six characters, the empty text included, is left as it is |
| Html.UnescapeSanitize | src/app/api/rsvp/route.ts:40-48 | decoding the six entities recovers the original text, so no two inputs escape alike |
| Html.EscapeRoundTrip | src/app/api/rsvp/route.ts:41-47 | decoding the per-character escape recovers the text |
| Rsvp.ParseAttendance | src/app/api/rsvp/route.ts:11 | only the exact strings `yes` and `no` are accepted; anything else is an enum or type issue at the field |
| Rsvp.ParseGuests | src/app/api/rsvp/route.ts:12 | any number from 0 to 3 is accepted as given; anything else is rejected with issues at the field |
| Rsvp.ParseDietary | src/app/api/rsvp/route.ts:13 | an absent value or a string of at most 500 units is accepted, keeping the string; a longer string is `too_big`, a non-string fails the union |
| Rsvp.ParseRsvp | src/app/api/rsvp/route.ts:8-14 | a non-object is one type issue; the form is valid exactly when all five fields are, giving the normalised fields |
| Rsvp.SanitizedDietary | src/app/api/rsvp/route.ts:52 | absent or empty dietary requirements give the empty string; any other text gives `sanitizeHtml` of it, which holds no markup character and decodes back to the text |
| Rsvp.Confirmation | src/app/api/rsvp/route.ts:67-159 | the confirmation goes to the guest under the fixed subject and shows the guest's answer; its name and email are escaped and decode to the form's; the guests row is present exactly when guests is not 0 and holds that number; the dietary row is present exactly when requirements were given and decodes to them |
| Rsvp.Notification | src/app/api/rsvp/route.ts:161-212 | the notification goes to the organiser address, or its default when unset or empty, under the subject `New RSVP - <escaped name> - GJS 20th Year Celebration`, and shows the guest's answer; name, email and dietary text are escaped and decode to the form's; the guests row is present exactly when guests is not 0 and holds that number |
| Rsvp.MailsEscaped | src/app/api/rsvp/route.ts:50-52 | both messages carry only escaped name, email and dietary text |
| Rsvp.MailContents | src/app/api/rsvp/route.ts:67-212 | the confirmation goes to the guest and the notification to the organiser address or its default; the guests row appears exactly when guests is not 0, and the dietary row exactly when requirements were given; the escaped name decodes to the name |
| Rsvp.Deliver | src/app/api/rsvp/route.ts:67-218 | the confirmation is always tried first; the notification is tried exactly when the confirmation answered; success exactly when both answered, carrying the confirmation's id; every message is escaped |
| Rsvp.Post | src/app/api/rsvp/route.ts:16-227 | without a usable key the reply is the 500 and nothing is sent; an unreadable body is the 500; an invalid form is the 400 with its issues and no mail; a valid form is delivered |
| Rsvp.StatusCode | src/app/api/rsvp/route.ts:20-225 | a submitted form is 200; an invalid form is 400; a missing key or a server error is 500 |
| Rsvp.PostSendsOnlyEscaped | src/app/api/rsvp/route.ts:29-35 | mail is sent only for a valid form, and always escaped |
| Rsvp.NotConfiguredIgnoresBody | src/app/api/rsvp/route.ts:19-24 | without a configured key the reply does not depend on the body |
| Rsvp.NotificationFailureAfterConfirmation | src/app/api/rsvp/route.ts:161-226 | a failing notification after a delivered confirmation ends in the 500 reply with both attempts made |
| Csv.NeedsQuoting | src/app/api/export/route.ts:50 | a comma, a double quote or a newline forces a string field into quotes |
| Csv.Quote | src/app/api/export/route.ts:51 | a quoted field begins and ends with a double quote |
| Csv.Zip | src/app/api/export/route.ts:43 | an object built from column names and values has those keys, in order, each holding its value |
| Csv.Keys | src/app/api/export/route.ts:43 | `Object.keys` lists the object's keys in insertion order, one per entry |
| Csv.Lookup | src/app/api/export/route.ts:48 | `row[header]` is undefined exactly when the object lacks the key, and otherwise a value stored under it |
| Csv.CellText | src/app/api/export/route.ts:53 | the text a value stands for is empty exactly for falsy values, and is the string itself for a string |
| Csv.Cell | src/app/api/export/route.ts:48-53 | a field is the value's text, or that text quoted when it is a string holding a comma, quote or newline; a falsy value is the empty field |
| Csv.Falsy | src/app/api/export/route.ts:53 | the values for which `value \|\| ''` gives the empty field: undefined, null, the empty string and 0 |
| Csv.Cells | src/app/api/export/route.ts:47-54 | a record has one field per header, each encoding the text under that header |
| Csv.ToCsv | src/app/api/export/route.ts:43-56 | there is no output exactly when there are no rows |
| Csv.QuoteRoundTrip | src/app/api/export/route.ts:51 | reading a quoted field back strips the quotes and collapses doubled quotes, recovering the text |
| Csv.FieldRound | src/app/api/export/route.ts:50-53 | every field the writer emits reads back as its text up to the next separator |
| Csv.LineRound | src/app/api/export/route.ts:47-54 | a record line reads back as the texts of its fields |
| Csv.FileRound | src/app/api/export/route.ts:44-56 | the lines joined by newlines read back as the texts, line by line |
| Csv.CsvRoundTrip | src/app/api/export/route.ts:43-56 | when the header names need no quoting, the written file reads back as the first row's keys followed by the text of every row under those keys |
| Csv.CsvRecords | src/app/api/export/route.ts:43-56 | the file has one record more than there are rows; the first holds the headers and record `i + 1` the texts of row `i` |
| Csv.LookupAt | src/app/api/export/route.ts:48 | a key no earlier entry repeats finds its own value |
| Csv.TextsOfOwnKeys | src/app/api/export/route.ts:43-54 | with distinct keys, a row written under its own keys reads back as the texts of its values |
| Csv.CsvShape | src/app/api/export/route.ts:43-56 | every record of the file has exactly as many fields as there are headers |
| Export.KindOf | src/app/api/export/route.ts:14-35 | exactly `rsvps`, `invites` and `summary` select an export |
| Export.KindName | src/app/api/export/route.ts:14-20 | the name of each export selects it |
| Export.AttendanceOrZero | src/app/api/export/route.ts:28 | `find(...)?.count \|\| 0` is the count of a group for the answer, and 0 when there is none |
| Export.StatusOrZero | src/app/api/export/route.ts:29 | the same for a status |
| Export.RsvpRow | src/app/api/export/route.ts:14-15 | an RSVP record becomes an object whose keys are the table's columns in table order |
| Export.InviteRow | src/app/api/export/route.ts:17-18 | an invite record becomes an object whose keys are the table's columns in table order |
| Export.SummaryRows | src/app/api/export/route.ts:20-31 | the summary is three objects; the first has the four summary headers and holds the RSVP total and the attending and not-attending counts; the second has five fields, the invite total second |
| Export.SummaryOf | src/app/api/export/route.ts:27-31 | the three summary objects carry the given figures: the first under the four summary headers, the invite total in the second |
| Export.Filename | src/app/api/export/route.ts:16-32 | the download name starts `GJS_20th_Anniversary_` and ends with the date |
| Export.FilenamesDistinct | src/app/api/export/route.ts:16-32 | the three exports get different names on the same day |
| Export.Table | src/app/api/export/route.ts:14-31 | the RSVP export has a row per RSVP, the invite export a row per invite, the summary three rows |
| Export.Get | src/app/api/export/route.ts:7-63 | an unknown type is the 400; a CSV of no rows is the 404; a CSV reply carries the dated file name and the writer's text; any other format of a known type is the workbook |
| Export.StatusCode | src/app/api/export/route.ts:34-63 | an unknown type is 400, a CSV of no rows is 404, and a CSV or workbook is 200 |
| Export.Defaults | src/app/api/export/route.ts:8-9 | with absent or empty parameters the RSVPs are exported as a workbook |
| Export.InvalidTypeFirst | src/app/api/export/route.ts:33-35 | an unknown type is the 400 whatever the format |
| Export.CsvExport | src/app/api/export/route.ts:37-63 | a CSV export is the 404 when its table is empty, and otherwise the file of the table's text |
| Export.EmptyCsv | src/app/api/export/route.ts:39-41 | the CSV export is the 404 exactly for RSVPs without RSVPs or invites without invites; the summary never is |
| Export.SummaryCounts | src/app/api/export/route.ts:28-29 | every summary figure is the number of matching rows, 0 for an answer or status that does not occur |
| Export.RsvpHeaders | src/app/api/export/route.ts:43 | the header line of an RSVP export is the table's column names, none of which needs quoting |
| Export.RsvpTexts | src/app/api/export/route.ts:46-54 | an RSVP row reads back with its name, email, answer and dietary text in their columns |
| Export.RsvpCsvReadsBack | src/app/api/export/route.ts:14-56 | the RSVP CSV reads back as the column names and, newest first, one record per RSVP with its fields |
| Export.InviteHeaders | src/app/api/export/route.ts:43 | the header line of an invite export is the table's column names, none of which needs quoting |
| Export.InviteTexts | src/app/api/export/route.ts:46-54 | an invite row reads back with its name, email, link and status in their columns |
| Export.InviteCsvReadsBack | src/app/api/export/route.ts:17-56 | the invite CSV reads back as the column names and, newest first, one record per invite with its fields |
| Export.OnlySheetSurvives | src/app/api/export/route.ts:43-48 | under the first object's headers, an object with other keys keeps only its `Sheet` field |
| Export.SummaryFirstRow | src/app/api/export/route.ts:28 | the first summary object has the four summary headers and reads back as its label and three counts |
| Export.SummaryOfReadsBack | src/app/api/export/route.ts:27-56 | for any figures, the summary CSV reads back as the headers, the RSVP figures, and two rows holding only their labels |
| Export.SummaryCsvReadsBack | src/app/api/export/route.ts:20-56 | the summary CSV reads back with the RSVP total and the attending and not-attending counts, but with the invite and event rows empty apart from their labels |
| Middleware.IsAdmin | src/middleware.ts:23 | `!!token && token.role === 'admin'`: a token is present and its role is `admin` |
| Middleware.Authorized | src/middleware.ts:15-28 | the `authorized` callback: the login page passes, any other path starting with `/admin` passes only with an admin token, and every other path passes |
| Middleware.RedirectsToLogin | src/middleware.ts:7-11 | the middleware body redirects a path starting with `/admin`, other than the login page, when the token is not an admin's |
| Middleware.Matched | src/middleware.ts:33-39 | the matcher covers `/admin` and below, `/api/admin` and below, and `/api/export` |
| Middleware.Gate | src/middleware.ts:4-39 | an unmatched path proceeds; a matched path is sent to sign-in exactly when `authorized` refuses it, and proceeds exactly when it is authorized and not redirected |
| Middleware.LoginAlwaysOpen | src/middleware.ts:17-19 | `/admin/login` is authorized, never redirected, and always reached, with or without a token |
| Middleware.AdminPathsNeedAdmin | src/middleware.ts:22-24 | any other path starting with `/admin` is authorized exactly with an admin token |
| Middleware.OtherPathsAuthorized | src/middleware.ts:27 | every path not starting with `/admin` is authorized |
| Middleware.RedirectNeverFiresAfterAuthorization | src/middleware.ts:7-10 | once `authorized` has passed a request, the middleware body never redirects it |
| Middleware.AdminPagesGuarded | src/middleware.ts:22-35 | every matched page below `/admin` other than the login page is reached exactly with an admin token |
| Middleware.PrefixIsTextual | src/middleware.ts:7-35 | `/administrator` fails `authorized` without a token and would be redirected, yet the matcher lets it through |
| Middleware.ApiPathsOpenAsWritten | src/middleware.ts:27-37 | the matched `/api/admin/...` and `/api/export` paths are authorized and reached without any token |
| Middleware.GateIntended | src/middleware.ts:15-38 | with the corrected callback, a matched path is sent to sign-in exactly when the corrected check refuses it |
| Middleware.IntendedGuardsEveryMatchedPath | src/middleware.ts:15-38 | with the corrected callback, every matched path other than the login page is reached exactly with an admin token |
| Middleware.IntendedAgreesOffApi | src/middleware.ts:15-28 | the corrected callback agrees with the written one everywhere outside the two API entries |
| Calendar.FormatDateForCalendar | src/lib/utils.ts:34-36 | the output ends in `Z` and holds no `-`, `:` or `.` |
| Calendar.RemoveThenCut | src/lib/utils.ts:35 | removing the separators and cutting at the first `.` can be done in either order |
| Calendar.CalendarFromPrefix | src/lib/utils.ts:35 | the output without its `Z` is the input before the first `.` with `-` and `:` removed, every other character kept in order |
| Calendar.IsoCompacted | src/lib/utils.ts:35 | `YYYY-MM-DDTHH:MM:SS.sssZ` becomes `YYYYMMDDTHHMMSSZ` |
| Calendar.IsoPrefix | src/lib/utils.ts:35 | an ISO timestamp is cut just before its milliseconds |
| Calendar.CompactDateTime | src/lib/utils.ts:35 | `YYYY-MM-DDTHH:MM:SS` loses exactly its four separators |

## Left out

- Mail delivery through Resend is a parameter `send`: for each attempt it
  either throws or answers with an optional message id. Timeouts, retries
  and the service's own behaviour are not modelled.
- The HTML bodies of the three messages are out of scope. That includes
  `generateInviteEmailHTML`, the confirmation markup and the organiser
  markup. A message is modelled as the form fields it carries.
- Because the markup is out of scope, the invitation e-mail's unescaped
  name is not modelled either.
- The XLSX workbook is a foreign library. The model returns the workbook's
  kind and file name, not its bytes.
- The summary's extra RSVP and invite sheets are left out for the same
  reason.
- The clock is a parameter `now`. `CURRENT_TIMESTAMP` is a natural number
  of seconds.
- The export's `new Date().toISOString().split('T')[0]` is a parameter
  `today`.
- SQLite's text form of a `DATETIME` is a parameter `render`.
- `Date`, `Intl` and `toISOString` in `src/lib/utils.ts` are left out.
  `formatDateForCalendar` receives the ISO text directly, and `formatDate`
  and `formatTime` are not modelled.
- Zod's e-mail regular expression is an uninterpreted parameter.
- Invites.InviteUrl: `encodeURIComponent` is an uninterpreted parameter
  that either returns a text or throws (`None`). The contract places the
  encoded name and email in the link but says nothing about the encoding
  itself. `Invites.InviteUrlReadsBack` therefore assumes that the encoded
  name holds no `&`, which the real encoding guarantees.
- Invites.CreateRows: the real `encodeURIComponent` throws `URIError` only
  on a lone UTF-16 surrogate, which a Dafny `char` cannot hold. The model
  therefore leaves the choice of which texts fail to the parameter.
- Invites.PostSingle: the same holds for the 500 reply after a throwing
  encoding.
- Text.ToLower: only ASCII letters are lowered. JavaScript's full Unicode
  case mapping is not modelled.
- Store.ListInvites: SQL leaves the order of rows with the same
  `created_at` unspecified. The model takes the order of SQLite's full
  scan, ascending rowid, which is what a sort over that scan keeps.
- Store.ListRsvps: ties are listed the same way.
- SendInvites.SendAll: one `now` stamps every delivered address of a
  request. The source stamps each UPDATE with its own `CURRENT_TIMESTAMP`
  after an awaited send, so later rows can carry later send dates.
- SendInvites.MarkSent: marks with the same single `now`, for the same
  reason.
- Invites.CreateRows: one `now` is the `created_at` of every row a bulk
  request creates. The source stamps each INSERT with its own
  `CURRENT_TIMESTAMP`.
- Zod issue messages are not modelled, so issues carry only path and kind.
- Response message texts and JSON layouts are reduced to datatype
  constructors carrying the fields the handlers compute.
- The per-row `try`/`catch` of the bulk invite loop is modelled for a
  throwing `encodeURIComponent` (`RowFailed`). The outer `catch` of the
  single invite path is modelled for the same throw (the 500 reply).
- Storage failures are not modelled, in either `catch` or in the other
  handlers. The in-memory tables cannot fail, except for the attendance
  CHECK, which is modelled.
- The pass-through GET handlers are left out. These are
  `GET /api/invites`, `/api/admin/invites` and `/api/admin/rsvps`, which
  only list a table.
- next-auth sessions and sign-in are left out. A request carries an
  optional token with an optional role.
- Each handler call is one atomic step. Concurrent requests are not
  modelled.
- The React pages and components are out of scope, as are SharePoint and
  the `scripts/` helpers.

## Findings

| source | as written | input that shows it | evidently intended | confidence | as-written member | corrected member |
|---|---|---|---|---|---|---|
| src/middleware.ts:27 | the matcher sends `/api/admin/...` and `/api/export` through the guard, but `authorized` returns `true` for every path not starting with `/admin`, and the middleware body only redirects `/admin` paths | `GET /api/export?type=rsvps&format=csv` with no session token reaches the export route and receives every RSVP | every matched path other than the login page needs an admin token | high that the code admits the request; not executed | Middleware.ApiPathsOpenAsWritten | Middleware.IntendedGuardsEveryMatchedPath |

=== FILE: base.dfy ===
/** Small generic building blocks shared by every other module: optional
    values, results, and the sequence operations the handlers rely on. */
module Base {

  /** A value that may be absent (`undefined` or SQL NULL in the system). */
  datatype Option<+T> = None | Some(value: T)

  /** The outcome of an operation that can fail with an error of type `E`. */
  datatype Result<+T, +E> = Success(value: T) | Failure(error: E)

  /** `a` may come before `b` in `ORDER BY major DESC` when rows with equal
      `major` come in ascending `minor` order. */
  predicate Precedes<T>(a: T, b: T, major: T -> int, minor: T -> int)
  {
    major(a) > major(b) || (major(a) == major(b) && minor(a) <= minor(b))
  }

  /** Every element may come before every later one. */
  predicate Ordered<T>(s: seq<T>, major: T -> int, minor: T -> int)
  {
    forall i, j :: 0 <= i < j < |s| ==> Precedes(s[i], s[j], major, minor)
  }

  /** `x` placed just before the first element it may precede. */
  function Insert<T>(x: T, t: seq<T>, major: T -> int, minor: T -> int): (r: seq<T>)
    ensures multiset(r) == multiset{x} + multiset(t)
  {
    if t == [] then [x]
    else if Precedes(x, t[0], major, minor) then [x] + t
    else
      assert t == [t[0]] + t[1..];
      [t[0]] + Insert(x, t[1..], major, minor)
  }

  lemma {:induction false} TailOrdered<T>(t: seq<T>, major: T -> int, minor: T -> int)
    requires t != [] && Ordered(t, major, minor)
    ensures Ordered(t[1..], major, minor)
  {
    forall i, j | 0 <= i < j < |t| - 1
      ensures Precedes(t[1..][i], t[1..][j], major, minor)
    {
      assert t[1..][i] == t[i + 1] && t[1..][j] == t[j + 1];
    }
  }

  /** `Insert` keeps a sequence ordered. */
  lemma {:induction false} InsertOrdered<T>(x: T, t: seq<T>, major: T -> int, minor: T -> int)
    requires Ordered(t, major, minor)
    ensures Ordered(Insert(x, t, major, minor), major, minor)
  {
    if t != [] {
      if Precedes(x, t[0], major, minor) {
        forall k | 0 <= k < |t|
          ensures Precedes(x, t[k], major, minor)
        {
          assert Precedes(t[0], t[k], major, minor) || k == 0;
        }
        ConsOrdered(x, t, major, minor);
      } else {
        var rest := Insert(x, t[1..], major, minor);
        TailOrdered(t, major, minor);
        InsertOrdered(x, t[1..], major, minor);
        forall j | 0 <= j < |rest|
          ensures Precedes(t[0], rest[j], major, minor)
        {
          assert rest[j] in multiset(rest);
          if rest[j] != x {
            assert rest[j] in multiset(t[1..]);
            var m :| 0 <= m < |t[1..]| && t[1..][m] == rest[j];
            assert t[1..][m] == t[m + 1];
          }
        }
        ConsOrdered(t[0], rest, major, minor);
      }
    }
  }

  /** The elements of `s` under `ORDER BY major DESC`, ties in ascending
      `minor` order. */
  function SortBy<T>(s: seq<T>, major: T -> int, minor: T -> int): (r: seq<T>)
    ensures |r| == |s|
    ensures multiset(r) == multiset(s)
    ensures Ordered(r, major, minor)
  {
    if s == [] then []
    else
      var rest := SortBy(s[1..], major, minor);
      InsertOrdered(s[0], rest, major, minor);
      assert s == [s[0]] + s[1..];
      Insert(s[0], rest, major, minor)
  }

  /** The elements of `s` that satisfy `p`, in their original order. */
  function Filter<T>(s: seq<T>, p: T -> bool): (r: seq<T>)
    ensures |r| <= |s|
    ensures forall i :: 0 <= i < |s| ==> (s[i] in r <==> p(s[i]))
    ensures forall i :: 0 <= i < |r| ==> r[i] in s
    ensures forall i :: 0 <= i < |r| ==> p(r[i])
    ensures multiset(r) <= multiset(s)
  {
    if s == [] then []
    else
      assert s == [s[0]] + s[1..];
      if p(s[0]) then [s[0]] + Filter(s[1..], p)
      else Filter(s[1..], p)
  }

  /** An element that may precede every element of an ordered sequence
      can be put in front of it. */
  lemma ConsOrdered<T>(x: T, rest: seq<T>, major: T -> int, minor: T -> int)
    requires Ordered(rest, major, minor)
    requires forall k :: 0 <= k < |rest| ==> Precedes(x, rest[k], major, minor)
    ensures Ordered([x] + rest, major, minor)
  {
    var r := [x] + rest;
    forall i, j | 0 <= i < j < |r|
      ensures Precedes(r[i], r[j], major, minor)
    {
      if i == 0 {
        assert r[j] == rest[j - 1];
      } else {
        assert r[i] == rest[i - 1] && r[j] == rest[j - 1];
      }
    }
  }

  /** Filtering keeps the order of what it keeps. */
  lemma {:induction false} FilterOrdered<T>(s: seq<T>, p: T -> bool, major: T -> int, minor: T -> int)
    requires Ordered(s, major, minor)
    ensures Ordered(Filter(s, p), major, minor)
  {
    if s != [] {
      var tail := s[1..];
      TailOrdered(s, major, minor);
      FilterOrdered(tail, p, major, minor);
      if p(s[0]) {
        var rest := Filter(tail, p);
        assert Filter(s, p) == [s[0]] + rest;
        forall k | 0 <= k < |rest|
          ensures Precedes(s[0], rest[k], major, minor)
        {
          var m :| 0 <= m < |tail| && tail[m] == rest[k];
          assert tail[m] == s[m + 1];
        }
        ConsOrdered(s[0], rest, major, minor);
      }
    }
  }
}

=== FILE: calendar.dfy ===
/** `formatDateForCalendar` of the calendar-link builder: the ISO-8601 text
    of a date with `-` and `:` removed, cut at the first `.`, and `Z`
    appended. The `toISOString` step is left to the caller: the input is
    the ISO text itself. */
module Calendar {
  import opened Text

  const Separators: set<char> := {'-', ':'}

  /** `date.toISOString().replace(/[-:]/g, '').split('.')[0] + 'Z'`. */
  function FormatDateForCalendar(iso: string): (r: string)
    ensures |r| >= 1 && r[|r| - 1] == 'Z'
    ensures '-' !in r && ':' !in r && '.' !in r
  {
    var compact := BeforeFirst(RemoveAll(iso, Separators), '.');
    assert '-' !in compact && ':' !in compact by {
      var all := RemoveAll(iso, Separators);
      assert compact == all[..|compact|];
    }
    compact + "Z"
  }

  /** Removing the separators commutes with cutting at the first `.`,
      which neither step touches. */
  lemma {:induction false} RemoveThenCut(s: string)
    ensures BeforeFirst(RemoveAll(s, Separators), '.') == RemoveAll(BeforeFirst(s, '.'), Separators)
  {
    if s != [] {
      var c, t := s[0], s[1..];
      var bt, x := BeforeFirst(t, '.'), RemoveAll(t, Separators);
      RemoveThenCut(t);
      if c == '.' {
        assert RemoveAll(s, Separators) == [c] + x;
        assert ([c] + x)[0] == '.';
        assert BeforeFirst(s, '.') == [];
      } else {
        assert BeforeFirst(s, '.') == [c] + bt;
        assert ([c] + bt)[0] == c && ([c] + bt)[1..] == bt;
        if c in Separators {
          assert RemoveAll(s, Separators) == x;
          assert RemoveAll([c] + bt, Separators) == RemoveAll(bt, Separators);
        } else {
          assert RemoveAll(s, Separators) == [c] + x;
          assert ([c] + x)[0] == c && ([c] + x)[1..] == x;
          assert RemoveAll([c] + bt, Separators) == [c] + RemoveAll(bt, Separators);
        }
      }
    }
  }

  /** The output without its final `Z` is the input up to the first `.`
      with the separators removed, every other character kept in order. */
  lemma CalendarFromPrefix(iso: string)
    ensures var r := FormatDateForCalendar(iso);
      r[..|r| - 1] == RemoveAll(BeforeFirst(iso, '.'), Separators)
  {
    RemoveThenCut(iso);
  }

  /** `YYYY-MM-DDTHH:MM:SS`: the date and time of an ISO timestamp. */
  predicate IsDateTime(p: string)
  {
    && |p| == 19
    && p[4] == '-' && p[7] == '-' && p[10] == 'T' && p[13] == ':' && p[16] == ':'
    && (forall i :: 0 <= i < 19 && i !in {4, 7, 10, 13, 16} ==> IsDigit(p[i]))
  }

  /** The text `toISOString` produces: `YYYY-MM-DDTHH:MM:SS.sssZ`. */
  predicate IsIsoTimestamp(s: string)
  {
    && |s| == 24 && IsDateTime(s[..19])
    && s[19] == '.' && s[23] == 'Z'
    && (forall i :: 20 <= i < 23 ==> IsDigit(s[i]))
  }

  /** For an ISO timestamp the output is `YYYYMMDDTHHMMSSZ`. */
  lemma IsoCompacted(s: string)
    requires IsIsoTimestamp(s)
    ensures FormatDateForCalendar(s)
      == s[0..4] + s[5..7] + s[8..10] + "T" + s[11..13] + s[14..16] + s[17..19] + "Z"
  {
    var p := s[..19];
    IsoPrefix(s);
    CalendarFromPrefix(s);
    CompactDateTime(p);
    assert p[0..4] == s[0..4] && p[5..7] == s[5..7] && p[8..10] == s[8..10];
    assert p[11..13] == s[11..13] && p[14..16] == s[14..16] && p[17..19] == s[17..19];
  }

  /** An ISO timestamp is cut at its fraction separator. */
  lemma IsoPrefix(s: string)
    requires IsIsoTimestamp(s)
    ensures BeforeFirst(s, '.') == s[..19]
  {
    var p := s[..19];
    forall i | 0 <= i < 19 ensures s[i] != '.' {
      assert s[i] == p[i];
      if i !in {4, 7, 10, 13, 16} {
        assert IsDigit(p[i]);
      }
    }
  }

  /** `YYYY-MM-DDTHH:MM:SS` loses exactly its four separators. */
  lemma CompactDateTime(p: string)
    requires IsDateTime(p)
    ensures RemoveAll(p, Separators)
      == p[0..4] + p[5..7] + p[8..10] + "T" + p[11..13] + p[14..16] + p[17..19]
  {
    var date, time := p[..10], p[11..];
    assert p == date + ("T" + time);
    forall i | 0 <= i < 10 && i != 4 && i != 7 ensures IsDigit(date[i]) {
      assert date[i] == p[i];
    }
    forall i | 0 <= i < 8 && i != 2 && i != 5 ensures IsDigit(time[i]) {
      assert time[i] == p[i + 11];
    }
    CompactDate(date);
    CompactTime(time);
    DateThenTime(date, time);
    var d, t := date[0..4] + date[5..7] + date[8..10], time[0..2] + time[3..5] + time[6..8];
    assert date[0..4] == p[0..4] && date[5..7] == p[5..7] && date[8..10] == p[8..10];
    assert time[0..2] == p[11..13] && time[3..5] == p[14..16] && time[6..8] == p[17..19];
    assert RemoveAll(p, Separators) == d + "T" + t;
    Assoc(d + "T", time[0..2] + time[3..5], time[6..8]);
    Assoc(d + "T", time[0..2], time[3..5]);
  }

  /** The `T` between date and time survives. */
  lemma DateThenTime(date: string, time: string)
    ensures RemoveAll(date + ("T" + time), Separators)
      == RemoveAll(date, Separators) + "T" + RemoveAll(time, Separators)
  {
    RemoveAllAppend(date, "T" + time, Separators);
    RemoveAllAppend("T", time, Separators);
    assert "T"[1..] == [];
    assert RemoveAll("T", Separators) == "T";
    Assoc(RemoveAll(date, Separators), "T", RemoveAll(time, Separators));
  }

  /** `YYYY-MM-DD` keeps its eight digits. */
  lemma CompactDate(d: string)
    requires |d| == 10 && d[4] == '-' && d[7] == '-'
    requires forall i :: 0 <= i < 10 && i != 4 && i != 7 ==> IsDigit(d[i])
    ensures RemoveAll(d, Separators) == d[0..4] + d[5..7] + d[8..10]
  {
    var y, m, day := d[0..4], d[5..7], d[8..10];
    assert d == y + "-" + (m + "-" + day);
    ThreeFields(y, m, day, '-');
  }

  /** `HH:MM:SS` keeps its six digits. */
  lemma CompactTime(t: string)
    requires |t| == 8 && t[2] == ':' && t[5] == ':'
    requires forall i :: 0 <= i < 8 && i != 2 && i != 5 ==> IsDigit(t[i])
    ensures RemoveAll(t, Separators) == t[0..2] + t[3..5] + t[6..8]
  {
    var h, m, sec := t[0..2], t[3..5], t[6..8];
    assert t == h + ":" + (m + ":" + sec);
    ThreeFields(h, m, sec, ':');
  }

  /** Three digit groups joined by a separator lose only the separators. */
  lemma ThreeFields(a: string, b: string, c: string, sep: char)
    requires sep in Separators
    requires forall i :: 0 <= i < |a| ==> IsDigit(a[i])
    requires forall i :: 0 <= i < |b| ==> IsDigit(b[i])
    requires forall i :: 0 <= i < |c| ==> IsDigit(c[i])
    ensures RemoveAll(a + [sep] + (b + [sep] + c), Separators) == a + b + c
  {
    KeepDigits(c);
    GroupThenSeparator(a, sep);
    GroupThenSeparator(b, sep);
    var x, y := a + [sep], b + [sep];
    RemoveAllAppend(y, c, Separators);
    assert RemoveAll(y + c, Separators) == b + c;
    RemoveAllAppend(x, y + c, Separators);
    assert RemoveAll(x + (y + c), Separators) == a + (b + c);
    Assoc(a, b, c);
  }

  lemma Assoc(a: string, b: string, c: string)
    ensures a + b + c == a + (b + c)
  {
  }

  /** A digit group and a separator leave the digit group. */
  lemma GroupThenSeparator(a: string, sep: char)
    requires sep in Separators
    requires forall i :: 0 <= i < |a| ==> IsDigit(a[i])
    ensures RemoveAll(a + [sep], Separators) == a
  {
    KeepDigits(a);
    RemoveAllAppend(a, [sep], Separators);
    assert [sep][1..] == [];
    assert a + [] == a;
  }

  /** Digits survive the separator removal unchanged. */
  lemma {:induction false} KeepDigits(d: string)
    requires forall i :: 0 <= i < |d| ==> IsDigit(d[i])
    ensures RemoveAll(d, Separators) == d
  {
    if d != [] {
      assert IsDigit(d[0]);
      KeepDigits(d[1..]);
      assert d == [d[0]] + d[1..];
    }
  }
}

=== FILE: csv.dfy ===
/** The CSV writer of the export handler, and a reader for the format it
    writes: fields separated by `,`, records by `\n`, and a field holding
    `,`, `"` or a line break enclosed in double quotes with every inner `"`
    doubled (section 2, rules 6 and 7, of RFC 4180). */
module Csv {
  import opened Base
  import opened Text

  /** A value of a row object: the database rows and the summary rows hold
      strings, integers and `null`. */
  datatype Value = VStr(s: string) | VNum(n: int) | VNull

  /** A row object: its keys in insertion order (`Object.keys`) and values. */
  type Row = seq<(string, Value)>

  /** `Object.keys(row)`. */
  function Keys(row: Row): (r: seq<string>)
    ensures |r| == |row|
    ensures forall i :: 0 <= i < |row| ==> r[i] == row[i].0
  {
    seq(|row|, i requires 0 <= i < |row| => row[i].0)
  }

  /** The object with the given keys and values, in order. */
  function Zip(keys: seq<string>, values: seq<Value>): (r: Row)
    requires |keys| == |values|
    ensures Keys(r) == keys
    ensures forall i :: 0 <= i < |keys| ==> r[i].1 == values[i]
  {
    seq(|keys|, i requires 0 <= i < |keys| => (keys[i], values[i]))
  }

  /** `row[key]`: the value under the key, `None` for `undefined`. */
  function Lookup(row: Row, key: string): (r: Option<Value>)
    ensures r.None? <==> key !in Keys(row)
    ensures r.Some? ==> (key, r.value) in row
  {
    if row == [] then None
    else if row[0].0 == key then Some(row[0].1)
    else Lookup(row[1..], key)
  }

  /** The characters that force a string field into quotes. */
  predicate NeedsQuoting(s: string)
  {
    ',' in s || '"' in s || '\n' in s
  }

  /** `"${value.replace(/"/g, '""')}"`. */
  function Quote(s: string): (r: string)
    ensures |r| >= 2 && r[0] == '"' && r[|r| - 1] == '"'
  {
    "\"" + ReplaceAll(s, '"', "\"\"") + "\""
  }

  /** JavaScript truthiness of a field value (`undefined` is `None`). */
  predicate Falsy(v: Option<Value>)
  {
    match v
    case None => true
    case Some(VNull) => true
    case Some(VStr(s)) => s == ""
    case Some(VNum(n)) => n == 0
  }

  /** The text a field stands for: what `value || ''` becomes in `join`. */
  function CellText(v: Option<Value>): (r: string)
    ensures r == "" <==> Falsy(v)
    ensures v.Some? && v.value.VStr? ==> r == v.value.s
  {
    match v
    case None => ""
    case Some(VNull) => ""
    case Some(VStr(s)) => s
    case Some(VNum(n)) => if n == 0 then "" else IntToString(n)
  }

  /** A written field `c` stands for the text `t`: either `t` itself,
      which then needs no quotes, or `t` quoted. */
  predicate Encodes(c: string, t: string)
  {
    (c == t && !NeedsQuoting(t)) || c == Quote(t)
  }

  /** One field as the handler writes it: only strings are ever quoted. */
  function Cell(v: Option<Value>): (r: string)
    ensures Encodes(r, CellText(v))
    ensures Falsy(v) ==> r == ""
    ensures r != CellText(v) ==> v.Some? && v.value.VStr? && NeedsQuoting(v.value.s)
  {
    if v.Some? && v.value.VStr? && NeedsQuoting(v.value.s) then Quote(v.value.s)
    else
      PlainText(v);
      CellText(v)
  }

  /** A number prints with digits and a sign only. */
  lemma PlainText(v: Option<Value>)
    requires !(v.Some? && v.value.VStr? && NeedsQuoting(v.value.s))
    ensures !NeedsQuoting(CellText(v))
  {
    if v.Some? && v.value.VNum? && v.value.n != 0 {
      var t := IntToString(v.value.n);
      forall c | c in t ensures c != ',' && c != '"' && c != '\n' {
        var i :| 0 <= i < |t| && t[i] == c;
      }
    }
  }

  /** The fields of one record: `headers.map(header => ...)`. */
  function Cells(headers: seq<string>, row: Row): (r: seq<string>)
    ensures |r| == |headers|
    ensures forall j :: 0 <= j < |headers| ==> Encodes(r[j], CellText(Lookup(row, headers[j])))
  {
    seq(|headers|, j requires 0 <= j < |headers| => Cell(Lookup(row, headers[j])))
  }

  /** The texts the fields of one record stand for. */
  function Texts(headers: seq<string>, row: Row): (r: seq<string>)
    ensures |r| == |headers|
    ensures forall j :: 0 <= j < |headers| ==> r[j] == CellText(Lookup(row, headers[j]))
  {
    seq(|headers|, j requires 0 <= j < |headers| => CellText(Lookup(row, headers[j])))
  }

  /** The fields of every row under the same headers. */
  function CellTable(headers: seq<string>, data: seq<Row>): (r: seq<seq<string>>)
    ensures |r| == |data|
    ensures forall i :: 0 <= i < |data| ==> r[i] == Cells(headers, data[i])
  {
    seq(|data|, i requires 0 <= i < |data| => Cells(headers, data[i]))
  }

  /** The texts of every row under the same headers. */
  function TextTable(headers: seq<string>, data: seq<Row>): (r: seq<seq<string>>)
    ensures |r| == |data|
    ensures forall i :: 0 <= i < |data| ==> r[i] == Texts(headers, data[i])
  {
    seq(|data|, i requires 0 <= i < |data| => Texts(headers, data[i]))
  }

  function JoinEach(records: seq<seq<string>>, sep: string): (r: seq<string>)
    ensures |r| == |records|
    ensures forall i :: 0 <= i < |records| ==> r[i] == Join(records[i], sep)
  {
    seq(|records|, i requires 0 <= i < |records| => Join(records[i], sep))
  }

  /** The CSV text of a non-empty table: the keys of the first row, then one
      line per row with a field per key; `None` is the "No data to export"
      answer for an empty table. */
  function ToCsv(data: seq<Row>): (r: Option<string>)
    ensures r.None? <==> data == []
  {
    if data == [] then None
    else
      var headers := Keys(data[0]);
      Some(Join(JoinEach([headers] + CellTable(headers, data), ","), "\n"))
  }

  // ---------------------------------------------------------------------
  // Reader.

  /** Reads the rest of a quoted field whose opening quote is consumed: `""`
      is one quote, a lone `"` closes the field. Returns the text and what
      follows the closing quote. */
  function ReadQuoted(s: string): (r: (string, string))
    ensures |r.1| <= |s|
  {
    if s == [] then ("", "")
    else if s[0] == '"' then
      if |s| >= 2 && s[1] == '"' then
        var (b, rest) := ReadQuoted(s[2..]);
        ("\"" + b, rest)
      else ("", s[1..])
    else
      var (b, rest) := ReadQuoted(s[1..]);
      ([s[0]] + b, rest)
  }

  /** Reads an unquoted field up to the next `,` or line break. */
  function ReadPlain(s: string): (r: (string, string))
    ensures r.0 + r.1 == s
    ensures r.1 == [] || r.1[0] == ',' || r.1[0] == '\n'
    ensures ',' !in r.0 && '\n' !in r.0
  {
    if s == [] || s[0] == ',' || s[0] == '\n' then ("", s)
    else
      var (b, rest) := ReadPlain(s[1..]);
      assert s == [s[0]] + s[1..];
      ([s[0]] + b, rest)
  }

  function ReadField(s: string): (r: (string, string))
    ensures |r.1| <= |s|
  {
    if s != [] && s[0] == '"' then ReadQuoted(s[1..]) else ReadPlain(s)
  }

  /** The records of a CSV text, each a non-empty list of field texts. */
  function Records(s: string): (r: seq<seq<string>>)
    ensures |r| >= 1
    decreases |s|
  {
    var (f, rest) := ReadField(s);
    if rest == [] then [[f]]
    else if rest[0] == ',' then
      var rows := Records(rest[1..]);
      [[f] + rows[0]] + rows[1..]
    else [[f]] + Records(rest[1..])
  }

  // ---------------------------------------------------------------------
  // Round trips.

  lemma {:induction false} QuotedRound(t: string, tail: string)
    requires tail == [] || tail[0] != '"'
    ensures ReadQuoted(ReplaceAll(t, '"', "\"\"") + "\"" + tail) == (t, tail)
  {
    var s := ReplaceAll(t, '"', "\"\"") + "\"" + tail;
    if t == [] {
      assert s == "\"" + tail;
      assert s[1..] == tail;
    } else {
      var d := ReplaceAll(t[1..], '"', "\"\"");
      QuotedRound(t[1..], tail);
      if t[0] == '"' {
        assert s == "\"\"" + (d + "\"" + tail);
        assert s[2..] == d + "\"" + tail;
        assert t == "\"" + t[1..];
      } else {
        assert s == [t[0]] + (d + "\"" + tail);
        assert s[1..] == d + "\"" + tail;
        assert t == [t[0]] + t[1..];
      }
    }
  }

  /** Stripping the outer quotes and collapsing `""` recovers the string. */
  lemma QuoteRoundTrip(t: string)
    ensures ReadField(Quote(t)) == (t, "")
  {
    QuotedRound(t, "");
    assert Quote(t)[1..] == ReplaceAll(t, '"', "\"\"") + "\"" + "";
  }

  lemma {:induction false} PlainRound(t: string, tail: string)
    requires !NeedsQuoting(t)
    requires tail == [] || tail[0] == ',' || tail[0] == '\n'
    ensures ReadPlain(t + tail) == (t, tail)
  {
    if t == [] {
      assert t + tail == tail;
    } else {
      assert (t + tail)[1..] == t[1..] + tail;
      assert t[0] in t;
      PlainRound(t[1..], tail);
      assert t == [t[0]] + t[1..];
    }
  }

  /** A written field followed by a separator (or nothing) reads back as the
      text it stands for, leaving the separator. */
  lemma FieldRound(c: string, t: string, tail: string)
    requires Encodes(c, t)
    requires tail == [] || tail[0] == ',' || tail[0] == '\n'
    ensures ReadField(c + tail) == (t, tail)
  {
    if c == Quote(t) {
      QuotedRound(t, tail);
      assert (c + tail)[1..] == ReplaceAll(t, '"', "\"\"") + "\"" + tail;
    } else {
      PlainRound(t, tail);
      if t != [] {
        assert t[0] in t;
      }
    }
  }

  /** The rest of the records after a record that ends in `tail`. */
  function After(tail: string): seq<seq<string>>
  {
    if tail == [] then [] else Records(tail[1..])
  }

  lemma {:induction false} LineRound(cs: seq<string>, ts: seq<string>, tail: string)
    requires |cs| == |ts| >= 1
    requires forall j :: 0 <= j < |cs| ==> Encodes(cs[j], ts[j])
    requires tail == [] || tail[0] == '\n'
    ensures Records(Join(cs, ",") + tail) == [ts] + After(tail)
    decreases |cs|
  {
    if |cs| == 1 {
      FieldRound(cs[0], ts[0], tail);
      assert ts == [ts[0]];
    } else {
      var more := Join(cs[1..], ",") + tail;
      assert Join(cs, ",") + tail == cs[0] + ("," + more);
      FieldRound(cs[0], ts[0], "," + more);
      assert ("," + more)[1..] == more;
      LineRound(cs[1..], ts[1..], tail);
      assert ts == [ts[0]] + ts[1..];
    }
  }

  lemma {:induction false} FileRound(cells: seq<seq<string>>, texts: seq<seq<string>>)
    requires |cells| == |texts| >= 1
    requires forall i :: 0 <= i < |cells| ==> |cells[i]| == |texts[i]| >= 1
    requires forall i, j :: 0 <= i < |cells| && 0 <= j < |cells[i]| ==> Encodes(cells[i][j], texts[i][j])
    ensures Records(Join(JoinEach(cells, ","), "\n")) == texts
    decreases |cells|
  {
    var lines := JoinEach(cells, ",");
    if |cells| == 1 {
      LineRound(cells[0], texts[0], "");
      assert Join(lines, "\n") + "" == lines[0];
    } else {
      var more := Join(lines[1..], "\n");
      assert lines[1..] == JoinEach(cells[1..], ",");
      assert Join(lines, "\n") == Join(cells[0], ",") + ("\n" + more);
      LineRound(cells[0], texts[0], "\n" + more);
      assert ("\n" + more)[1..] == more;
      FileRound(cells[1..], texts[1..]);
      assert After("\n" + more) == texts[1..];
      assert texts == [texts[0]] + texts[1..];
    }
  }

  /** Reading back the written CSV gives the header line and, for every row,
      one field per header holding the text of that row's value, provided
      no header itself needs quoting (the handler writes headers unquoted). */
  lemma CsvRoundTrip(data: seq<Row>)
    requires data != [] && data[0] != []
    requires forall k :: 0 <= k < |data[0]| ==> !NeedsQuoting(data[0][k].0)
    ensures Records(ToCsv(data).value) == [Keys(data[0])] + TextTable(Keys(data[0]), data)
  {
    var headers := Keys(data[0]);
    FileRound([headers] + CellTable(headers, data), [headers] + TextTable(headers, data));
  }

  /** The round trip record by record: line `i + 1` holds the texts of row `i`. */
  lemma CsvRecords(data: seq<Row>)
    requires data != [] && data[0] != []
    requires forall k :: 0 <= k < |data[0]| ==> !NeedsQuoting(data[0][k].0)
    ensures var recs := Records(ToCsv(data).value);
      && |recs| == |data| + 1
      && recs[0] == Keys(data[0])
      && forall i :: 0 <= i < |data| ==> recs[i + 1] == Texts(Keys(data[0]), data[i])
  {
    var recs := Records(ToCsv(data).value);
    var texts := TextTable(Keys(data[0]), data);
    CsvRoundTrip(data);
    ConsIndexed(recs, Keys(data[0]), texts);
  }

  lemma ConsIndexed<T>(s: seq<T>, h: T, t: seq<T>)
    requires s == [h] + t
    ensures |s| == |t| + 1 && s[0] == h
    ensures forall i :: 0 <= i < |t| ==> s[i + 1] == t[i]
  {
  }

  /** Keys that no earlier key repeats. */
  predicate DistinctKeys(row: Row)
  {
    forall i, j :: 0 <= i < j < |row| ==> row[i].0 != row[j].0
  }

  /** With distinct keys, `row[key]` is the value stored with the key. */
  lemma {:induction false} LookupAt(row: Row, k: nat)
    requires k < |row|
    requires forall j :: 0 <= j < k ==> row[j].0 != row[k].0
    ensures Lookup(row, row[k].0) == Some(row[k].1)
  {
    if k > 0 {
      assert row[0].0 != row[k].0;
      assert row[1..][k - 1] == row[k];
      LookupAt(row[1..], k - 1);
    }
  }

  /** Under its own keys, field `j` of an object holds the text of its
      `j`-th value when no earlier key repeats the `j`-th. */
  lemma TextsOfZip(keys: seq<string>, values: seq<Value>, j: nat)
    requires |keys| == |values| && j < |keys|
    requires forall i :: 0 <= i < j ==> keys[i] != keys[j]
    ensures Texts(keys, Zip(keys, values))[j] == CellText(Some(values[j]))
  {
    LookupAt(Zip(keys, values), j);
  }

  /** Each field of a record with the row's own keys as headers holds the
      text of the row's value in that position. */
  lemma TextsOfOwnKeys(row: Row)
    requires DistinctKeys(row)
    ensures forall j :: 0 <= j < |row| ==> Texts(Keys(row), row)[j] == CellText(Some(row[j].1))
  {
    forall j | 0 <= j < |row|
      ensures Texts(Keys(row), row)[j] == CellText(Some(row[j].1))
    {
      LookupAt(row, j);
    }
  }

  /** Every record of the written CSV has exactly one field per header. */
  lemma CsvShape(data: seq<Row>)
    requires data != [] && data[0] != []
    requires forall k :: 0 <= k < |data[0]| ==> !NeedsQuoting(data[0][k].0)
    ensures var recs := Records(ToCsv(data).value);
      |recs| == |data| + 1 && forall i :: 0 <= i < |recs| ==> |recs[i]| == |data[0]|
  {
    CsvRoundTrip(data);
  }
}

=== FILE: env.dfy ===
/** What the handlers read from the process environment, and the library
    functions the model takes as parameters instead of defining them. */
module Env {
  import opened Base

  /** The environment variables the core reads; `None` is an unset variable. */
  datatype Config = Config(
    resendApiKey: Option<string>,   // RESEND_API_KEY
    baseUrl: Option<string>,        // NEXT_PUBLIC_BASE_URL
    organizerEmail: Option<string>  // ORGANIZER_EMAIL
  )

  /** Library behaviour the model leaves uninterpreted: Zod's email regular
      expression and `encodeURIComponent`. Every property proved here holds
      for every choice of these two functions. `encodeURIComponent` throws a
      `URIError` on a lone surrogate; `None` stands for that throw. */
  datatype Platform = Platform(
    isEmail: string -> bool,
    encodeUriComponent: string -> Option<string>
  )

  /** The placeholder key the Resend client is built with when none is set. */
  const PlaceholderKey := "re_placeholder"

  /** The configuration test both mail-sending handlers run first: a key is
      set, non-empty, and not the placeholder. */
  predicate EmailConfigured(cfg: Config)
  {
    cfg.resendApiKey.Some? && cfg.resendApiKey.value != "" && cfg.resendApiKey.value != PlaceholderKey
  }

  /** `process.env.X || fallback`: an unset or empty variable gives the fallback. */
  function OrDefault(v: Option<string>, fallback: string): (r: string)
    ensures (v.None? || v.value == "") ==> r == fallback
    ensures (v.Some? && v.value != "") ==> r == v.value
  {
    if v.Some? && v.value != "" then v.value else fallback
  }

  /** What one `resend.emails.send(...)` call came to: it threw, or it
      returned, with `data?.id` absent when the service reported an error. */
  datatype MailOutcome = Threw | Answered(id: Option<string>)

  /** The test `if (emailResult.data?.id)`: a non-empty message id. */
  predicate Delivered(o: MailOutcome)
  {
    o.Answered? && o.id.Some? && o.id.value != ""
  }
}

=== FILE: export.dfy ===
/** The `GET /api/export` handler: the `type` and `format` query parameters
    select a table (RSVPs, invites or a summary) and a file format; the CSV
    path writes the table with the writer of `Csv`. The workbook path is
    reduced to which table it would hold. */
module Export {
  import opened Base
  import opened Text
  import opened Env
  import opened Store
  import opened Csv

  datatype Kind = Rsvps | Invites | Summary

  const DefaultType := "rsvps"
  const DefaultFormat := "xlsx"

  /** The accepted values of `type`. */
  function KindOf(t: string): (r: Option<Kind>)
    ensures r == Some(Rsvps) <==> t == "rsvps"
    ensures r == Some(Invites) <==> t == "invites"
    ensures r == Some(Summary) <==> t == "summary"
  {
    if t == "rsvps" then Some(Rsvps)
    else if t == "invites" then Some(Invites)
    else if t == "summary" then Some(Summary)
    else None
  }

  /** The `type` value that selects a table kind. */
  function KindName(k: Kind): (t: string)
    ensures KindOf(t) == Some(k)
    ensures t != ""
  {
    match k
    case Rsvps => "rsvps"
    case Invites => "invites"
    case Summary => "summary"
  }

  /** The stem of the download name; `today` is the date part of
      `new Date().toISOString()`. */
  function Filename(k: Kind, today: string): (r: string)
    ensures StartsWith(r, "GJS_20th_Anniversary_")
    ensures |r| > |today| && r[|r| - |today|..] == today
  {
    match k
    case Rsvps => "GJS_20th_Anniversary_RSVPs_" + today
    case Invites => "GJS_20th_Anniversary_Invites_" + today
    case Summary => "GJS_20th_Anniversary_Summary_" + today
  }

  datatype Response =
    | InvalidType                                  // 400
    | NoData                                       // 404
    | CsvFile(filename: string, content: string)   // text/csv attachment
    | Workbook(filename: string, kind: Kind)       // xlsx attachment

  function StatusCode(r: Response): (c: int)
    ensures c == 200 <==> r.CsvFile? || r.Workbook?
    ensures c == 400 <==> r.InvalidType?
    ensures c == 404 <==> r.NoData?
  {
    match r
    case InvalidType => 400
    case NoData => 404
    case CsvFile(_, _) => 200
    case Workbook(_, _) => 200
  }

  // ---------------------------------------------------------------------
  // Tables.

  function OptStr(v: Option<string>): Value
  {
    if v.Some? then VStr(v.value) else VNull
  }

  function OptInt(v: Option<int>): Value
  {
    if v.Some? then VNum(v.value) else VNull
  }

  const RsvpColumns: seq<string> := ["id", "name", "email", "attendance",
    "dietary_requirements", "rsvp_date", "confirmation_id", "created_at"]

  const InviteColumns: seq<string> := ["id", "name", "email", "invite_sent_date",
    "invite_url", "rsvp_id", "status", "created_at"]

  /** A `SELECT * FROM rsvps` row as an object, columns in table order;
      `render` is the text SQLite stores for a DATETIME. */
  function RsvpRow(r: RsvpRecord, render: Timestamp -> string): (row: Row)
    ensures Keys(row) == RsvpColumns
  {
    Zip(RsvpColumns, RsvpValues(r, render))
  }

  function RsvpValues(r: RsvpRecord, render: Timestamp -> string): (v: seq<Value>)
    ensures |v| == |RsvpColumns|
  {
    [ VNum(r.id), VStr(r.name), VStr(r.email), VStr(AttendanceText(r.attendance)),
      OptStr(r.dietaryRequirements), VStr(render(r.rsvpDate)),
      OptStr(r.confirmationId), VStr(render(r.createdAt)) ]
  }

  /** A `SELECT * FROM invites` row as an object, columns in table order. */
  function InviteRow(r: InviteRecord, render: Timestamp -> string): (row: Row)
    ensures Keys(row) == InviteColumns
  {
    Zip(InviteColumns, InviteValues(r, render))
  }

  function InviteValues(r: InviteRecord, render: Timestamp -> string): (v: seq<Value>)
    ensures |v| == |InviteColumns|
  {
    [ VNum(r.id), VStr(r.name), VStr(r.email),
      if r.inviteSentDate.Some? then VStr(render(r.inviteSentDate.value)) else VNull,
      OptStr(r.inviteUrl), OptInt(r.rsvpId), VStr(StatusText(r.status)),
      VStr(render(r.createdAt)) ]
  }

  /** `rsvpStats.find(s => s.attendance === a)?.count || 0`. */
  function AttendanceOrZero(stats: seq<AttendanceCount>, a: Attendance): (n: nat)
    ensures n > 0 ==> exists k :: 0 <= k < |stats| && stats[k].attendance == a && stats[k].count == n
    ensures (forall k :: 0 <= k < |stats| ==> stats[k].attendance != a) ==> n == 0
  {
    if stats == [] then 0
    else if stats[0].attendance == a then stats[0].count
    else
      var n := AttendanceOrZero(stats[1..], a);
      assert n > 0 ==> stats[1..][0] == stats[1];
      n
  }

  /** `inviteStats.find(s => s.status === st)?.count || 0`. */
  function StatusOrZero(stats: seq<StatusCount>, st: Status): (n: nat)
    ensures n > 0 ==> exists k :: 0 <= k < |stats| && stats[k].status == st && stats[k].count == n
    ensures (forall k :: 0 <= k < |stats| ==> stats[k].status != st) ==> n == 0
  {
    if stats == [] then 0
    else if stats[0].status == st then stats[0].count
    else StatusOrZero(stats[1..], st)
  }

  /** The three objects of the summary export. */
  function SummaryRows(db: Db): (r: seq<Row>)
    ensures |r| == 3 && Keys(r[0]) == SummaryColumns
    ensures |r[1]| == 5 && r[0][1].1 == VNum(|db.rsvps|) && r[1][1].1 == VNum(|db.invites|)
    ensures r[0][2].1 == VNum(CountAttendance(db.rsvps, Yes))
    ensures r[0][3].1 == VNum(CountAttendance(db.rsvps, No))
  {
    SummaryCounts(db);
    var rsvpStats, inviteStats := RsvpStats(db), InviteStats(db);
    SummaryOf(|db.rsvps|, AttendanceOrZero(rsvpStats, Yes), AttendanceOrZero(rsvpStats, No),
              |db.invites|, StatusOrZero(inviteStats, Sent), StatusOrZero(inviteStats, Responded),
              StatusOrZero(inviteStats, Pending))
  }

  /** The summary objects for the given figures. */
  function SummaryOf(rsvps: nat, attending: nat, notAttending: nat,
                     invites: nat, sent: nat, responded: nat, pending: nat): (r: seq<Row>)
    ensures |r| == 3 && Keys(r[0]) == SummaryColumns
    ensures r[0][1].1 == VNum(rsvps) && r[0][2].1 == VNum(attending) && r[0][3].1 == VNum(notAttending)
    ensures |r[1]| == 5 && r[1][1].1 == VNum(invites)
  {
    [ [ ("Sheet", VStr("RSVP Summary")), ("Total RSVPs", VNum(rsvps)),
        ("Attending", VNum(attending)), ("Not Attending", VNum(notAttending)) ],
      [ ("Sheet", VStr("Invite Summary")), ("Total Invites", VNum(invites)),
        ("Sent", VNum(sent)), ("Responded", VNum(responded)), ("Pending", VNum(pending)) ],
      [ ("Sheet", VStr("Event Details")), ("Event", VStr("GJS 20th Year Celebration")),
        ("Date", VStr("October 30, 2025")), ("Time", VStr("4:00 PM - 8:00 PM")),
        ("Location", VStr("Level 10, Shell House, 37 Margaret Street, Sydney")) ] ]
  }

  /** The three exports download under different names on the same day. */
  lemma FilenamesDistinct(k1: Kind, k2: Kind, today: string)
    requires Filename(k1, today) == Filename(k2, today)
    ensures k1 == k2
  {
  }

  /** The objects the handler exports for a table kind, newest first. */
  function Table(k: Kind, db: Db, render: Timestamp -> string): (r: seq<Row>)
    ensures k == Rsvps ==> |r| == |db.rsvps|
    ensures k == Invites ==> |r| == |db.invites|
    ensures k == Summary ==> |r| == 3
  {
    match k
    case Rsvps =>
      var rows := ListRsvps(db);
      seq(|rows|, i requires 0 <= i < |rows| => RsvpRow(rows[i], render))
    case Invites =>
      var rows := ListInvites(db);
      seq(|rows|, i requires 0 <= i < |rows| => InviteRow(rows[i], render))
    case Summary => SummaryRows(db)
  }

  /** The handler. `typeParam` and `formatParam` are the query parameters
      (`None` when absent); an empty parameter counts as absent. */
  function Get(db: Db, typeParam: Option<string>, formatParam: Option<string>,
               today: string, render: Timestamp -> string): (r: Response)
    ensures r == InvalidType <==> KindOf(OrDefault(typeParam, DefaultType)).None?
    ensures r == NoData <==>
      && KindOf(OrDefault(typeParam, DefaultType)).Some?
      && OrDefault(formatParam, DefaultFormat) == "csv"
      && Table(KindOf(OrDefault(typeParam, DefaultType)).value, db, render) == []
    ensures r.CsvFile? ==>
      && OrDefault(formatParam, DefaultFormat) == "csv"
      && var k := KindOf(OrDefault(typeParam, DefaultType)).value;
         r.filename == Filename(k, today)
         && Some(r.content) == ToCsv(Table(k, db, render))
    ensures r.Workbook? <==>
      KindOf(OrDefault(typeParam, DefaultType)).Some? && OrDefault(formatParam, DefaultFormat) != "csv"
    ensures r.Workbook? ==>
      r == Workbook(Filename(r.kind, today), r.kind) && Some(r.kind) == KindOf(OrDefault(typeParam, DefaultType))
  {
    var t := OrDefault(typeParam, DefaultType);
    var format := OrDefault(formatParam, DefaultFormat);
    match KindOf(t)
    case None => InvalidType
    case Some(k) =>
      var filename := Filename(k, today);
      if format == "csv" then
        match ToCsv(Table(k, db, render))
        case None => NoData
        case Some(content) => CsvFile(filename, content)
      else Workbook(filename, k)
  }

  // ---------------------------------------------------------------------
  // Properties.

  /** Without parameters the handler exports the RSVPs as a workbook. */
  lemma Defaults(db: Db, today: string, render: Timestamp -> string)
    ensures Get(db, None, None, today, render) == Workbook(Filename(Rsvps, today), Rsvps)
    ensures Get(db, Some(""), Some(""), today, render) == Workbook(Filename(Rsvps, today), Rsvps)
  {
  }

  /** An unknown type is rejected whatever the format. */
  lemma InvalidTypeFirst(db: Db, t: string, f1: Option<string>, f2: Option<string>,
                         today: string, render: Timestamp -> string)
    requires t != "" && t != "rsvps" && t != "invites" && t != "summary"
    ensures Get(db, Some(t), f1, today, render) == InvalidType
    ensures Get(db, Some(t), f1, today, render) == Get(db, Some(t), f2, today, render)
  {
  }

  /** A CSV export of a kind is the table written by the CSV writer, or the
      "No data" answer when the table is empty. */
  lemma CsvExport(db: Db, k: Kind, today: string, render: Timestamp -> string)
    ensures Get(db, Some(KindName(k)), Some("csv"), today, render)
      == if Table(k, db, render) == [] then NoData
         else CsvFile(Filename(k, today), ToCsv(Table(k, db, render)).value)
  {
    assert OrDefault(Some(KindName(k)), DefaultType) == KindName(k);
    assert OrDefault(Some("csv"), DefaultFormat) == "csv";
  }

  /** A CSV export is empty exactly when its table is; the summary never is. */
  lemma EmptyCsv(db: Db, k: Kind, today: string, render: Timestamp -> string)
    ensures Get(db, Some(KindName(k)), Some("csv"), today, render) == NoData
      <==> (k == Rsvps && db.rsvps == []) || (k == Invites && db.invites == [])
  {
    CsvExport(db, k, today, render);
  }

  /** The summary counts: a group missing from the statistics reads as 0,
      so every figure is the count of matching rows. */
  lemma SummaryCounts(db: Db)
    ensures AttendanceOrZero(RsvpStats(db), Yes) == CountAttendance(db.rsvps, Yes)
    ensures AttendanceOrZero(RsvpStats(db), No) == CountAttendance(db.rsvps, No)
    ensures forall s: Status :: StatusOrZero(InviteStats(db), s) == CountStatus(db.invites, s)
  {
    AttendanceFound(db, Yes);
    AttendanceFound(db, No);
    forall s: Status ensures StatusOrZero(InviteStats(db), s) == CountStatus(db.invites, s) {
      var stats := InviteStats(db);
      var n := StatusOrZero(stats, s);
      if CountStatus(db.invites, s) > 0 {
        assert HasGroup(stats, s);
        StatusFindsGroup(stats, s);
      }
    }
  }

  lemma AttendanceFound(db: Db, a: Attendance)
    ensures AttendanceOrZero(RsvpStats(db), a) == CountAttendance(db.rsvps, a)
  {
    var stats := RsvpStats(db);
    var n := AttendanceOrZero(stats, a);
    if CountAttendance(db.rsvps, a) > 0 {
      assert HasAttendanceGroup(stats, a);
      AttendanceFindsGroup(stats, a);
    }
  }

  /** `find` returns the first matching group; a present group is found. */
  lemma {:induction false} StatusFindsGroup(stats: seq<StatusCount>, s: Status)
    requires HasGroup(stats, s)
    requires forall k :: 0 <= k < |stats| ==> stats[k].count > 0
    ensures StatusOrZero(stats, s) > 0
  {
    if stats[0].status != s {
      var k :| 0 <= k < |stats| && stats[k].status == s;
      assert stats[1..][k - 1] == stats[k];
      StatusFindsGroup(stats[1..], s);
    }
  }

  lemma {:induction false} AttendanceFindsGroup(stats: seq<AttendanceCount>, a: Attendance)
    requires HasAttendanceGroup(stats, a)
    requires forall k :: 0 <= k < |stats| ==> stats[k].count > 0
    ensures AttendanceOrZero(stats, a) > 0
  {
    if stats[0].attendance != a {
      var k :| 0 <= k < |stats| && stats[k].attendance == a;
      assert stats[1..][k - 1] == stats[k];
      AttendanceFindsGroup(stats[1..], a);
    }
  }

  // ---------------------------------------------------------------------
  // What a spreadsheet reads back from the CSV file.

  /** The text a count is written as: `0` is falsy and becomes empty. */
  function CountText(n: nat): string
  {
    CellText(Some(VNum(n)))
  }

  lemma RsvpHeaders(r: RsvpRecord, render: Timestamp -> string)
    ensures Keys(RsvpRow(r, render)) == RsvpColumns
    ensures forall k :: 0 <= k < |RsvpColumns| ==> !NeedsQuoting(RsvpColumns[k])
  {
    RsvpColumnsPlain();
  }

  /** No RSVP column name needs quoting. */
  lemma RsvpColumnsPlain()
    ensures forall k :: 0 <= k < |RsvpColumns| ==> !NeedsQuoting(RsvpColumns[k])
  {
    var c := RsvpColumns;
    PlainWord(c[0]); PlainWord(c[1]); PlainWord(c[2]); PlainWord(c[3]);
    PlainWord(c[4]); PlainWord(c[5]); PlainWord(c[6]); PlainWord(c[7]);
  }

  /** A CSV record that carries an RSVP's name, e-mail address, answer and
      dietary requirements in the columns of `RsvpColumns`. */
  predicate ReadsAsRsvp(t: seq<string>, r: RsvpRecord)
  {
    && |t| == |RsvpColumns|
    && t[1] == r.name
    && t[2] == r.email
    && t[3] == AttendanceText(r.attendance)
    && t[4] == CellText(Some(OptStr(r.dietaryRequirements)))
  }

  /** The fields of one RSVP record, as a spreadsheet reads them. */
  lemma RsvpTexts(r: RsvpRecord, render: Timestamp -> string)
    ensures ReadsAsRsvp(Texts(RsvpColumns, RsvpRow(r, render)), r)
  {
    var values := RsvpValues(r, render);
    assert values[1] == VStr(r.name) && values[2] == VStr(r.email);
    assert values[3] == VStr(AttendanceText(r.attendance));
    assert values[4] == OptStr(r.dietaryRequirements);
    RsvpColumnsDistinct();
    TextsOfZip(RsvpColumns, values, 1);
    TextsOfZip(RsvpColumns, values, 2);
    TextsOfZip(RsvpColumns, values, 3);
    TextsOfZip(RsvpColumns, values, 4);
  }

  /** The first five column names have different lengths. */
  lemma RsvpColumnsDistinct()
    ensures forall i, j :: 0 <= i < j < 5 ==> RsvpColumns[i] != RsvpColumns[j]
  {
    assert |RsvpColumns[0]| == 2 && |RsvpColumns[1]| == 4 && |RsvpColumns[2]| == 5;
    assert |RsvpColumns[3]| == 10 && |RsvpColumns[4]| == 20;
  }

  /** The RSVP export is a CSV file whose text is the writer's output. */
  lemma RsvpCsvFile(db: Db, today: string, render: Timestamp -> string)
    requires db.rsvps != []
    ensures Get(db, Some("rsvps"), Some("csv"), today, render)
      == CsvFile(Filename(Rsvps, today), ToCsv(Table(Rsvps, db, render)).value)
  {
    CsvExport(db, Rsvps, today, render);
  }

  /** A CSV written from RSVP rows reads back as the column names and one
      record per row holding its fields. */
  lemma RsvpRowsReadBack(data: seq<Row>, rows: seq<RsvpRecord>, render: Timestamp -> string)
    requires |data| == |rows| >= 1
    requires forall i :: 0 <= i < |rows| ==> data[i] == RsvpRow(rows[i], render)
    ensures var recs := Records(ToCsv(data).value);
      && |recs| == |rows| + 1
      && recs[0] == RsvpColumns
      && forall i :: 0 <= i < |rows| ==> ReadsAsRsvp(recs[i + 1], rows[i])
  {
    RsvpHeaders(rows[0], render);
    CsvRecords(data);
    forall i | 0 <= i < |rows|
      ensures ReadsAsRsvp(Texts(RsvpColumns, data[i]), rows[i])
    {
      RsvpTexts(rows[i], render);
    }
  }

  /** The RSVP export reads back as a header line of the column names and,
      newest first, one record per RSVP holding its fields. */
  lemma RsvpCsvReadsBack(db: Db, today: string, render: Timestamp -> string)
    requires db.rsvps != []
    ensures var resp := Get(db, Some("rsvps"), Some("csv"), today, render);
      && resp.CsvFile?
      && var recs, rows := Records(resp.content), ListRsvps(db);
         && |recs| == |rows| + 1
         && recs[0] == RsvpColumns
         && forall i :: 0 <= i < |rows| ==> ReadsAsRsvp(recs[i + 1], rows[i])
  {
    RsvpCsvFile(db, today, render);
    RsvpRowsReadBack(Table(Rsvps, db, render), ListRsvps(db), render);
  }

  lemma InviteHeaders(r: InviteRecord, render: Timestamp -> string)
    ensures Keys(InviteRow(r, render)) == InviteColumns
    ensures forall k :: 0 <= k < |InviteColumns| ==> !NeedsQuoting(InviteColumns[k])
  {
    InviteColumnsPlain();
  }

  /** No invite column name needs quoting. */
  lemma InviteColumnsPlain()
    ensures forall k :: 0 <= k < |InviteColumns| ==> !NeedsQuoting(InviteColumns[k])
  {
    var c := InviteColumns;
    PlainWord(c[0]); PlainWord(c[1]); PlainWord(c[2]); PlainWord(c[3]);
    PlainWord(c[4]); PlainWord(c[5]); PlainWord(c[6]); PlainWord(c[7]);
  }

  /** Lower-case letters and underscores need no quoting. */
  lemma PlainWord(w: string)
    requires forall i :: 0 <= i < |w| ==> 'a' <= w[i] <= 'z' || w[i] == '_'
    ensures !NeedsQuoting(w)
  {
  }

  /** A CSV record that carries an invite's name, e-mail address, link and
      status in the columns of `InviteColumns`. */
  predicate ReadsAsInvite(t: seq<string>, r: InviteRecord)
  {
    && |t| == |InviteColumns|
    && t[1] == r.name
    && t[2] == r.email
    && t[4] == CellText(Some(OptStr(r.inviteUrl)))
    && t[6] == StatusText(r.status)
  }

  /** The fields of one invite record, as a spreadsheet reads them. */
  lemma InviteTexts(r: InviteRecord, render: Timestamp -> string)
    ensures ReadsAsInvite(Texts(InviteColumns, InviteRow(r, render)), r)
  {
    var values := InviteValues(r, render);
    assert values[1] == VStr(r.name) && values[2] == VStr(r.email);
    assert values[4] == OptStr(r.inviteUrl) && values[6] == VStr(StatusText(r.status));
    InviteColumnsDistinct();
    TextsOfZip(InviteColumns, values, 1);
    TextsOfZip(InviteColumns, values, 2);
    TextsOfZip(InviteColumns, values, 4);
    TextsOfZip(InviteColumns, values, 6);
  }

  /** The first seven column names have different lengths. */
  lemma InviteColumnsDistinct()
    ensures forall i, j :: 0 <= i < j < 7 ==> InviteColumns[i] != InviteColumns[j]
  {
    assert |InviteColumns[0]| == 2 && |InviteColumns[1]| == 4 && |InviteColumns[2]| == 5;
    assert |InviteColumns[3]| == 16 && |InviteColumns[4]| == 10 && |InviteColumns[5]| == 7;
    assert |InviteColumns[6]| == 6;
  }

  /** The invite export is a CSV file whose text is the writer's output. */
  lemma InviteCsvFile(db: Db, today: string, render: Timestamp -> string)
    requires db.invites != []
    ensures Get(db, Some("invites"), Some("csv"), today, render)
      == CsvFile(Filename(Invites, today), ToCsv(Table(Invites, db, render)).value)
  {
    CsvExport(db, Invites, today, render);
  }

  /** A CSV written from invite rows reads back as the column names and one
      record per row holding its fields. */
  lemma InviteRowsReadBack(data: seq<Row>, rows: seq<InviteRecord>, render: Timestamp -> string)
    requires |data| == |rows| >= 1
    requires forall i :: 0 <= i < |rows| ==> data[i] == InviteRow(rows[i], render)
    ensures var recs := Records(ToCsv(data).value);
      && |recs| == |rows| + 1
      && recs[0] == InviteColumns
      && forall i :: 0 <= i < |rows| ==> ReadsAsInvite(recs[i + 1], rows[i])
  {
    InviteHeaders(rows[0], render);
    CsvRecords(data);
    forall i | 0 <= i < |rows|
      ensures ReadsAsInvite(Texts(InviteColumns, data[i]), rows[i])
    {
      InviteTexts(rows[i], render);
    }
  }

  /** The invite export reads back as a header line of the column names and,
      newest first, one record per invite holding its fields. */
  lemma InviteCsvReadsBack(db: Db, today: string, render: Timestamp -> string)
    requires db.invites != []
    ensures var resp := Get(db, Some("invites"), Some("csv"), today, render);
      && resp.CsvFile?
      && var recs, rows := Records(resp.content), ListInvites(db);
         && |recs| == |rows| + 1
         && recs[0] == InviteColumns
         && forall i :: 0 <= i < |rows| ==> ReadsAsInvite(recs[i + 1], rows[i])
  {
    InviteCsvFile(db, today, render);
    InviteRowsReadBack(Table(Invites, db, render), ListInvites(db), render);
  }

  const SummaryColumns: seq<string> := ["Sheet", "Total RSVPs", "Attending", "Not Attending"]

  /** Under the first object's keys, an object keeps only its `Sheet` field. */
  lemma OnlySheetSurvives(row: Row, sheet: string)
    requires |row| >= 1 && row[0] == ("Sheet", VStr(sheet))
    requires forall k :: 1 <= k < |row| ==> row[k].0 !in SummaryColumns
    ensures Texts(SummaryColumns, row) == [sheet, "", "", ""]
  {
    var t := Texts(SummaryColumns, row);
    forall j | 1 <= j < 4 ensures t[j] == "" {
      assert SummaryColumns[j] !in Keys(row);
    }
  }

  /** Three summary objects whose first one has the summary columns as keys
      read back as the columns and each object's texts under them. */
  lemma {:induction false} SummaryShapeReadsBack(data: seq<Row>, t0: seq<string>, t1: seq<string>, t2: seq<string>)
    requires |data| == 3 && Keys(data[0]) == SummaryColumns
    requires Texts(SummaryColumns, data[0]) == t0
    requires Texts(SummaryColumns, data[1]) == t1
    requires Texts(SummaryColumns, data[2]) == t2
    ensures Records(ToCsv(data).value) == [SummaryColumns, t0, t1, t2]
  {
    var first := data[0];
    SummaryColumnsPlain();
    forall k | 0 <= k < |first| ensures !NeedsQuoting(first[k].0) {
      assert first[k].0 == Keys(first)[k];
    }
    CsvRecords(data);
    var recs := Records(ToCsv(data).value);
    assert |recs| == 4 && recs[0] == SummaryColumns;
    assert recs[1] == t0 && recs[2] == t1 && recs[3] == t2;
    FourElements(recs, SummaryColumns, t0, t1, t2);
  }

  lemma FourElements<T>(s: seq<T>, a: T, b: T, c: T, d: T)
    requires |s| == 4 && s[0] == a && s[1] == b && s[2] == c && s[3] == d
    ensures s == [a, b, c, d]
  {
  }

  lemma SummaryFirstRow(rsvps: nat, attending: nat, notAttending: nat,
                        invites: nat, sent: nat, responded: nat, pending: nat)
    ensures var row := SummaryOf(rsvps, attending, notAttending, invites, sent, responded, pending)[0];
      && Keys(row) == SummaryColumns
      && Texts(SummaryColumns, row)
         == ["RSVP Summary", CountText(rsvps), CountText(attending), CountText(notAttending)]
  {
    var row := SummaryOf(rsvps, attending, notAttending, invites, sent, responded, pending)[0];
    assert Keys(row) == SummaryColumns;
    assert DistinctKeys(row);
    TextsOfOwnKeys(row);
  }

  lemma SummaryInviteRow(rsvps: nat, attending: nat, notAttending: nat,
                         invites: nat, sent: nat, responded: nat, pending: nat)
    ensures Texts(SummaryColumns, SummaryOf(rsvps, attending, notAttending, invites, sent, responded, pending)[1])
      == ["Invite Summary", "", "", ""]
  {
    OnlySheetSurvives(SummaryOf(rsvps, attending, notAttending, invites, sent, responded, pending)[1],
                      "Invite Summary");
  }

  lemma SummaryEventRow(rsvps: nat, attending: nat, notAttending: nat,
                        invites: nat, sent: nat, responded: nat, pending: nat)
    ensures Texts(SummaryColumns, SummaryOf(rsvps, attending, notAttending, invites, sent, responded, pending)[2])
      == ["Event Details", "", "", ""]
  {
    OnlySheetSurvives(SummaryOf(rsvps, attending, notAttending, invites, sent, responded, pending)[2],
                      "Event Details");
  }

  /** What the summary CSV reads back as, for any figures. */
  lemma SummaryOfReadsBack(rsvps: nat, attending: nat, notAttending: nat,
                           invites: nat, sent: nat, responded: nat, pending: nat)
    ensures Records(ToCsv(SummaryOf(rsvps, attending, notAttending, invites, sent, responded, pending)).value)
      == [ SummaryColumns,
           ["RSVP Summary", CountText(rsvps), CountText(attending), CountText(notAttending)],
           ["Invite Summary", "", "", ""],
           ["Event Details", "", "", ""] ]
  {
    SummaryFirstRow(rsvps, attending, notAttending, invites, sent, responded, pending);
    SummaryInviteRow(rsvps, attending, notAttending, invites, sent, responded, pending);
    SummaryEventRow(rsvps, attending, notAttending, invites, sent, responded, pending);
    SummaryShapeReadsBack(SummaryOf(rsvps, attending, notAttending, invites, sent, responded, pending),
      ["RSVP Summary", CountText(rsvps), CountText(attending), CountText(notAttending)],
      ["Invite Summary", "", "", ""], ["Event Details", "", "", ""]);
  }

  lemma SummaryColumnsPlain()
    ensures forall k :: 0 <= k < |SummaryColumns| ==> !NeedsQuoting(SummaryColumns[k])
  {
  }

  lemma SummaryCsvFile(db: Db, today: string, render: Timestamp -> string)
    ensures Get(db, Some("summary"), Some("csv"), today, render)
      == CsvFile(Filename(Summary, today), ToCsv(SummaryRows(db)).value)
  {
    CsvExport(db, Summary, today, render);
  }

  /** The summary CSV takes its header line from the first object only, so
      the invite counts and the event details, whose keys differ, come out
      as empty fields: only the RSVP figures survive. */
  lemma SummaryCsvReadsBack(db: Db, today: string, render: Timestamp -> string)
    ensures var resp := Get(db, Some("summary"), Some("csv"), today, render);
      && resp.CsvFile?
      && Records(resp.content) == [
           SummaryColumns,
           ["RSVP Summary", CountText(|db.rsvps|),
              CountText(CountAttendance(db.rsvps, Yes)), CountText(CountAttendance(db.rsvps, No))],
           ["Invite Summary", "", "", ""],
           ["Event Details", "", "", ""] ]
  {
    SummaryCsvFile(db, today, render);
    SummaryCounts(db);
    var rsvpStats, inviteStats := RsvpStats(db), InviteStats(db);
    SummaryOfReadsBack(|db.rsvps|, AttendanceOrZero(rsvpStats, Yes), AttendanceOrZero(rsvpStats, No),
              |db.invites|, StatusOrZero(inviteStats, Sent), StatusOrZero(inviteStats, Responded),
              StatusOrZero(inviteStats, Pending));
  }
}

=== FILE: fields.dfy ===
/** The `name` and `email` field schemas, declared identically by the invite
    and the RSVP routes. */
module Fields {
  import opened Base
  import opened Text
  import opened Json
  import opened Zod
  import opened Env

  /** The raw string under `key`, when there is one. */
  predicate HasString(j: Json, key: string)
  {
    j.Obj? && key in j.fields && j.fields[key].Str?
  }

  /** `name: z.string().min(2).max(100).trim()`. */
  function ParseName(v: Option<Json>, path: seq<PathItem>): (r: Parsed<string>)
    ensures r.Valid? <==> v.Some? && v.value.Str? && 2 <= Utf16Length(v.value.s) <= 100
    ensures r.Valid? ==> r.value == Trim(v.value.s)
    ensures r.Invalid? ==> |r.issues| > 0 && Under(r.issues, path)
  {
    match v
    case Some(Str(s)) =>
      var issues := LengthIssues(s, 2, 100, path);
      if issues == [] then Valid(Trim(s)) else Invalid(issues)
    case _ => Invalid([Issue(path, InvalidType)])
  }

  /** `email: z.string().email().max(255).toLowerCase().trim()`. */
  function ParseEmail(v: Option<Json>, path: seq<PathItem>, p: Platform): (r: Parsed<string>)
    ensures r.Valid? <==> v.Some? && v.value.Str? && p.isEmail(v.value.s) && Utf16Length(v.value.s) <= 255
    ensures r.Valid? ==> r.value == Trim(ToLower(v.value.s))
    ensures r.Invalid? ==> |r.issues| > 0 && Under(r.issues, path)
  {
    match v
    case Some(Str(s)) =>
      var issues := (if p.isEmail(s) then [] else [Issue(path, InvalidString)])
                    + LengthIssues(s, 0, 255, path);
      if issues == [] then Valid(Trim(ToLower(s))) else Invalid(issues)
    case _ => Invalid([Issue(path, InvalidType)])
  }

  /** The length checks see the raw string, so a name of two spaces passes
      `min(2)` and is stored empty after `trim`. */
  lemma BlankNameAccepted(path: seq<PathItem>)
    ensures ParseName(Some(Str("  ")), path) == Valid("")
  {
    assert Utf16Length("  ") == 2;
    assert LeadingSpace("  ") == 2;
  }

  /** An accepted email comes out trimmed and without ASCII capitals, so the
      exact-match lookups of the routes compare normalised addresses. */
  lemma ParsedEmailNormal(v: Option<Json>, path: seq<PathItem>, p: Platform)
    requires ParseEmail(v, path, p).Valid?
    ensures var e := ParseEmail(v, path, p).value;
      IsTrimmed(e) && forall k :: 0 <= k < |e| ==> !('A' <= e[k] <= 'Z')
  {
    var s := v.value.s;
    assert ParseEmail(v, path, p).value == Trim(ToLower(s));
    TrimOfLower(s);
  }

  lemma TrimOfLower(s: string)
    ensures var e := Trim(ToLower(s));
      forall k :: 0 <= k < |e| ==> !('A' <= e[k] <= 'Z')
  {
    var lower := ToLower(s);
    var e := Trim(lower);
    var i := LeadingSpace(lower);
    assert e == lower[i..][..|e|];
    forall k | 0 <= k < |e| ensures !('A' <= e[k] <= 'Z') {
      assert e[k] == lower[i + k];
    }
  }
}

=== FILE: html.dfy ===
/** The `sanitizeHtml` escaper of the RSVP handler: six chained global
    replacements, `&` first. */
module Html {
  import opened Text

  /** The characters the escaper rewrites. */
  predicate IsSpecial(c: char)
  {
    c == '&' || c == '<' || c == '>' || c == '"' || c == '\'' || c == '/'
  }

  /** No character that could open a tag, close an attribute value or end a
      path survives: what the escaper guarantees of its output. */
  predicate MarkupFree(s: string)
  {
    '<' !in s && '>' !in s && '"' !in s && '\'' !in s && '/' !in s
  }

  /** The entity each special character becomes; other characters stay. */
  function EscapeChar(c: char): (r: string)
    ensures |r| >= 1
    ensures MarkupFree(r)
    ensures !IsSpecial(c) ==> r == [c]
  {
    match c
    case '&' => "&amp;"
    case '<' => "&lt;"
    case '>' => "&gt;"
    case '"' => "&quot;"
    case '\'' => "&#x27;"
    case '/' => "&#x2F;"
    case _ => [c]
  }

  /** Reference definition: the per-character map. */
  function Escape(s: string): (r: string)
  {
    if s == [] then [] else EscapeChar(s[0]) + Escape(s[1..])
  }

  /** `sanitizeHtml(str)` as written: `&` is replaced first, so the `&`
      that the later entities introduce is never escaped again. */
  function SanitizeHtml(s: string): (r: string)
    ensures r == Escape(s)
    ensures MarkupFree(r)
    ensures |r| >= |s|
    ensures (forall i :: 0 <= i < |s| ==> !IsSpecial(s[i])) ==> r == s
  {
    SanitizeIsEscape(s);
    EscapeFacts(s);
    Chain(s, 0)
  }

  /** The `replace(/c/g, entity)` calls of `sanitizeHtml`, in source order. */
  const Rules: seq<(char, string)> := [
    ('&', "&amp;"), ('<', "&lt;"), ('>', "&gt;"),
    ('"', "&quot;"), ('\'', "&#x27;"), ('/', "&#x2F;")
  ]

  /** Applies the rules from index `k` on, each to the whole output of the
      previous one; `Chain(s, 0)` is the body of `sanitizeHtml`. */
  function Chain(s: string, k: nat): string
    requires k <= |Rules|
    decreases |Rules| - k
  {
    if k == |Rules| then s else Chain(ReplaceAll(s, Rules[k].0, Rules[k].1), k + 1)
  }

  lemma {:induction false} ChainAppend(a: string, b: string, k: nat)
    requires k <= |Rules|
    ensures Chain(a + b, k) == Chain(a, k) + Chain(b, k)
    decreases |Rules| - k
  {
    if k < |Rules| {
      var (c, rep) := Rules[k];
      ReplaceAllAppend(a, b, c, rep);
      ChainAppend(ReplaceAll(a, c, rep), ReplaceAll(b, c, rep), k + 1);
    }
  }

  lemma ReplaceOne(c: char, rep: string)
    ensures ReplaceAll([c], c, rep) == rep
  {
    assert [c][1..] == [];
  }

  /** Rules whose character does not occur are no-ops. */
  lemma {:induction false} ChainSkip(t: string, k: nat, i: nat)
    requires k <= i <= |Rules|
    requires forall j :: k <= j < i ==> Rules[j].0 !in t
    ensures Chain(t, k) == Chain(t, i)
    decreases i - k
  {
    if k < i {
      ReplaceAbsent(t, Rules[k].0, Rules[k].1);
      ChainSkip(t, k + 1, i);
    }
  }

  /** The rule characters are distinct, and no entity contains the character
      of a later rule: the only character an entity shares with the rules is
      `&`, whose rule runs first. */
  lemma RulesShape()
    ensures forall i, j :: 0 <= i < j < |Rules| ==> Rules[i].0 != Rules[j].0
    ensures forall i, j :: 0 <= i < j < |Rules| ==> Rules[j].0 !in Rules[i].1
  {
  }

  /** A rule character alone becomes its entity and nothing more. */
  lemma ChainRule(i: nat)
    requires i < |Rules|
    ensures Chain([Rules[i].0], 0) == Rules[i].1
  {
    var (c, rep) := Rules[i];
    RulesShape();
    ChainSkip([c], 0, i);
    ReplaceOne(c, rep);
    ChainSkip(rep, i + 1, |Rules|);
  }

  lemma ChainChar(c: char)
    ensures Chain([c], 0) == EscapeChar(c)
  {
    if c == '&' {
      ChainRule(0);
    } else if c == '<' {
      ChainRule(1);
    } else if c == '>' {
      ChainRule(2);
    } else if c == '"' {
      ChainRule(3);
    } else if c == '\'' {
      ChainRule(4);
    } else if c == '/' {
      ChainRule(5);
    } else {
      ChainSkip([c], 0, |Rules|);
    }
  }

  /** Chaining the six global replacements, `&` first, is the same as
      escaping character by character. */
  lemma {:induction false} SanitizeIsEscape(s: string)
    ensures Chain(s, 0) == Escape(s)
  {
    if s != [] {
      assert s == [s[0]] + s[1..];
      ChainAppend([s[0]], s[1..], 0);
      ChainChar(s[0]);
      SanitizeIsEscape(s[1..]);
    }
  }

  /** Escaped text carries none of the markup characters, is never shorter
      than the original, and equals it when it has no special character. */
  lemma {:induction false} EscapeFacts(s: string)
    ensures MarkupFree(Escape(s))
    ensures |Escape(s)| >= |s|
    ensures (forall i :: 0 <= i < |s| ==> !IsSpecial(s[i])) ==> Escape(s) == s
  {
    if forall i :: 0 <= i < |s| ==> !IsSpecial(s[i]) {
      EscapePlain(s);
    }
    if s != [] {
      EscapeFacts(s[1..]);
      var head, tail := EscapeChar(s[0]), Escape(s[1..]);
      assert Escape(s) == head + tail;
      assert forall c :: c in head + tail ==> c in head || c in tail;
    }
  }

  /** Text without special characters is left as it is. */
  lemma {:induction false} EscapePlain(s: string)
    requires forall i :: 0 <= i < |s| ==> !IsSpecial(s[i])
    ensures Escape(s) == s
  {
    if s != [] {
      assert !IsSpecial(s[0]);
      forall i | 0 <= i < |s[1..]|
        ensures !IsSpecial(s[1..][i])
      {
        assert s[1..][i] == s[i + 1];
      }
      EscapePlain(s[1..]);
      assert s == [s[0]] + s[1..];
    }
  }

  // ---------------------------------------------------------------------
  // Inverse: the escaped text determines the original.

  /** Decodes the six entities the escaper produces. */
  function Unescape(t: string): string
  {
    if t == [] then []
    else if StartsWith(t, "&amp;") then "&" + Unescape(t[5..])
    else if StartsWith(t, "&lt;") then "<" + Unescape(t[4..])
    else if StartsWith(t, "&gt;") then ">" + Unescape(t[4..])
    else if StartsWith(t, "&quot;") then "\"" + Unescape(t[6..])
    else if StartsWith(t, "&#x27;") then "'" + Unescape(t[6..])
    else if StartsWith(t, "&#x2F;") then "/" + Unescape(t[6..])
    else [t[0]] + Unescape(t[1..])
  }

  lemma UnescapeStep(c: char, rest: string)
    ensures Unescape(EscapeChar(c) + rest) == [c] + Unescape(rest)
  {
    var t := EscapeChar(c) + rest;
    var e := EscapeChar(c);
    assert t[..|e|] == e;
    assert t[|e|..] == rest;
    if !IsSpecial(c) {
      assert t[0] == c;
      assert !StartsWith(t, "&amp;") && !StartsWith(t, "&lt;") && !StartsWith(t, "&gt;");
      assert !StartsWith(t, "&quot;") && !StartsWith(t, "&#x27;") && !StartsWith(t, "&#x2F;");
    } else if c == '<' {
      assert t[1] == 'l';
      assert !StartsWith(t, "&amp;");
    } else if c == '>' {
      assert t[1] == 'g';
      assert !StartsWith(t, "&amp;") && !StartsWith(t, "&lt;");
    } else if c == '"' {
      assert t[1] == 'q';
      assert !StartsWith(t, "&amp;") && !StartsWith(t, "&lt;") && !StartsWith(t, "&gt;");
    } else if c == '\'' {
      assert t[1] == '#' && t[4] == '7';
      assert !StartsWith(t, "&amp;") && !StartsWith(t, "&lt;") && !StartsWith(t, "&gt;");
      assert !StartsWith(t, "&quot;");
    } else if c == '/' {
      assert t[1] == '#' && t[4] == 'F';
      assert !StartsWith(t, "&amp;") && !StartsWith(t, "&lt;") && !StartsWith(t, "&gt;");
      assert !StartsWith(t, "&quot;") && !StartsWith(t, "&#x27;");
    }
  }

  /** Decoding the sanitised text gives back the original, so two different
      inputs never sanitise to the same output. */
  lemma {:induction false} UnescapeSanitize(s: string)
    ensures Unescape(SanitizeHtml(s)) == s
  {
    EscapeRoundTrip(s);
  }

  lemma {:induction false} EscapeRoundTrip(s: string)
    ensures Unescape(Escape(s)) == s
  {
    if s != [] {
      EscapeRoundTrip(s[1..]);
      UnescapeStep(s[0], Escape(s[1..]));
      assert s == [s[0]] + s[1..];
    }
  }
}

=== FILE: invites.dfy ===
/** `POST /api/invites`: validates one invite or a batch of invites with the
    Zod schemas of the route, skips emails that already have an invite, and
    inserts the rest with an RSVP link built from the base URL. */
module Invites {
  import opened Base
  import opened Text
  import opened Json
  import opened Zod
  import opened Env
  import opened Store
  import opened Fields

  /** The output of `inviteSchema`: both fields already trimmed, the email
      lower-cased. */
  datatype InviteInput = InviteInput(name: string, email: string)

  // ---------------------------------------------------------------------
  // inviteSchema and bulkInviteSchema

  /** What `inviteSchema` accepts: an object whose `name` is a string of 2 to
      100 UTF-16 units and whose `email` is a string the email check accepts
      and of at most 255 units. Both lengths are those of the raw strings:
      the `trim` and `toLowerCase` steps come after the checks. */
  predicate AcceptableInvite(j: Json, p: Platform)
  {
    && HasString(j, "name") && 2 <= Utf16Length(j.fields["name"].s) <= 100
    && HasString(j, "email") && p.isEmail(j.fields["email"].s)
    && Utf16Length(j.fields["email"].s) <= 255
  }

  /** The value `inviteSchema` produces from an acceptable object. */
  function Normalized(j: Json, p: Platform): InviteInput
    requires AcceptableInvite(j, p)
  {
    InviteInput(Trim(j.fields["name"].s), Trim(ToLower(j.fields["email"].s)))
  }

  /** `inviteSchema.safeParse` of the value at `path`: a non-object is one
      `invalid_type` issue; otherwise the issues of `name`, then of `email`. */
  function ParseInvite(j: Json, path: seq<PathItem>, p: Platform): (r: Parsed<InviteInput>)
    ensures r.Valid? <==> AcceptableInvite(j, p)
    ensures r.Valid? ==> r.value == Normalized(j, p)
    ensures r.Invalid? ==> |r.issues| > 0 && Under(r.issues, path)
  {
    if !j.Obj? then Invalid([Issue(path, InvalidType)])
    else
      var n := ParseName(Get(j, "name"), path + [Key("name")]);
      var e := ParseEmail(Get(j, "email"), path + [Key("email")], p);
      if n.Valid? && e.Valid? then Valid(InviteInput(n.value, e.value))
      else Invalid(IssuesOf(n) + IssuesOf(e))
  }

  /** Every issue is reported for an element of the `invites` array with an
      index in `lo..hi`. */
  predicate ElementIssues(issues: seq<Issue>, lo: nat, hi: nat)
  {
    forall k :: 0 <= k < |issues| ==>
      && |issues[k].path| >= 2 && issues[k].path[0] == Key("invites")
      && issues[k].path[1].Index? && lo <= issues[k].path[1].i < hi
  }

  /** The elements of the `invites` array, the first one at index `offset`:
      valid exactly when every element is, the values in element order. */
  function ParseItems(items: seq<Json>, offset: nat, p: Platform): (r: Parsed<seq<InviteInput>>)
    ensures r.Valid? <==> forall i :: 0 <= i < |items| ==> AcceptableInvite(items[i], p)
    ensures r.Valid? ==> |r.value| == |items|
    ensures r.Valid? ==> forall i :: 0 <= i < |items| ==> r.value[i] == Normalized(items[i], p)
    ensures r.Invalid? ==> |r.issues| > 0 && ElementIssues(r.issues, offset, offset + |items|)
    decreases |items|
  {
    if items == [] then Valid([])
    else
      var h := ParseInvite(items[0], [Key("invites"), Index(offset)], p);
      var t := ParseItems(items[1..], offset + 1, p);
      ItemsStepValid(items, p, h, t);
      ItemsStepInvalid(items, offset, p, h, t);
      Combine(h, t)
  }

  /** One element's result in front of the results of the later ones. */
  function Combine(h: Parsed<InviteInput>, t: Parsed<seq<InviteInput>>): Parsed<seq<InviteInput>>
  {
    if h.Valid? && t.Valid? then Valid([h.value] + t.value) else Invalid(IssuesOf(h) + IssuesOf(t))
  }

  lemma ItemsStepValid(items: seq<Json>, p: Platform, h: Parsed<InviteInput>, t: Parsed<seq<InviteInput>>)
    requires items != []
    requires h.Valid? <==> AcceptableInvite(items[0], p)
    requires h.Valid? ==> h.value == Normalized(items[0], p)
    requires t.Valid? <==> forall i :: 0 <= i < |items| - 1 ==> AcceptableInvite(items[1..][i], p)
    requires t.Valid? ==> |t.value| == |items| - 1
    requires t.Valid? ==> forall i :: 0 <= i < |items| - 1 ==> t.value[i] == Normalized(items[1..][i], p)
    ensures Combine(h, t).Valid? <==> forall i :: 0 <= i < |items| ==> AcceptableInvite(items[i], p)
    ensures Combine(h, t).Valid? ==> |Combine(h, t).value| == |items|
    ensures Combine(h, t).Valid? ==>
      forall i :: 0 <= i < |items| ==> Combine(h, t).value[i] == Normalized(items[i], p)
  {
    ItemsAllAcceptable(items, p);
    if h.Valid? && t.Valid? {
      ItemsValues(items, p, h.value, t.value);
    }
  }

  lemma ItemsAllAcceptable(items: seq<Json>, p: Platform)
    requires items != []
    ensures (forall i :: 0 <= i < |items| ==> AcceptableInvite(items[i], p)) <==>
      AcceptableInvite(items[0], p) && forall i :: 0 <= i < |items| - 1 ==> AcceptableInvite(items[1..][i], p)
  {
    assert forall i :: 1 <= i < |items| ==> items[1..][i - 1] == items[i];
  }

  lemma ItemsValues(items: seq<Json>, p: Platform, hv: InviteInput, tv: seq<InviteInput>)
    requires items != [] && AcceptableInvite(items[0], p) && hv == Normalized(items[0], p)
    requires forall i :: 0 <= i < |items| - 1 ==> AcceptableInvite(items[1..][i], p)
    requires |tv| == |items| - 1
    requires forall i :: 0 <= i < |items| - 1 ==> tv[i] == Normalized(items[1..][i], p)
    ensures forall i :: 0 <= i < |items| ==> AcceptableInvite(items[i], p) && ([hv] + tv)[i] == Normalized(items[i], p)
  {
    var rel := (j: Json, v: InviteInput) => AcceptableInvite(j, p) && v == Normalized(j, p);
    ConsPointwise(items, hv, tv, rel);
  }

  /** A relation that holds of the head and pointwise of the tails holds
      pointwise of the whole sequences. */
  lemma ConsPointwise<A, B>(xs: seq<A>, h: B, t: seq<B>, rel: (A, B) -> bool)
    requires xs != [] && |t| == |xs| - 1 && rel(xs[0], h)
    requires forall i :: 0 <= i < |xs| - 1 ==> rel(xs[1..][i], t[i])
    ensures forall i :: 0 <= i < |xs| ==> rel(xs[i], ([h] + t)[i])
  {
    forall i | 1 <= i < |xs|
      ensures rel(xs[i], ([h] + t)[i])
    {
      assert xs[1..][i - 1] == xs[i];
    }
  }

  lemma ItemsStepInvalid(items: seq<Json>, offset: nat, p: Platform,
                         h: Parsed<InviteInput>, t: Parsed<seq<InviteInput>>)
    requires items != []
    requires h.Invalid? ==> |h.issues| > 0 && Under(h.issues, [Key("invites"), Index(offset)])
    requires t.Invalid? ==> |t.issues| > 0 && ElementIssues(t.issues, offset + 1, offset + |items|)
    ensures Combine(h, t).Invalid? ==>
      |Combine(h, t).issues| > 0 && ElementIssues(Combine(h, t).issues, offset, offset + |items|)
  {
    if h.Invalid? || t.Invalid? {
      ElementIssuesConcat(IssuesOf(h), IssuesOf(t), offset, offset + |items|);
    }
  }

  /** The issues of the element at `offset` followed by those of the later ones. */
  lemma ElementIssuesConcat(a: seq<Issue>, b: seq<Issue>, offset: nat, hi: nat)
    requires offset < hi
    requires Under(a, [Key("invites"), Index(offset)])
    requires ElementIssues(b, offset + 1, hi)
    ensures ElementIssues(a + b, offset, hi)
  {
    var path := [Key("invites"), Index(offset)];
    forall k | 0 <= k < |a|
      ensures |a[k].path| >= 2 && a[k].path[0] == Key("invites") && a[k].path[1] == Index(offset)
    {
      assert path <= a[k].path;
      assert a[k].path[0] == path[0] && a[k].path[1] == path[1];
    }
    assert forall k :: |a| <= k < |a + b| ==> (a + b)[k] == b[k - |a|];
  }

  /** `bulkInviteSchema.safeParse(body)`: `invites` must be an array of at
      least one element, each accepted by `inviteSchema`. The `min(1)` issue
      precedes the element issues. */
  function ParseBulk(j: Json, p: Platform): (r: Parsed<seq<InviteInput>>)
    ensures r.Valid? <==>
      && j.Obj? && "invites" in j.fields && j.fields["invites"].Arr?
      && |j.fields["invites"].items| >= 1
      && forall i :: 0 <= i < |j.fields["invites"].items| ==> AcceptableInvite(j.fields["invites"].items[i], p)
    ensures r.Valid? ==>
      var items := j.fields["invites"].items;
      && |r.value| == |items|
      && forall i :: 0 <= i < |items| ==> r.value[i] == Normalized(items[i], p)
    ensures r.Invalid? ==> |r.issues| > 0
    ensures j.Obj? && "invites" in j.fields && j.fields["invites"] == Arr([]) ==>
      r == Invalid([Issue([Key("invites")], TooSmall(1))])
  {
    if !j.Obj? then Invalid([Issue([], InvalidType)])
    else
      match Get(j, "invites")
      case Some(Arr(items)) =>
        var minIssues := if |items| < 1 then [Issue([Key("invites")], TooSmall(1))] else [];
        var e := ParseItems(items, 0, p);
        if minIssues == [] && e.Valid? then Valid(e.value) else Invalid(minIssues + IssuesOf(e))
      case _ => Invalid([Issue([Key("invites")], InvalidType)])
  }

  // ---------------------------------------------------------------------
  // The RSVP link

  const DefaultBaseUrl := "https://gjsproperty.events"

  /** The link mailed with the invite: the public base URL (or the default)
      followed by the landing page and both fields URI-encoded. */
  function InviteUrl(cfg: Config, p: Platform, name: string, email: string): (r: Option<string>)
    ensures r.Some? <==> Encodes(p, name, email)
    ensures r.Some? ==> StartsWith(r.value, LinkPrefix(cfg))
    ensures r.Some? && (cfg.baseUrl.None? || cfg.baseUrl.value == "") ==> StartsWith(r.value, DefaultBaseUrl)
    ensures r.Some? ==>
      r.value[|LinkPrefix(cfg)|..] == p.encodeUriComponent(name).value + "&email=" + p.encodeUriComponent(email).value
  {
    match (p.encodeUriComponent(name), p.encodeUriComponent(email))
    case (Some(n), Some(e)) =>
      var prefix := LinkPrefix(cfg);
      var query := n + "&email=" + e;
      var r := prefix + query;
      assert r[..|prefix|] == prefix && r[|prefix|..] == query;
      assert r[..|OrDefault(cfg.baseUrl, DefaultBaseUrl)|] == OrDefault(cfg.baseUrl, DefaultBaseUrl);
      Some(r)
    case _ => None
  }

  /** Both `encodeURIComponent` calls of the link return. */
  predicate Encodes(p: Platform, name: string, email: string)
  {
    p.encodeUriComponent(name).Some? && p.encodeUriComponent(email).Some?
  }

  /** The landing page address up to the encoded name. */
  function LinkPrefix(cfg: Config): string
  {
    OrDefault(cfg.baseUrl, DefaultBaseUrl) + "/20-years?name="
  }

  /** The query of the link reads back as the encoded name and email when
      the encoded name holds no `&`, as `encodeURIComponent` guarantees by
      escaping it as `%26`. */
  lemma InviteUrlReadsBack(cfg: Config, p: Platform, name: string, email: string)
    requires Encodes(p, name, email) && '&' !in p.encodeUriComponent(name).value
    ensures var q := InviteUrl(cfg, p, name, email).value[|LinkPrefix(cfg)|..];
      var n := BeforeFirst(q, '&');
      && n == p.encodeUriComponent(name).value
      && q[|n| + 1..] == "email=" + p.encodeUriComponent(email).value
  {
    var n, e := p.encodeUriComponent(name).value, p.encodeUriComponent(email).value;
    var q := InviteUrl(cfg, p, name, email).value[|LinkPrefix(cfg)|..];
    assert q == n + ['&'] + ("email=" + e);
    BeforeFirstOf(n, '&', "email=" + e);
  }

  // ---------------------------------------------------------------------
  // Creating the rows

  /** Some invite row already has exactly this email (`find(i => i.email === email)`). */
  predicate HasInvite(rows: seq<InviteRecord>, email: string)
  {
    exists k :: 0 <= k < |rows| && rows[k].email == email
  }

  /** No two invite rows share an email. */
  predicate UniqueEmails(rows: seq<InviteRecord>)
  {
    forall i, j :: 0 <= i < j < |rows| ==> rows[i].email != rows[j].email
  }

  /** The outcome of one element of a batch. */
  datatype RowResult =
    | RowCreated(email: string, inviteId: nat, inviteUrl: string)  // success: true
    | RowExists(email: string)                                     // 'Invite already exists for this email'
    | RowFailed(email: string)                                     // the catch: 'Failed to create invite'

  datatype Batch = Batch(results: seq<RowResult>, db: Db)

  /** The element's link can be built. */
  predicate Linkable(p: Platform, row: InviteInput)
  {
    Encodes(p, row.name, row.email)
  }

  /** When the loop reaches element `i`, a row with its email is already
      stored: one was there before, or an earlier element with the email
      had a link and so was inserted. */
  predicate Taken(db: Db, rows: seq<InviteInput>, i: int, p: Platform)
    requires 0 <= i < |rows|
  {
    || HasInvite(db.invites, rows[i].email)
    || exists j :: 0 <= j < i && rows[j].email == rows[i].email && Linkable(p, rows[j])
  }

  function CountCreated(results: seq<RowResult>): (n: nat)
    ensures n <= |results|
  {
    if results == [] then 0 else (if results[0].RowCreated? then 1 else 0) + CountCreated(results[1..])
  }

  /** The row a created result stands for: `pending`, with the link. */
  function CreatedRow(result: RowResult, row: InviteInput, now: Timestamp): InviteRecord
    requires result.RowCreated?
  {
    InviteRecord(result.inviteId, row.name, row.email, None, Some(result.inviteUrl), None, Pending, now)
  }

  /** `x` is one of the rows appended after `before`. */
  predicate Appended(before: seq<InviteRecord>, after: seq<InviteRecord>, x: InviteRecord)
  {
    exists k :: |before| <= k < |after| && after[k] == x
  }

  /** Every row appended after `before` is `pending` and created at `now`. */
  predicate NewRowsPending(before: seq<InviteRecord>, after: seq<InviteRecord>, now: Timestamp)
  {
    forall k :: |before| <= k < |after| ==> after[k].status == Pending && after[k].createdAt == now
  }

  /** One pass of the loop body: look the email up, then insert or skip. */
  function CreateRow(db: Db, row: InviteInput, cfg: Config, p: Platform, now: Timestamp): (r: Batch)
    ensures |r.results| == 1 && r.results[0].email == row.email
    ensures r.results[0].RowExists? <==> HasInvite(db.invites, row.email)
    ensures r.results[0].RowCreated? <==> !HasInvite(db.invites, row.email) && Linkable(p, row)
    ensures !r.results[0].RowCreated? ==> r.db == db
    ensures r.results[0].RowCreated? ==>
      && Some(r.results[0].inviteUrl) == InviteUrl(cfg, p, row.name, row.email)
      && |r.db.invites| == |db.invites| + 1
      && r.db.invites[..|db.invites|] == db.invites
      && r.db.invites[|db.invites|] == CreatedRow(r.results[0], row, now)
    ensures r.db.rsvps == db.rsvps && r.db.rsvpSeq == db.rsvpSeq
    ensures forall e :: HasInvite(r.db.invites, e) <==>
      HasInvite(db.invites, e) || (e == row.email && Linkable(p, row))
  {
    if HasInvite(db.invites, row.email) then Batch([RowExists(row.email)], db)
    else match InviteUrl(cfg, p, row.name, row.email)
      case None => Batch([RowFailed(row.email)], db)
      case Some(url) =>
        var ins := InsertInvite(db, row.name, row.email, Some(url), now);
        UrlNotEmpty(cfg, p, row.name, row.email);
        AppendHas(db.invites, ins.db.invites);
        Batch([RowCreated(row.email, ins.id, url)], ins.db)
  }

  /** After appending one row, an email is present iff it was before or is
      the new row's. */
  lemma AppendHas(before: seq<InviteRecord>, after: seq<InviteRecord>)
    requires |after| == |before| + 1 && after[..|before|] == before
    ensures forall e :: HasInvite(after, e) <==> HasInvite(before, e) || e == after[|before|].email
  {
    forall e | HasInvite(before, e)
      ensures HasInvite(after, e)
    {
      var k :| 0 <= k < |before| && before[k].email == e;
      assert after[k] == before[k];
    }
  }

  /** The bulk loop: each element in order, each one seeing the rows the
      earlier ones inserted. */
  function CreateRows(db: Db, rows: seq<InviteInput>, cfg: Config, p: Platform, now: Timestamp): (r: Batch)
    ensures |r.results| == |rows|
    ensures forall i :: 0 <= i < |rows| ==> r.results[i].email == rows[i].email
    ensures forall i :: 0 <= i < |rows| ==> (r.results[i].RowExists? <==> Taken(db, rows, i, p))
    ensures forall i :: 0 <= i < |rows| ==>
      (r.results[i].RowCreated? <==> !Taken(db, rows, i, p) && Linkable(p, rows[i]))
    ensures forall i :: 0 <= i < |rows| && r.results[i].RowCreated? ==>
      Some(r.results[i].inviteUrl) == InviteUrl(cfg, p, rows[i].name, rows[i].email)
    ensures r.db.rsvps == db.rsvps && r.db.rsvpSeq == db.rsvpSeq
    ensures |r.db.invites| == |db.invites| + CountCreated(r.results)
    ensures r.db.invites[..|db.invites|] == db.invites
    ensures forall e :: HasInvite(r.db.invites, e) <==>
      HasInvite(db.invites, e) || exists i :: 0 <= i < |rows| && rows[i].email == e && Linkable(p, rows[i])
    ensures forall i :: 0 <= i < |rows| && r.results[i].RowCreated? ==>
      Appended(db.invites, r.db.invites, CreatedRow(r.results[i], rows[i], now))
    ensures NewRowsPending(db.invites, r.db.invites, now)
    decreases |rows|
  {
    if rows == [] then Batch([], db)
    else
      var first := CreateRow(db, rows[0], cfg, p, now);
      var rest := CreateRows(first.db, rows[1..], cfg, p, now);
      var r := Batch(first.results + rest.results, rest.db);
      CreateRowsStep(db, rows, p, first, rest);
      CreateRowsAppended(db, rows, first, rest, now);
      r
  }

  /** The rows the first element and the rest of the batch append. */
  lemma CreateRowsAppended(db: Db, rows: seq<InviteInput>, first: Batch, rest: Batch, now: Timestamp)
    requires |rows| > 0 && |first.results| == 1 && |rest.results| == |rows| - 1
    requires !first.results[0].RowCreated? ==> first.db == db
    requires first.results[0].RowCreated? ==>
      && |first.db.invites| == |db.invites| + 1
      && first.db.invites[..|db.invites|] == db.invites
      && first.db.invites[|db.invites|] == CreatedRow(first.results[0], rows[0], now)
    requires |rest.db.invites| >= |first.db.invites|
    requires rest.db.invites[..|first.db.invites|] == first.db.invites
    requires forall i :: 0 <= i < |rows| - 1 && rest.results[i].RowCreated? ==>
      Appended(first.db.invites, rest.db.invites, CreatedRow(rest.results[i], rows[1..][i], now))
    requires NewRowsPending(first.db.invites, rest.db.invites, now)
    ensures forall i :: 0 <= i < |rows| && (first.results + rest.results)[i].RowCreated? ==>
      Appended(db.invites, rest.db.invites, CreatedRow((first.results + rest.results)[i], rows[i], now))
    ensures NewRowsPending(db.invites, rest.db.invites, now)
    ensures rest.db.invites[..|db.invites|] == db.invites
    ensures |first.db.invites| == |db.invites| + CountCreated(first.results)
  {
    var all := first.results + rest.results;
    var n, m := |db.invites|, |first.db.invites|;
    assert rest.db.invites[..n] == first.db.invites[..n];
    if first.results[0].RowCreated? {
      assert rest.db.invites[n] == first.db.invites[n];
    }
    forall i | 0 <= i < |rows| && all[i].RowCreated?
      ensures Appended(db.invites, rest.db.invites, CreatedRow(all[i], rows[i], now))
    {
      if i == 0 {
        assert rest.db.invites[n] == CreatedRow(all[0], rows[0], now);
      } else {
        assert all[i] == rest.results[i - 1] && rows[1..][i - 1] == rows[i];
        var k :| m <= k < |rest.db.invites| && rest.db.invites[k] == CreatedRow(all[i], rows[i], now);
      }
    }
  }

  /** The facts that connect the first element and the rest of the batch. */
  lemma CreateRowsStep(db: Db, rows: seq<InviteInput>, p: Platform, first: Batch, rest: Batch)
    requires |rows| > 0 && |first.results| == 1 && first.results[0].email == rows[0].email
    requires first.results[0].RowExists? <==> HasInvite(db.invites, rows[0].email)
    requires first.results[0].RowCreated? <==> !HasInvite(db.invites, rows[0].email) && Linkable(p, rows[0])
    requires forall e :: HasInvite(first.db.invites, e) <==>
      HasInvite(db.invites, e) || (e == rows[0].email && Linkable(p, rows[0]))
    requires |rest.results| == |rows| - 1
    requires forall i :: 0 <= i < |rows| - 1 ==>
      (rest.results[i].RowExists? <==> Taken(first.db, rows[1..], i, p))
    requires forall i :: 0 <= i < |rows| - 1 ==>
      (rest.results[i].RowCreated? <==> !Taken(first.db, rows[1..], i, p) && Linkable(p, rows[1..][i]))
    requires forall e :: HasInvite(rest.db.invites, e) <==>
      HasInvite(first.db.invites, e) || exists i :: 0 <= i < |rows| - 1 && rows[1..][i].email == e && Linkable(p, rows[1..][i])
    ensures forall i :: 0 <= i < |rows| ==>
      ((first.results + rest.results)[i].RowExists? <==> Taken(db, rows, i, p))
    ensures forall i :: 0 <= i < |rows| ==>
      ((first.results + rest.results)[i].RowCreated? <==> !Taken(db, rows, i, p) && Linkable(p, rows[i]))
    ensures forall e :: HasInvite(rest.db.invites, e) <==>
      HasInvite(db.invites, e) || exists i :: 0 <= i < |rows| && rows[i].email == e && Linkable(p, rows[i])
    ensures CountCreated(first.results + rest.results) == CountCreated(first.results) + CountCreated(rest.results)
  {
    var all := first.results + rest.results;
    assert all[1..] == rest.results;
    assert !Taken(db, rows, 0, p) <==> !HasInvite(db.invites, rows[0].email);
    forall i | 0 < i < |rows|
      ensures (all[i].RowExists? <==> Taken(db, rows, i, p))
      ensures (all[i].RowCreated? <==> !Taken(db, rows, i, p) && Linkable(p, rows[i]))
    {
      assert all[i] == rest.results[i - 1];
      assert rows[1..][i - 1] == rows[i];
      TakenStep(db, rows, p, first.db, i);
    }
    forall e
      ensures HasInvite(rest.db.invites, e) <==>
        HasInvite(db.invites, e) || exists i :: 0 <= i < |rows| && rows[i].email == e && Linkable(p, rows[i])
    {
      if exists i :: 0 <= i < |rows| - 1 && rows[1..][i].email == e && Linkable(p, rows[1..][i]) {
        var i :| 0 <= i < |rows| - 1 && rows[1..][i].email == e && Linkable(p, rows[1..][i]);
        assert rows[i + 1] == rows[1..][i];
      }
      if exists i :: 0 <= i < |rows| && rows[i].email == e && Linkable(p, rows[i]) {
        var i :| 0 <= i < |rows| && rows[i].email == e && Linkable(p, rows[i]);
        if i > 0 {
          assert rows[1..][i - 1] == rows[i];
        }
      }
    }
  }

  /** What the rest of the loop finds stored is what the whole loop finds
      at the same element. */
  lemma TakenStep(db: Db, rows: seq<InviteInput>, p: Platform, after: Db, i: nat)
    requires 0 < i < |rows|
    requires forall e :: HasInvite(after.invites, e) <==>
      HasInvite(db.invites, e) || (e == rows[0].email && Linkable(p, rows[0]))
    ensures Taken(after, rows[1..], i - 1, p) <==> Taken(db, rows, i, p)
  {
    var tail := rows[1..];
    var e := rows[i].email;
    assert tail[i - 1] == rows[i];
    if exists j :: 0 <= j < i - 1 && tail[j].email == e && Linkable(p, tail[j]) {
      var j :| 0 <= j < i - 1 && tail[j].email == e && Linkable(p, tail[j]);
      assert rows[j + 1] == tail[j];
    }
    if exists j :: 0 <= j < i && rows[j].email == e && Linkable(p, rows[j]) {
      var j :| 0 <= j < i && rows[j].email == e && Linkable(p, rows[j]);
      if j > 0 {
        assert tail[j - 1] == rows[j];
      }
    }
  }

  /** A batch never creates a second invite for an email. */
  lemma {:induction false} CreateRowsKeepsUnique(db: Db, rows: seq<InviteInput>, cfg: Config, p: Platform,
                                                 now: Timestamp)
    requires UniqueEmails(db.invites)
    ensures UniqueEmails(CreateRows(db, rows, cfg, p, now).db.invites)
    decreases |rows|
  {
    if rows != [] {
      var first := CreateRow(db, rows[0], cfg, p, now);
      CreateRowKeepsUnique(db, rows[0], cfg, p, now);
      CreateRowsKeepsUnique(first.db, rows[1..], cfg, p, now);
    }
  }

  lemma CreateRowKeepsUnique(db: Db, row: InviteInput, cfg: Config, p: Platform, now: Timestamp)
    requires UniqueEmails(db.invites)
    ensures UniqueEmails(CreateRow(db, row, cfg, p, now).db.invites)
  {
    var r := CreateRow(db, row, cfg, p, now);
    if r.results[0].RowCreated? {
      var n := |db.invites|;
      forall i, j | 0 <= i < j < |r.db.invites|
        ensures r.db.invites[i].email != r.db.invites[j].email
      {
        if j == n {
          assert r.db.invites[i] == db.invites[i];
          assert HasInvite(db.invites, r.db.invites[i].email);
        } else {
          assert r.db.invites[i] == db.invites[i] && r.db.invites[j] == db.invites[j];
        }
      }
    }
  }

  /** A batch keeps the table well formed. */
  lemma {:induction false} CreateRowsKeepsValid(db: Db, rows: seq<InviteInput>, cfg: Config, p: Platform,
                                                now: Timestamp)
    requires Store.Valid(db) && ClockNotBehind(db, now)
    ensures Store.Valid(CreateRows(db, rows, cfg, p, now).db)
    ensures ClockNotBehind(CreateRows(db, rows, cfg, p, now).db, now)
    decreases |rows|
  {
    if rows != [] {
      var first := CreateRow(db, rows[0], cfg, p, now);
      if first.results[0].RowCreated? {
        var url := InviteUrl(cfg, p, rows[0].name, rows[0].email).value;
        InsertInviteKeepsValid(db, rows[0].name, rows[0].email, Some(url), now);
      }
      CreateRowsKeepsValid(first.db, rows[1..], cfg, p, now);
    }
  }

  // ---------------------------------------------------------------------
  // The handler

  datatype Response =
    | InvalidInput(issues: seq<Issue>)              // 400 'Invalid input data'
    | AlreadyExists                                 // 400, single invite only
    | Created(inviteId: nat, inviteUrl: string)     // 200, single invite
    | Processed(count: nat, results: seq<RowResult>) // 200 'Processed N invites'
    | ServerError                                   // 500 'Failed to create invite', the outer catch

  function StatusCode(r: Response): (c: nat)
    ensures c == 200 <==> r.Created? || r.Processed?
    ensures c == 400 <==> r.InvalidInput? || r.AlreadyExists?
    ensures c == 500 <==> r.ServerError?
  {
    match r
    case InvalidInput(_) => 400
    case AlreadyExists => 400
    case Created(_, _) => 200
    case Processed(_, _) => 200
    case ServerError => 500
  }

  datatype Reply = Reply(response: Response, db: Db)

  /** Whether the body takes the bulk branch: `body.invites` is truthy and an array. */
  predicate IsBulk(j: Json)
  {
    j.Obj? && "invites" in j.fields && j.fields["invites"].Arr?
  }

  /** The single-invite branch: validate, refuse a known email, insert. */
  function PostSingle(j: Json, db: Db, cfg: Config, p: Platform, now: Timestamp): (r: Reply)
    ensures r.response.InvalidInput? <==> !AcceptableInvite(j, p)
    ensures r.response.AlreadyExists? <==> AcceptableInvite(j, p) && HasInvite(db.invites, Normalized(j, p).email)
    ensures r.response.Created? <==>
      AcceptableInvite(j, p) && !HasInvite(db.invites, Normalized(j, p).email) && Linkable(p, Normalized(j, p))
    ensures r.response.ServerError? <==>
      AcceptableInvite(j, p) && !HasInvite(db.invites, Normalized(j, p).email) && !Linkable(p, Normalized(j, p))
    ensures !r.response.Created? ==> r.db == db
    ensures r.response.Created? ==>
      var row := Normalized(j, p);
      && Some(r.response.inviteUrl) == InviteUrl(cfg, p, row.name, row.email)
      && r.db == InsertInvite(db, row.name, row.email, Some(r.response.inviteUrl), now).db
      && r.response.inviteId == InsertInvite(db, row.name, row.email, Some(r.response.inviteUrl), now).id
  {
    match ParseInvite(j, [], p)
    case Invalid(issues) => Reply(InvalidInput(issues), db)
    case Valid(row) =>
      if HasInvite(db.invites, row.email) then Reply(AlreadyExists, db)
      else match InviteUrl(cfg, p, row.name, row.email)
        case None => Reply(ServerError, db)
        case Some(url) =>
          var ins := InsertInvite(db, row.name, row.email, Some(url), now);
          Reply(Created(ins.id, url), ins.db)
  }

  /** The bulk branch: validate the whole array, then run the loop. */
  function PostBulk(j: Json, db: Db, cfg: Config, p: Platform, now: Timestamp): (r: Reply)
    ensures r.response.Processed? || r.response.InvalidInput?
    ensures r.response.Processed? <==> ParseBulk(j, p).Valid?
    ensures r.response.InvalidInput? ==> r.db == db && |r.response.issues| > 0
    ensures r.response.Processed? ==>
      var rows := ParseBulk(j, p).value;
      && r.response.count == |rows| == |r.response.results| >= 1
      && r == Reply(Processed(|rows|, CreateRows(db, rows, cfg, p, now).results),
                    CreateRows(db, rows, cfg, p, now).db)
  {
    match ParseBulk(j, p)
    case Invalid(issues) => Reply(InvalidInput(issues), db)
    case Valid(rows) =>
      var batch := CreateRows(db, rows, cfg, p, now);
      Reply(Processed(|rows|, batch.results), batch.db)
  }

  /** `POST(request)`. `body` is `None` when `request.json()` throws. A
      `null` body makes `body.invites` throw; both end in the 500 reply. */
  function Post(body: Option<Json>, db: Db, cfg: Config, p: Platform, now: Timestamp): (r: Reply)
    ensures body.None? || body == Some(Null) ==> r == Reply(ServerError, db)
    ensures body.Some? && body.value != Null && IsBulk(body.value) ==>
      r == PostBulk(body.value, db, cfg, p, now)
    ensures body.Some? && body.value != Null && !IsBulk(body.value) ==>
      r == PostSingle(body.value, db, cfg, p, now)
  {
    match body
    case None => Reply(ServerError, db)
    case Some(Null) => Reply(ServerError, db)
    case Some(j) =>
      if IsBulk(j) then PostBulk(j, db, cfg, p, now) else PostSingle(j, db, cfg, p, now)
  }

  /** Every reply other than a 200 leaves the database as it was. */
  lemma PostFailureUnchanged(body: Option<Json>, db: Db, cfg: Config, p: Platform, now: Timestamp)
    ensures var r := Post(body, db, cfg, p, now);
      StatusCode(r.response) != 200 ==> r.db == db
  {
  }

  /** A single invite for a new email appends exactly one `pending` row
      carrying the normalised name and email and the link it returns. */
  lemma PostCreatesRow(body: Option<Json>, db: Db, cfg: Config, p: Platform, now: Timestamp)
    requires body.Some? && body.value != Null && !IsBulk(body.value)
    requires AcceptableInvite(body.value, p)
    requires !HasInvite(db.invites, Normalized(body.value, p).email)
    requires Linkable(p, Normalized(body.value, p))
    ensures var r := Post(body, db, cfg, p, now);
      var row := Normalized(body.value, p);
      && r.response.Created?
      && |r.db.invites| == |db.invites| + 1
      && r.db.invites[..|db.invites|] == db.invites
      && r.db.invites[|db.invites|] == InviteRecord(r.response.inviteId, row.name, row.email, None,
                                                    Some(r.response.inviteUrl), None, Pending, now)
  {
    var row := Normalized(body.value, p);
    UrlNotEmpty(cfg, p, row.name, row.email);
  }

  /** A single invite whose link cannot be built throws inside the `try`
      and ends in the 500 reply, with nothing inserted. */
  lemma PostUnlinkableFails(body: Option<Json>, db: Db, cfg: Config, p: Platform, now: Timestamp)
    requires body.Some? && body.value != Null && !IsBulk(body.value)
    requires AcceptableInvite(body.value, p)
    requires !HasInvite(db.invites, Normalized(body.value, p).email)
    requires !Linkable(p, Normalized(body.value, p))
    ensures Post(body, db, cfg, p, now) == Reply(ServerError, db)
  {
  }

  lemma UrlNotEmpty(cfg: Config, p: Platform, name: string, email: string)
    ensures InviteUrl(cfg, p, name, email).Some? ==> InviteUrl(cfg, p, name, email).value != ""
  {
    assert |LinkPrefix(cfg)| > 0;
  }

  /** Every reply keeps the invite emails unique and the tables well formed. */
  lemma PostKeepsInvariants(body: Option<Json>, db: Db, cfg: Config, p: Platform, now: Timestamp)
    requires Store.Valid(db) && ClockNotBehind(db, now) && UniqueEmails(db.invites)
    ensures var r := Post(body, db, cfg, p, now);
      Store.Valid(r.db) && UniqueEmails(r.db.invites)
  {
    var r := Post(body, db, cfg, p, now);
    if body.Some? && body.value != Null {
      var j := body.value;
      if IsBulk(j) {
        if ParseBulk(j, p).Valid? {
          var rows := ParseBulk(j, p).value;
          CreateRowsKeepsValid(db, rows, cfg, p, now);
          CreateRowsKeepsUnique(db, rows, cfg, p, now);
        }
      } else if AcceptableInvite(j, p) {
        var row := Normalized(j, p);
        if !HasInvite(db.invites, row.email) && Linkable(p, row) {
          var url := InviteUrl(cfg, p, row.name, row.email).value;
          InsertInviteKeepsValid(db, row.name, row.email, Some(url), now);
          CreateRowKeepsUnique(db, row, cfg, p, now);
          assert CreateRow(db, row, cfg, p, now).db == r.db;
        }
      }
    }
  }
}

=== FILE: json.dfy ===
/** A parsed JSON request body and the JavaScript property reads the
    handlers make on it. */
module Json {
  import opened Base

  /** A JSON value as `request.json()` returns it. Numbers are exact reals;
      an object is a map from property name to value (a repeated key keeps its
      last value, as in `JSON.parse`). */
  datatype Json =
    | Null
    | Bool(b: bool)
    | Num(n: real)
    | Str(s: string)
    | Arr(items: seq<Json>)
    | Obj(fields: map<string, Json>)

  /** `body[key]` on a non-null value: `None` stands for `undefined`.
      Strings, numbers, booleans and arrays carry none of the property names
      the handlers read. */
  function Get(j: Json, key: string): (r: Option<Json>)
    ensures r.Some? <==> j.Obj? && key in j.fields
  {
    if j.Obj? && key in j.fields then Some(j.fields[key]) else None
  }

  /** JavaScript truthiness of a property that may be `undefined`. */
  predicate Truthy(v: Option<Json>)
  {
    match v
    case None => false
    case Some(Null) => false
    case Some(Bool(b)) => b
    case Some(Num(n)) => n != 0.0
    case Some(Str(s)) => s != ""
    case Some(Arr(_)) => true
    case Some(Obj(_)) => true
  }
}

=== FILE: middleware.dfy ===
/** The admin route guard: the next-auth `withAuth` wrapper runs the
    `authorized` callback and then the middleware body, for the paths the
    matcher selects. Paths are compared as text. */
module Middleware {
  import opened Base
  import opened Text

  /** The session token: absent when nobody is signed in; `role` is absent
      when the token carries none. */
  datatype Token = Token(role: Option<string>)

  const LoginPath := "/admin/login"

  /** `!!token && token.role === 'admin'`. */
  predicate IsAdmin(token: Option<Token>)
  {
    token.Some? && token.value.role == Some("admin")
  }

  /** The `authorized` callback as written. */
  predicate Authorized(path: string, token: Option<Token>)
  {
    if path == LoginPath then true
    else if StartsWith(path, "/admin") then IsAdmin(token)
    else true
  }

  /** The middleware body: a redirect to the login page. */
  predicate RedirectsToLogin(path: string, token: Option<Token>)
  {
    StartsWith(path, "/admin") && path != LoginPath && !IsAdmin(token)
  }

  /** A matcher entry `base/:path*`: the base itself or anything below it. */
  predicate Below(path: string, base: string)
  {
    path == base || StartsWith(path, base + "/")
  }

  /** `config.matcher`: `/admin/:path*`, `/api/admin/:path*`, `/api/export`. */
  predicate Matched(path: string)
  {
    Below(path, "/admin") || Below(path, "/api/admin") || path == "/api/export"
  }

  /** What a request comes to. */
  datatype Outcome =
    | Proceed        // the route runs
    | SignIn         // `authorized` said no: sent to the sign-in page
    | LoginRedirect  // the middleware body redirected to `/admin/login`

  /** The guard as written. */
  function Gate(path: string, token: Option<Token>): (r: Outcome)
    ensures r == Proceed <==> !Matched(path) || (Authorized(path, token) && !RedirectsToLogin(path, token))
    ensures r == SignIn <==> Matched(path) && !Authorized(path, token)
  {
    if !Matched(path) then Proceed
    else if !Authorized(path, token) then SignIn
    else if RedirectsToLogin(path, token) then LoginRedirect
    else Proceed
  }

  /** The login page is always reachable. */
  lemma LoginAlwaysOpen(token: Option<Token>)
    ensures Authorized(LoginPath, token)
    ensures !RedirectsToLogin(LoginPath, token)
    ensures Gate(LoginPath, token) == Proceed
  {
  }

  /** Any other path starting with `/admin` needs an admin token. */
  lemma AdminPathsNeedAdmin(path: string, token: Option<Token>)
    requires StartsWith(path, "/admin") && path != LoginPath
    ensures Authorized(path, token) <==> IsAdmin(token)
  {
  }

  /** Any path not starting with `/admin` passes `authorized`. */
  lemma OtherPathsAuthorized(path: string, token: Option<Token>)
    requires !StartsWith(path, "/admin")
    ensures Authorized(path, token)
  {
  }

  /** After `authorized` has let a request through, the middleware body
      never redirects it: the redirect rule is a second copy of the check. */
  lemma RedirectNeverFiresAfterAuthorization(path: string, token: Option<Token>)
    requires Authorized(path, token)
    ensures !RedirectsToLogin(path, token)
  {
  }

  /** Every matched path below `/admin` other than the login page reaches
      its route exactly with an admin token. */
  lemma AdminPagesGuarded(path: string, token: Option<Token>)
    requires Below(path, "/admin") && path != LoginPath
    ensures Gate(path, token) == Proceed <==> IsAdmin(token)
  {
    assert StartsWith(path, "/admin") by {
      if path != "/admin" {
        assert path[..6] == (path[..7])[..6];
      }
    }
  }

  /** The prefix test is textual: `/administrator` fails `authorized` without
      a token, although the matcher never sends it there. */
  lemma PrefixIsTextual()
    ensures !Authorized("/administrator", None)
    ensures RedirectsToLogin("/administrator", None)
    ensures !Matched("/administrator")
    ensures Gate("/administrator", None) == Proceed
  {
    assert "/administrator"[..6] == "/admin";
    assert "/administrator"[6] != "/admin/"[6];
  }

  // ---------------------------------------------------------------------
  // The matched API paths.

  /** As written, the matched `/api/export` and `/api/admin/...` paths reach
      their routes without any token. */
  lemma ApiPathsOpenAsWritten(path: string)
    requires Below(path, "/api/admin") || path == "/api/export"
    ensures Matched(path)
    ensures Authorized(path, None)
    ensures Gate(path, None) == Proceed
  {
    assert !StartsWith(path, "/admin") by {
      assert path[1] == 'a' && path[2] == 'p';
    }
  }

  /** `authorized` as evidently intended: every matched path other than the
      login page needs an admin token. */
  predicate AuthorizedIntended(path: string, token: Option<Token>)
  {
    if path == LoginPath then true
    else if StartsWith(path, "/admin") || Matched(path) then IsAdmin(token)
    else true
  }

  function GateIntended(path: string, token: Option<Token>): (r: Outcome)
    ensures r == SignIn <==> Matched(path) && !AuthorizedIntended(path, token)
  {
    if !Matched(path) then Proceed
    else if !AuthorizedIntended(path, token) then SignIn
    else if RedirectsToLogin(path, token) then LoginRedirect
    else Proceed
  }

  /** With the intended callback, every matched path except the login page
      reaches its route exactly with an admin token. */
  lemma IntendedGuardsEveryMatchedPath(path: string, token: Option<Token>)
    requires Matched(path) && path != LoginPath
    ensures GateIntended(path, token) == Proceed <==> IsAdmin(token)
  {
  }

  /** The intended callback agrees with the written one on every path
      outside the API, and on the login page. */
  lemma IntendedAgreesOffApi(path: string, token: Option<Token>)
    requires !Below(path, "/api/admin") && path != "/api/export"
    ensures AuthorizedIntended(path, token) == Authorized(path, token)
    ensures GateIntended(path, token) == Gate(path, token)
  {
    if Below(path, "/admin") && path != "/admin" {
      assert path[..6] == (path[..7])[..6];
    }
  }
}

=== FILE: rsvp.dfy ===
/** `POST /api/rsvp`: validates the form with `rsvpSchema`, escapes the text
    fields for HTML, and sends a confirmation to the guest and a notification
    to the organiser. The handler writes nothing to the database. The mail
    service is the parameter `send`: its answer to the attempt with index `i`
    (0 for the confirmation, 1 for the notification). */
module Rsvp {
  import opened Base
  import opened Text
  import opened Json
  import opened Zod
  import opened Env
  import opened Store
  import opened Html
  import opened Fields

  /** The output of `rsvpSchema`. `dietaryRequirements` is `None` when the key
      is absent; an empty string is kept as `Some("")`. */
  datatype RsvpInput = RsvpInput(
    name: string,
    email: string,
    attendance: Attendance,
    guests: real,
    dietaryRequirements: Option<string>
  )

  // ---------------------------------------------------------------------
  // rsvpSchema

  /** `attendance: z.enum(['yes', 'no'])`. */
  function ParseAttendance(v: Option<Json>, path: seq<PathItem>): (r: Parsed<Attendance>)
    ensures r == Valid(Yes) <==> v == Some(Str("yes"))
    ensures r == Valid(No) <==> v == Some(Str("no"))
    ensures r.Invalid? ==> r.issues == [Issue(path, if v.Some? && v.value.Str? then InvalidEnumValue else InvalidType)]
  {
    match v
    case Some(Str(s)) =>
      if s == "yes" then Valid(Yes)
      else if s == "no" then Valid(No)
      else Invalid([Issue(path, InvalidEnumValue)])
    case _ => Invalid([Issue(path, InvalidType)])
  }

  /** `guests: z.number().min(0).max(3)`: any number in the range, fractions
      included. */
  function ParseGuests(v: Option<Json>, path: seq<PathItem>): (r: Parsed<real>)
    ensures r.Valid? <==> v.Some? && v.value.Num? && 0.0 <= v.value.n <= 3.0
    ensures r.Valid? ==> r.value == v.value.n
    ensures r.Invalid? ==> |r.issues| > 0 && Under(r.issues, path)
  {
    match v
    case Some(Num(n)) =>
      var issues := RangeIssues(n, 0.0, 3.0, path);
      if issues == [] then Valid(n) else Invalid(issues)
    case _ => Invalid([Issue(path, InvalidType)])
  }

  /** `dietaryRequirements: z.string().max(500).optional().or(z.literal(''))`.
      An absent key or a short string passes the first branch. A long string
      fails it with `too_big`, and that issue is reported rather than a union
      error; any other value fails both branches. */
  function ParseDietary(v: Option<Json>, path: seq<PathItem>): (r: Parsed<Option<string>>)
    ensures r.Valid? <==> v.None? || (v.value.Str? && Utf16Length(v.value.s) <= 500)
    ensures r.Valid? ==> r.value == if v.None? then None else Some(v.value.s)
    ensures r.Invalid? ==> r.issues == [Issue(path, if v.value.Str? then TooBig(500) else InvalidUnion)]
  {
    match v
    case None => Valid(None)
    case Some(Str(s)) =>
      if Utf16Length(s) <= 500 then Valid(Some(s)) else Invalid([Issue(path, TooBig(500))])
    case Some(_) => Invalid([Issue(path, InvalidUnion)])
  }

  /** `rsvpSchema.safeParse(body)`: the issues of each field in the order the
      schema declares them. */
  function ParseRsvp(j: Json, p: Platform): (r: Parsed<RsvpInput>)
    ensures !j.Obj? ==> r == Invalid([Issue([], InvalidType)])
    ensures r.Valid? <==>
      && j.Obj?
      && ParseName(Get(j, "name"), [Key("name")]).Valid?
      && ParseEmail(Get(j, "email"), [Key("email")], p).Valid?
      && ParseAttendance(Get(j, "attendance"), [Key("attendance")]).Valid?
      && ParseGuests(Get(j, "guests"), [Key("guests")]).Valid?
      && ParseDietary(Get(j, "dietaryRequirements"), [Key("dietaryRequirements")]).Valid?
    ensures r.Valid? ==> r.value == RsvpInput(
      ParseName(Get(j, "name"), [Key("name")]).value,
      ParseEmail(Get(j, "email"), [Key("email")], p).value,
      ParseAttendance(Get(j, "attendance"), [Key("attendance")]).value,
      ParseGuests(Get(j, "guests"), [Key("guests")]).value,
      ParseDietary(Get(j, "dietaryRequirements"), [Key("dietaryRequirements")]).value)
    ensures r.Invalid? ==> |r.issues| > 0
  {
    if !j.Obj? then Invalid([Issue([], InvalidType)])
    else
      var n := ParseName(Get(j, "name"), [Key("name")]);
      var e := ParseEmail(Get(j, "email"), [Key("email")], p);
      var a := ParseAttendance(Get(j, "attendance"), [Key("attendance")]);
      var g := ParseGuests(Get(j, "guests"), [Key("guests")]);
      var d := ParseDietary(Get(j, "dietaryRequirements"), [Key("dietaryRequirements")]);
      if n.Valid? && e.Valid? && a.Valid? && g.Valid? && d.Valid? then
        Valid(RsvpInput(n.value, e.value, a.value, g.value, d.value))
      else
        Invalid(IssuesOf(n) + IssuesOf(e) + IssuesOf(a) + IssuesOf(g) + IssuesOf(d))
  }

  // ---------------------------------------------------------------------
  // The two messages

  const DefaultOrganizer := "organizer@gjsproperty.events"
  const ConfirmationSubject := "RSVP Confirmation - GJS 20th Year Celebration"

  /** What a message carries from the form: the recipient, the subject, and
      the values placed into the HTML body. `guests` is `None` when the guests
      row is left out (`guests` is 0); `dietary` is `None` when that row is
      left out (no or an empty requirement). */
  datatype Mail = Mail(
    to: string,
    subject: string,
    name: string,
    email: string,
    attendance: Attendance,
    guests: Option<real>,
    dietary: Option<string>
  )

  /** `dietaryRequirements ? sanitizeHtml(dietaryRequirements) : ''`. */
  function SanitizedDietary(d: Option<string>): (r: string)
    ensures r == "" <==> d.None? || d.value == ""
    ensures d.Some? && d.value != "" ==> r == SanitizeHtml(d.value)
    ensures MarkupFree(r)
    ensures d.Some? ==> Unescape(r) == d.value
  {
    if d.Some? && d.value != "" then
      UnescapeSanitize(d.value);
      SanitizeHtml(d.value)
    else ""
  }

  /** The confirmation sent `to: [email]`: the guests row appears when
      `guests` is truthy, the dietary row when the sanitised text is. */
  function Confirmation(data: RsvpInput): (m: Mail)
    ensures m.to == data.email && m.subject == ConfirmationSubject
    ensures m.attendance == data.attendance
    ensures Escaped(m)
    ensures Unescape(m.name) == data.name && Unescape(m.email) == data.email
    ensures m.guests.Some? <==> data.guests != 0.0
    ensures m.guests.Some? ==> m.guests.value == data.guests
    ensures m.dietary.Some? <==> data.dietaryRequirements.Some? && data.dietaryRequirements.value != ""
    ensures m.dietary.Some? ==> Unescape(m.dietary.value) == data.dietaryRequirements.value
  {
    UnescapeSanitize(data.name);
    UnescapeSanitize(data.email);
    var dietary := SanitizedDietary(data.dietaryRequirements);
    Mail(data.email, ConfirmationSubject, SanitizeHtml(data.name), SanitizeHtml(data.email),
         data.attendance, if data.guests != 0.0 then Some(data.guests) else None,
         if dietary != "" then Some(dietary) else None)
  }

  /** The notification to `ORGANIZER_EMAIL` (or the default address). */
  function Notification(data: RsvpInput, cfg: Config): (m: Mail)
    ensures m.to == OrDefault(cfg.organizerEmail, DefaultOrganizer)
    ensures m.subject == "New RSVP - " + m.name + " - GJS 20th Year Celebration"
    ensures m.attendance == data.attendance
    ensures Escaped(m)
    ensures Unescape(m.name) == data.name && Unescape(m.email) == data.email
    ensures m.guests.Some? <==> data.guests != 0.0
    ensures m.guests.Some? ==> m.guests.value == data.guests
    ensures m.dietary.Some? <==> data.dietaryRequirements.Some? && data.dietaryRequirements.value != ""
    ensures m.dietary.Some? ==> Unescape(m.dietary.value) == data.dietaryRequirements.value
  {
    UnescapeSanitize(data.name);
    UnescapeSanitize(data.email);
    var dietary := SanitizedDietary(data.dietaryRequirements);
    Mail(OrDefault(cfg.organizerEmail, DefaultOrganizer),
         "New RSVP - " + SanitizeHtml(data.name) + " - GJS 20th Year Celebration",
         SanitizeHtml(data.name), SanitizeHtml(data.email),
         data.attendance, if data.guests != 0.0 then Some(data.guests) else None,
         if dietary != "" then Some(dietary) else None)
  }

  /** Every text a message takes from the form is escaped (the subject of
      the notification takes the form text through `name`). */
  predicate Escaped(m: Mail)
  {
    MarkupFree(m.name) && MarkupFree(m.email) && (m.dietary.Some? ==> MarkupFree(m.dietary.value))
  }

  /** Both messages carry only escaped form text. */
  lemma MailsEscaped(data: RsvpInput, cfg: Config)
    ensures Escaped(Confirmation(data)) && Escaped(Notification(data, cfg))
  {
  }

  /** The rows the messages show follow the form: guests when not 0, the
      dietary text when not empty; the escaped name still decodes to the
      name the guest typed. */
  lemma MailContents(data: RsvpInput, cfg: Config)
    ensures Confirmation(data).to == data.email
    ensures Notification(data, cfg).to == OrDefault(cfg.organizerEmail, DefaultOrganizer)
    ensures Confirmation(data).guests.Some? <==> data.guests != 0.0
    ensures Confirmation(data).dietary.Some? <==>
      data.dietaryRequirements.Some? && data.dietaryRequirements.value != ""
    ensures Unescape(Notification(data, cfg).name) == data.name
  {
    UnescapeSanitize(data.name);
  }

  // ---------------------------------------------------------------------
  // The handler

  datatype Response =
    | NotConfigured                            // 500 'Email service not configured...'
    | InvalidInput(issues: seq<Issue>)         // 400 'Invalid input data'
    | Submitted(confirmationId: Option<string>) // 200 'RSVP submitted successfully'
    | ServerError                              // 500 'Failed to submit RSVP'

  function StatusCode(r: Response): (c: nat)
    ensures c == 200 <==> r.Submitted?
    ensures c == 400 <==> r.InvalidInput?
    ensures c == 500 <==> r.NotConfigured? || r.ServerError?
  {
    match r
    case NotConfigured => 500
    case InvalidInput(_) => 400
    case Submitted(_) => 200
    case ServerError => 500
  }

  /** The reply and the messages the handler tried to send, in order. */
  datatype Reply = Reply(response: Response, attempts: seq<Mail>)

  /** The two sends after a valid form. A send that throws ends in the 500
      reply and skips what follows; a send that returns without an id does
      not, and the confirmation id is then absent. */
  function Deliver(data: RsvpInput, cfg: Config, send: (nat, Mail) -> MailOutcome): (r: Reply)
    ensures r.response.Submitted? || r.response == ServerError
    ensures 1 <= |r.attempts| <= 2 && r.attempts[0] == Confirmation(data)
    ensures |r.attempts| == 2 <==> send(0, Confirmation(data)).Answered?
    ensures |r.attempts| == 2 ==> r.attempts[1] == Notification(data, cfg)
    ensures r.response.Submitted? <==>
      send(0, Confirmation(data)).Answered? && send(1, Notification(data, cfg)).Answered?
    ensures r.response.Submitted? ==> send(0, Confirmation(data)) == Answered(r.response.confirmationId)
    ensures forall k :: 0 <= k < |r.attempts| ==> Escaped(r.attempts[k])
  {
    var confirmation := Confirmation(data);
    var notification := Notification(data, cfg);
    MailsEscaped(data, cfg);
    match send(0, confirmation)
    case Threw => Reply(ServerError, [confirmation])
    case Answered(id) =>
      if send(1, notification).Threw? then Reply(ServerError, [confirmation, notification])
      else Reply(Submitted(id), [confirmation, notification])
  }

  /** `POST(request)`. `body` is `None` when `request.json()` throws. The
      mail configuration is checked before the body is read. */
  function Post(cfg: Config, body: Option<Json>, p: Platform, send: (nat, Mail) -> MailOutcome): (r: Reply)
    ensures !EmailConfigured(cfg) ==> r == Reply(NotConfigured, [])
    ensures EmailConfigured(cfg) && body.None? ==> r == Reply(ServerError, [])
    ensures EmailConfigured(cfg) && body.Some? && ParseRsvp(body.value, p).Invalid? ==>
      r == Reply(InvalidInput(ParseRsvp(body.value, p).issues), [])
    ensures EmailConfigured(cfg) && body.Some? && ParseRsvp(body.value, p).Valid? ==>
      r == Deliver(ParseRsvp(body.value, p).value, cfg, send)
  {
    if !EmailConfigured(cfg) then Reply(NotConfigured, [])
    else if body.None? then Reply(ServerError, [])
    else
      match ParseRsvp(body.value, p)
      case Invalid(issues) => Reply(InvalidInput(issues), [])
      case Valid(data) => Deliver(data, cfg, send)
  }

  /** Nothing is sent unless the form is valid, and whatever is sent carries
      only escaped form text. */
  lemma PostSendsOnlyEscaped(cfg: Config, body: Option<Json>, p: Platform, send: (nat, Mail) -> MailOutcome)
    ensures var r := Post(cfg, body, p, send);
      && (r.attempts != [] ==> EmailConfigured(cfg) && body.Some? && ParseRsvp(body.value, p).Valid?)
      && (forall k :: 0 <= k < |r.attempts| ==> Escaped(r.attempts[k]))
  {
  }

  /** Without a configured mail key nothing is parsed or sent, whatever the body. */
  lemma NotConfiguredIgnoresBody(cfg: Config, b1: Option<Json>, b2: Option<Json>, p: Platform,
                                 send: (nat, Mail) -> MailOutcome)
    requires !EmailConfigured(cfg)
    ensures Post(cfg, b1, p, send) == Post(cfg, b2, p, send)
  {
  }

  /** A confirmation that reached the service is not undone by a failing
      notification: the guest has the message while the form shows an error. */
  lemma NotificationFailureAfterConfirmation(cfg: Config, body: Option<Json>, p: Platform,
                                             send: (nat, Mail) -> MailOutcome)
    requires EmailConfigured(cfg) && body.Some? && ParseRsvp(body.value, p).Valid?
    requires send(0, Confirmation(ParseRsvp(body.value, p).value)).Answered?
    requires send(1, Notification(ParseRsvp(body.value, p).value, cfg)).Threw?
    ensures var r := Post(cfg, body, p, send);
      r.response == ServerError && |r.attempts| == 2
  {
  }
}

=== FILE: sendinvites.dfy ===
/** `POST /api/send-invites`: picks the invites to mail (every `pending` one,
    or those whose id is listed), sends one message per invite, and marks the
    addresses that were delivered as `sent`. The mail service is the
    parameter `send`: its answer to the attempt with index `i` of the loop. */
module SendInvites {
  import opened Base
  import opened Json
  import opened Env
  import opened Store

  datatype SendResult =
    | SendOk(email: string, messageId: string)  // success: true, messageId
    | SendFailed(email: string)                 // success: false, error

  datatype Response =
    | NotConfigured                                                          // 500
    | MissingSelection                                                       // 400
    | NothingToSend                                                          // 404
    | Summary(successCount: nat, failCount: nat, results: seq<SendResult>)  // 200
    | ServerError                                                            // 500

  function StatusCode(r: Response): (c: nat)
    ensures c == 200 <==> r.Summary?
    ensures c == 400 <==> r.MissingSelection?
    ensures c == 404 <==> r.NothingToSend?
    ensures c == 500 <==> r.NotConfigured? || r.ServerError?
  {
    match r
    case NotConfigured => 500
    case MissingSelection => 400
    case NothingToSend => 404
    case Summary(_, _, _) => 200
    case ServerError => 500
  }

  /** `inviteIds.includes(invite.id)`: only a JSON number equal to the id
      matches; a string such as `"3"` does not. */
  predicate Listed(ids: seq<Json>, id: nat)
  {
    Num(id as real) in ids
  }

  /** `body.sendToAll`, with the destructuring default `false`. */
  predicate SendToAll(j: Json)
  {
    Truthy(Get(j, "sendToAll"))
  }

  /** `inviteIds && Array.isArray(inviteIds)`. */
  predicate HasIdList(j: Json)
  {
    Get(j, "inviteIds").Some? && Get(j, "inviteIds").value.Arr?
  }

  /** The invites to mail, newest first as `getAllInvites` lists them, or
      `None` when the body names neither selection. */
  function Select(j: Json, db: Db): (r: Option<seq<InviteRecord>>)
    ensures r.None? <==> !SendToAll(j) && !HasIdList(j)
    ensures SendToAll(j) ==>
      forall row :: row in r.value <==> row in db.invites && row.status == Pending
    ensures !SendToAll(j) && HasIdList(j) ==>
      forall row :: row in r.value <==> row in db.invites && Listed(Get(j, "inviteIds").value.items, row.id)
    ensures r.Some? ==> |r.value| <= |db.invites|
    ensures r.Some? ==> multiset(r.value) <= multiset(db.invites)
    ensures r.Some? ==> forall i, k :: 0 <= i < k < |r.value| ==>
      || r.value[i].createdAt > r.value[k].createdAt
      || (r.value[i].createdAt == r.value[k].createdAt && r.value[i].id <= r.value[k].id)
  {
    if SendToAll(j) then
      Some(Kept(db, (row: InviteRecord) => row.status == Pending))
    else if HasIdList(j) then
      var ids := Get(j, "inviteIds").value.items;
      Some(Kept(db, (row: InviteRecord) => Listed(ids, row.id)))
    else None
  }

  /** `getAllInvites().filter(keep)`: the kept rows, each at most once, in
      the listing's order. */
  function Kept(db: Db, keep: InviteRecord -> bool): (r: seq<InviteRecord>)
    ensures forall row :: row in r <==> row in db.invites && keep(row)
    ensures |r| <= |db.invites|
    ensures multiset(r) <= multiset(db.invites)
    ensures forall i, k :: 0 <= i < k < |r| ==>
      || r[i].createdAt > r[k].createdAt
      || (r[i].createdAt == r[k].createdAt && r[i].id <= r[k].id)
  {
    var all := ListInvites(db);
    SameRows(db.invites, all);
    assert Ordered(all, InviteCreatedAt, InviteId);
    FilterOrdered(all, keep, InviteCreatedAt, InviteId);
    Filter(all, keep)
  }

  /** A listing holds the same rows as the table. */
  lemma SameRows(rows: seq<InviteRecord>, listed: seq<InviteRecord>)
    requires multiset(listed) == multiset(rows)
    ensures forall row :: row in listed <==> row in rows
  {
    forall row
      ensures row in listed <==> row in rows
    {
      assert row in listed <==> row in multiset(listed);
      assert row in rows <==> row in multiset(rows);
    }
  }

  // ---------------------------------------------------------------------
  // The effect of the loop on the table

  /** The addresses the first `n` attempts delivered to. */
  function DeliveredEmails(sel: seq<InviteRecord>, send: (nat, InviteRecord) -> MailOutcome, n: nat): set<string>
    requires n <= |sel|
  {
    set i | 0 <= i < n && Delivered(send(i, sel[i])) :: sel[i].email
  }

  /** The number of the first `n` attempts that delivered. */
  function DeliveredCount(sel: seq<InviteRecord>, send: (nat, InviteRecord) -> MailOutcome, n: nat): (c: nat)
    requires n <= |sel|
    ensures c <= n
  {
    if n == 0 then 0 else DeliveredCount(sel, send, n - 1) + (if Delivered(send(n - 1, sel[n - 1])) then 1 else 0)
  }

  /** Reference for the combined updates: every row whose address was
      delivered to and that is not `responded` is stamped `sent`. */
  function MarkSent(rows: seq<InviteRecord>, emails: set<string>, now: Timestamp): (r: seq<InviteRecord>)
    ensures |r| == |rows|
    ensures forall i :: 0 <= i < |rows| ==>
      r[i].id == rows[i].id && r[i].email == rows[i].email && r[i].createdAt == rows[i].createdAt
    ensures forall i :: 0 <= i < |rows| ==>
      (r[i].status == Sent && r[i].inviteSentDate == Some(now) && r[i].rsvpId.None?) ||  r[i] == rows[i]
    ensures forall i :: 0 <= i < |rows| && (rows[i].email !in emails || rows[i].status == Responded) ==>
      r[i] == rows[i]
  {
    seq(|rows|, i requires 0 <= i < |rows| =>
      if rows[i].email in emails && rows[i].status != Responded then Stamp(rows[i], Sent, None, now) else rows[i])
  }

  lemma MarkSentNone(rows: seq<InviteRecord>, now: Timestamp)
    ensures MarkSent(rows, {}, now) == rows
  {
  }

  /** One more `updateInviteStatus(email, 'sent')` adds its address to the set:
      a row stamped before is stamped again with the same values. */
  lemma MarkSentStep(rows: seq<InviteRecord>, emails: set<string>, e: string, now: Timestamp)
    ensures UpdateRows(MarkSent(rows, emails, now), e, Sent, None, now) == MarkSent(rows, emails + {e}, now)
  {
    var before := MarkSent(rows, emails, now);
    var after := UpdateRows(before, e, Sent, None, now);
    var want := MarkSent(rows, emails + {e}, now);
    forall i | 0 <= i < |rows|
      ensures after[i] == want[i]
    {
    }
  }

  lemma DeliveredEmailsStep(sel: seq<InviteRecord>, send: (nat, InviteRecord) -> MailOutcome, n: nat)
    requires n < |sel|
    ensures DeliveredEmails(sel, send, n + 1) ==
      DeliveredEmails(sel, send, n) + (if Delivered(send(n, sel[n])) then {sel[n].email} else {})
  {
    var a := DeliveredEmails(sel, send, n + 1);
    var b := DeliveredEmails(sel, send, n) + (if Delivered(send(n, sel[n])) then {sel[n].email} else {});
    forall e | e in a
      ensures e in b
    {
      var i :| 0 <= i < n + 1 && Delivered(send(i, sel[i])) && sel[i].email == e;
      if i < n {
        assert e in DeliveredEmails(sel, send, n);
      }
    }
    forall e | e in b
      ensures e in a
    {
      if e in DeliveredEmails(sel, send, n) {
        var i :| 0 <= i < n && Delivered(send(i, sel[i])) && sel[i].email == e;
        assert e in a;
      } else {
        assert e == sel[n].email && Delivered(send(n, sel[n]));
        assert e in a;
      }
    }
  }

  /** One pass of the loop keeps the table equal to `MarkSent` of the
      addresses delivered so far. */
  lemma SendStep(db: Db, out: Db, sel: seq<InviteRecord>, send: (nat, InviteRecord) -> MailOutcome,
                 i: nat, now: Timestamp)
    requires i < |sel|
    requires out.invites == MarkSent(db.invites, DeliveredEmails(sel, send, i), now)
    ensures Delivered(send(i, sel[i])) ==>
      UpdateInviteStatus(out, sel[i].email, Sent, None, now).db.invites
        == MarkSent(db.invites, DeliveredEmails(sel, send, i + 1), now)
    ensures !Delivered(send(i, sel[i])) ==>
      out.invites == MarkSent(db.invites, DeliveredEmails(sel, send, i + 1), now)
  {
    DeliveredEmailsStep(sel, send, i);
    if Delivered(send(i, sel[i])) {
      MarkSentStep(db.invites, DeliveredEmails(sel, send, i), sel[i].email, now);
    }
  }

  /** The report for one attempt: `success: true` with the message id
      exactly when the message went out. */
  function ResultOf(invite: InviteRecord, o: MailOutcome): (r: SendResult)
    ensures r.email == invite.email
    ensures r.SendOk? <==> Delivered(o)
    ensures r.SendOk? ==> o == Answered(Some(r.messageId))
  {
    if Delivered(o) then SendOk(invite.email, o.id.value) else SendFailed(invite.email)
  }

  /** One pass of the loop: send to `sel[i]`, and on delivery mark its
      address `sent`. */
  method Attempt(db: Db, out: Db, sel: seq<InviteRecord>, send: (nat, InviteRecord) -> MailOutcome,
                 i: nat, now: Timestamp)
    returns (result: SendResult, next: Db)
    requires i < |sel|
    requires out.invites == MarkSent(db.invites, DeliveredEmails(sel, send, i), now)
    ensures result == ResultOf(sel[i], send(i, sel[i]))
    ensures next.rsvps == out.rsvps && next.rsvpSeq == out.rsvpSeq && next.inviteSeq == out.inviteSeq
    ensures next.invites == MarkSent(db.invites, DeliveredEmails(sel, send, i + 1), now)
  {
    var outcome := send(i, sel[i]);
    SendStep(db, out, sel, send, i, now);
    next := out;
    if Delivered(outcome) {
      var u := UpdateInviteStatus(out, sel[i].email, Sent, None, now);
      next := u.db;
    }
    result := ResultOf(sel[i], outcome);
  }

  /** The `for (const invite of invitesToSend)` loop: one attempt per selected
      invite; a delivered message updates every non-`responded` row with that
      address, any other outcome is counted as a failure and changes nothing. */
  method SendAll(db: Db, sel: seq<InviteRecord>, send: (nat, InviteRecord) -> MailOutcome, now: Timestamp)
    returns (results: seq<SendResult>, successCount: nat, failCount: nat, out: Db)
    ensures |results| == |sel| && successCount + failCount == |sel|
    ensures forall i :: 0 <= i < |sel| ==> results[i].email == sel[i].email
    ensures forall i :: 0 <= i < |sel| ==> (results[i].SendOk? <==> Delivered(send(i, sel[i])))
    ensures forall i :: 0 <= i < |sel| && results[i].SendOk? ==> send(i, sel[i]) == Answered(Some(results[i].messageId))
    ensures successCount == DeliveredCount(sel, send, |sel|)
    ensures out.rsvps == db.rsvps && out.rsvpSeq == db.rsvpSeq && out.inviteSeq == db.inviteSeq
    ensures out.invites == MarkSent(db.invites, DeliveredEmails(sel, send, |sel|), now)
  {
    results, successCount, failCount, out := [], 0, 0, db;
    MarkSentNone(db.invites, now);
    var i := 0;
    while i < |sel|
      invariant 0 <= i <= |sel|
      invariant |results| == i && successCount + failCount == i
      invariant forall k :: 0 <= k < i ==> results[k] == ResultOf(sel[k], send(k, sel[k]))
      invariant successCount == DeliveredCount(sel, send, i)
      invariant out.rsvps == db.rsvps && out.rsvpSeq == db.rsvpSeq && out.inviteSeq == db.inviteSeq
      invariant out.invites == MarkSent(db.invites, DeliveredEmails(sel, send, i), now)
    {
      var result;
      result, out := Attempt(db, out, sel, send, i, now);
      if result.SendOk? {
        successCount := successCount + 1;
      } else {
        failCount := failCount + 1;
      }
      results := results + [result];
      i := i + 1;
    }
  }

  // ---------------------------------------------------------------------
  // The handler

  /** `POST(request)`. `body` is `None` when `request.json()` throws; a
      `null` body makes the destructuring throw. */
  method Post(cfg: Config, body: Option<Json>, db: Db, send: (nat, InviteRecord) -> MailOutcome,
              now: Timestamp) returns (resp: Response, out: Db)
    ensures resp == NotConfigured <==> !EmailConfigured(cfg)
    ensures resp == ServerError <==> EmailConfigured(cfg) && (body.None? || body == Some(Null))
    ensures resp == MissingSelection <==>
      EmailConfigured(cfg) && body.Some? && body.value != Null && Select(body.value, db).None?
    ensures resp == NothingToSend <==>
      EmailConfigured(cfg) && body.Some? && body.value != Null && Select(body.value, db) == Some([])
    ensures resp.Summary? <==>
      && EmailConfigured(cfg) && body.Some? && body.value != Null
      && Select(body.value, db).Some? && Select(body.value, db).value != []
    ensures !resp.Summary? ==> out == db
    ensures resp.Summary? ==>
      var sel := Select(body.value, db).value;
      && sel != []
      && resp.successCount + resp.failCount == |resp.results| == |sel|
      && resp.successCount == DeliveredCount(sel, send, |sel|)
      && (forall i :: 0 <= i < |sel| ==> resp.results[i].email == sel[i].email)
      && (forall i :: 0 <= i < |sel| ==> (resp.results[i].SendOk? <==> Delivered(send(i, sel[i]))))
      && (forall i :: 0 <= i < |sel| && resp.results[i].SendOk? ==>
            send(i, sel[i]) == Answered(Some(resp.results[i].messageId)))
      && out.rsvps == db.rsvps && out.rsvpSeq == db.rsvpSeq && out.inviteSeq == db.inviteSeq
      && out.invites == MarkSent(db.invites, DeliveredEmails(sel, send, |sel|), now)
  {
    if !EmailConfigured(cfg) {
      return NotConfigured, db;
    }
    if body.None? || body == Some(Null) {
      return ServerError, db;
    }
    var selection := Select(body.value, db);
    if selection.None? {
      return MissingSelection, db;
    }
    var sel := selection.value;
    if sel == [] {
      return NothingToSend, db;
    }
    var results, ok, failed;
    results, ok, failed, out := SendAll(db, sel, send, now);
    resp := Summary(ok, failed, results);
  }

  // ---------------------------------------------------------------------
  // What sending can and cannot change

  /** A `responded` row is never touched, and every row the send changed is
      now `sent` with the send time and no RSVP id. */
  lemma MarkSentEffect(rows: seq<InviteRecord>, emails: set<string>, now: Timestamp)
    ensures var after := MarkSent(rows, emails, now);
      && |after| == |rows|
      && (forall i :: 0 <= i < |rows| && rows[i].status == Responded ==> after[i] == rows[i])
      && (forall i :: 0 <= i < |rows| && rows[i].email !in emails ==> after[i] == rows[i])
      && (forall i :: 0 <= i < |rows| && after[i] != rows[i] ==>
            after[i].status == Sent && after[i].inviteSentDate == Some(now) && after[i].rsvpId.None?
            && after[i].id == rows[i].id && after[i].email == rows[i].email)
  {
  }

  /** Sending keeps the table well formed: ids and creation times stay put. */
  lemma MarkSentKeepsValid(db: Db, emails: set<string>, now: Timestamp)
    requires Store.Valid(db)
    ensures Store.Valid(db.(invites := MarkSent(db.invites, emails, now)))
  {
  }

  /** With `sendToAll` every delivered address belongs to a row that was
      `pending`. */
  lemma SendToAllTargetsPending(j: Json, db: Db, send: (nat, InviteRecord) -> MailOutcome, e: string)
    requires SendToAll(j)
    requires e in DeliveredEmails(Select(j, db).value, send, |Select(j, db).value|)
    ensures exists k :: 0 <= k < |db.invites| && db.invites[k].email == e && db.invites[k].status == Pending
  {
    var sel := Select(j, db).value;
    var row := DeliveredRow(sel, send, e);
    assert row in db.invites && row.status == Pending;
    var k :| 0 <= k < |db.invites| && db.invites[k] == row;
  }

  /** An address the attempts delivered to belongs to a selected invite. */
  lemma DeliveredRow(sel: seq<InviteRecord>, send: (nat, InviteRecord) -> MailOutcome, e: string)
      returns (row: InviteRecord)
    requires e in DeliveredEmails(sel, send, |sel|)
    ensures row in sel && row.email == e
  {
    var i :| 0 <= i < |sel| && Delivered(send(i, sel[i])) && sel[i].email == e;
    row := sel[i];
  }
}

=== FILE: store.dfy ===
/** The SQLite storage layer: the `rsvps` and `invites` tables held as
    sequences of rows in rowid (insertion) order, with the operations of
    `dbOperations`. The clock (`CURRENT_TIMESTAMP`) is the parameter `now`. */
module Store {
  import opened Base

  /** Seconds on the database clock; `CURRENT_TIMESTAMP` has second resolution. */
  type Timestamp = nat

  /** The values the `invites.status` CHECK constraint admits. */
  datatype Status = Pending | Sent | Responded | Declined

  /** The values the `rsvps.attendance` CHECK constraint admits. */
  datatype Attendance = Yes | No

  datatype RsvpRecord = RsvpRecord(
    id: nat,
    name: string,
    email: string,
    attendance: Attendance,
    dietaryRequirements: Option<string>,
    rsvpDate: Timestamp,
    confirmationId: Option<string>,
    createdAt: Timestamp
  )

  datatype InviteRecord = InviteRecord(
    id: nat,
    name: string,
    email: string,
    inviteSentDate: Option<Timestamp>,
    inviteUrl: Option<string>,
    rsvpId: Option<int>,
    status: Status,
    createdAt: Timestamp
  )

  /** Both tables, in rowid order, and the AUTOINCREMENT counters
      (`sqlite_sequence`): the largest id each table has handed out. */
  datatype Db = Db(
    rsvps: seq<RsvpRecord>,
    invites: seq<InviteRecord>,
    rsvpSeq: nat,
    inviteSeq: nat
  )

  const EmptyDb := Db([], [], 0, 0)

  /** What a freshly created database file looks like. */
  predicate Valid(db: Db)
  {
    && (forall i, j :: 0 <= i < j < |db.rsvps| ==>
          db.rsvps[i].id < db.rsvps[j].id && db.rsvps[i].createdAt <= db.rsvps[j].createdAt)
    && (forall i :: 0 <= i < |db.rsvps| ==> 1 <= db.rsvps[i].id <= db.rsvpSeq)
    && (forall i, j :: 0 <= i < j < |db.invites| ==>
          db.invites[i].id < db.invites[j].id && db.invites[i].createdAt <= db.invites[j].createdAt)
    && (forall i :: 0 <= i < |db.invites| ==> 1 <= db.invites[i].id <= db.inviteSeq)
  }

  /** The clock has not gone backwards since the last row was written. */
  predicate ClockNotBehind(db: Db, now: Timestamp)
  {
    && (forall i :: 0 <= i < |db.rsvps| ==> db.rsvps[i].createdAt <= now)
    && (forall i :: 0 <= i < |db.invites| ==> db.invites[i].createdAt <= now)
  }

  /** `value || null` on an optional string parameter. */
  function NullIfEmpty(v: Option<string>): (r: Option<string>)
    ensures r.None? <==> v.None? || v.value == ""
    ensures r.Some? ==> r == v
  {
    if v.Some? && v.value != "" then v else None
  }

  /** `rsvp_id || null`: an absent id and the id 0 are both stored as NULL. */
  function NullIfZero(v: Option<int>): (r: Option<int>)
    ensures r.None? <==> v.None? || v.value == 0
    ensures r.Some? ==> r == v
  {
    if v.Some? && v.value != 0 then v else None
  }

  /** The `attendance IN ('yes', 'no')` CHECK constraint. */
  function CheckAttendance(text: string): (r: Option<Attendance>)
    ensures r.Some? <==> text == "yes" || text == "no"
    ensures r == Some(Yes) <==> text == "yes"
  {
    if text == "yes" then Some(Yes) else if text == "no" then Some(No) else None
  }

  /** The `status IN ('pending', 'sent', 'responded', 'declined')` CHECK
      constraint. */
  function CheckStatus(text: string): (r: Option<Status>)
    ensures r.Some? <==> text in {"pending", "sent", "responded", "declined"}
  {
    if text == "pending" then Some(Pending)
    else if text == "sent" then Some(Sent)
    else if text == "responded" then Some(Responded)
    else if text == "declined" then Some(Declined)
    else None
  }

  /** A successful INSERT: `lastInsertRowid` and the new state. */
  datatype Inserted = Inserted(id: nat, db: Db)

  datatype StoreError = ConstraintFailed

  /** `insertRSVP`: appends one row unless the attendance CHECK fails. */
  function InsertRsvp(db: Db, name: string, email: string, attendance: string,
                      dietaryRequirements: Option<string>, confirmationId: Option<string>,
                      now: Timestamp): (r: Result<Inserted, StoreError>)
    ensures r.Failure? <==> attendance != "yes" && attendance != "no"
    ensures r.Success? ==>
      && r.value.db.invites == db.invites && r.value.db.inviteSeq == db.inviteSeq
      && |r.value.db.rsvps| == |db.rsvps| + 1
      && r.value.db.rsvps[..|db.rsvps|] == db.rsvps
    ensures r.Success? ==>
      var row := r.value.db.rsvps[|db.rsvps|];
      && row.id == r.value.id
      && (Valid(db) ==> forall i :: 0 <= i < |db.rsvps| ==> db.rsvps[i].id < row.id)
      && row.name == name && row.email == email
      && (row.attendance == Yes <==> attendance == "yes")
      && (row.dietaryRequirements.None? <==> dietaryRequirements.None? || dietaryRequirements.value == "")
      && (row.dietaryRequirements.Some? ==> row.dietaryRequirements == dietaryRequirements)
      && (row.confirmationId.None? <==> confirmationId.None? || confirmationId.value == "")
      && (row.confirmationId.Some? ==> row.confirmationId == confirmationId)
      && row.createdAt == now && row.rsvpDate == now
  {
    match CheckAttendance(attendance)
    case None => Failure(ConstraintFailed)
    case Some(a) =>
      var id := db.rsvpSeq + 1;
      var row := RsvpRecord(id, name, email, a, NullIfEmpty(dietaryRequirements), now,
                            NullIfEmpty(confirmationId), now);
      Success(Inserted(id, db.(rsvps := db.rsvps + [row], rsvpSeq := id)))
  }

  /** `insertInvite`: always appends exactly one `pending` row. */
  function InsertInvite(db: Db, name: string, email: string, inviteUrl: Option<string>,
                        now: Timestamp): (r: Inserted)
    ensures r.db.rsvps == db.rsvps && r.db.rsvpSeq == db.rsvpSeq
    ensures |r.db.invites| == |db.invites| + 1
    ensures r.db.invites[..|db.invites|] == db.invites
    ensures Valid(db) ==> forall i :: 0 <= i < |db.invites| ==> db.invites[i].id < r.id
    ensures r.db.invites[|db.invites|] == InviteRecord(r.id, name, email, None,
              if inviteUrl.Some? && inviteUrl.value != "" then inviteUrl else None,
              None, Pending, now)
  {
    var id := db.inviteSeq + 1;
    var row := InviteRecord(id, name, email, None, NullIfEmpty(inviteUrl), None, Pending, now);
    Inserted(id, db.(invites := db.invites + [row], inviteSeq := id))
  }

  lemma InsertInviteKeepsValid(db: Db, name: string, email: string, inviteUrl: Option<string>,
                               now: Timestamp)
    requires Valid(db) && ClockNotBehind(db, now)
    ensures Valid(InsertInvite(db, name, email, inviteUrl, now).db)
    ensures ClockNotBehind(InsertInvite(db, name, email, inviteUrl, now).db, now)
  {
  }

  lemma InsertRsvpKeepsValid(db: Db, name: string, email: string, attendance: string,
                             dietaryRequirements: Option<string>, confirmationId: Option<string>,
                             now: Timestamp)
    requires Valid(db) && ClockNotBehind(db, now)
    requires attendance == "yes" || attendance == "no"
    ensures Valid(InsertRsvp(db, name, email, attendance, dietaryRequirements, confirmationId, now).value.db)
  {
  }

  // ---------------------------------------------------------------------
  // updateInviteStatus

  /** The WHERE clause of `updateInviteStatus`: exact (binary) email match,
      and not yet `responded`. */
  predicate Targets(row: InviteRecord, email: string)
  {
    row.email == email && row.status != Responded
  }

  /** The SET clause of `updateInviteStatus`. */
  function Stamp(row: InviteRecord, status: Status, rsvpId: Option<int>, now: Timestamp): (r: InviteRecord)
    ensures r.id == row.id && r.name == row.name && r.email == row.email
    ensures r.inviteUrl == row.inviteUrl && r.createdAt == row.createdAt
    ensures r.status == status && r.inviteSentDate == Some(now)
    ensures r.rsvpId.None? <==> rsvpId.None? || rsvpId.value == 0
    ensures r.rsvpId.Some? ==> r.rsvpId == rsvpId
  {
    row.(status := status, rsvpId := NullIfZero(rsvpId), inviteSentDate := Some(now))
  }

  /** The UPDATE applied to every row of the table. */
  function UpdateRows(rows: seq<InviteRecord>, email: string, status: Status, rsvpId: Option<int>,
                      now: Timestamp): (r: seq<InviteRecord>)
    ensures |r| == |rows|
    ensures forall i :: 0 <= i < |rows| ==>
      r[i] == if Targets(rows[i], email) then Stamp(rows[i], status, rsvpId, now) else rows[i]
  {
    if rows == [] then []
    else
      [if Targets(rows[0], email) then Stamp(rows[0], status, rsvpId, now) else rows[0]]
      + UpdateRows(rows[1..], email, status, rsvpId, now)
  }

  /** Number of rows the WHERE clause selects. */
  function CountTargets(rows: seq<InviteRecord>, email: string): (n: nat)
    ensures n <= |rows|
    ensures n == 0 <==> forall i :: 0 <= i < |rows| ==> !Targets(rows[i], email)
  {
    if rows == [] then 0
    else (if Targets(rows[0], email) then 1 else 0) + CountTargets(rows[1..], email)
  }

  /** The result of a `run()` of an UPDATE: the `changes` count and the new state. */
  datatype Updated = Updated(changes: nat, db: Db)

  /** `updateInviteStatus(email, status, rsvp_id?)`: every row with exactly
      this email that is not `responded` gets the new status, `rsvp_id` (NULL
      when absent or 0) and `invite_sent_date = now`; nothing else changes. */
  function UpdateInviteStatus(db: Db, email: string, status: Status, rsvpId: Option<int>,
                              now: Timestamp): (r: Updated)
    ensures r.db.rsvps == db.rsvps && r.db.rsvpSeq == db.rsvpSeq && r.db.inviteSeq == db.inviteSeq
    ensures |r.db.invites| == |db.invites|
    ensures forall i :: 0 <= i < |db.invites| ==>
      var before, after := db.invites[i], r.db.invites[i];
      && after.id == before.id && after.name == before.name && after.email == before.email
      && after.inviteUrl == before.inviteUrl && after.createdAt == before.createdAt
      && (before.status == Responded ==> after == before)
      && (before.email != email ==> after == before)
      && (before.email == email && before.status != Responded ==>
            after.status == status && after.inviteSentDate == Some(now)
            && (after.rsvpId.Some? <==> rsvpId.Some? && rsvpId.value != 0)
            && (after.rsvpId.Some? ==> after.rsvpId == rsvpId))
    ensures r.changes == CountTargets(db.invites, email)
    ensures r.changes == 0 ==> r.db == db
  {
    var rows := UpdateRows(db.invites, email, status, rsvpId, now);
    var changes := CountTargets(db.invites, email);
    if changes == 0 then
      assert rows == db.invites;
      Updated(0, db.(invites := rows))
    else
      Updated(changes, db.(invites := rows))
  }

  lemma UpdateKeepsValid(db: Db, email: string, status: Status, rsvpId: Option<int>, now: Timestamp)
    requires Valid(db)
    ensures Valid(UpdateInviteStatus(db, email, status, rsvpId, now).db)
  {
  }

  /** Repeating the same update changes nothing further. */
  lemma {:induction false} UpdateIdempotent(rows: seq<InviteRecord>, email: string, status: Status,
                                            rsvpId: Option<int>, now: Timestamp)
    ensures UpdateRows(UpdateRows(rows, email, status, rsvpId, now), email, status, rsvpId, now)
         == UpdateRows(rows, email, status, rsvpId, now)
  {
    var once := UpdateRows(rows, email, status, rsvpId, now);
    var twice := UpdateRows(once, email, status, rsvpId, now);
    forall i | 0 <= i < |rows|
      ensures twice[i] == once[i]
    {
      if Targets(rows[i], email) {
        assert once[i] == Stamp(rows[i], status, rsvpId, now);
      }
    }
  }

  // ---------------------------------------------------------------------
  // Queries

  function InviteCreatedAt(row: InviteRecord): int { row.createdAt }
  function InviteId(row: InviteRecord): int { row.id }
  function RsvpCreatedAt(row: RsvpRecord): int { row.createdAt }
  function RsvpId(row: RsvpRecord): int { row.id }

  /** `getAllInvites`: `ORDER BY created_at DESC`. SQLite sorts the rows of
      a full scan, which come in rowid order, and keeps that order among
      equal timestamps: ties come lowest id first. */
  function ListInvites(db: Db): (r: seq<InviteRecord>)
    ensures |r| == |db.invites|
    ensures multiset(r) == multiset(db.invites)
    ensures forall i, j :: 0 <= i < j < |r| ==>
      r[i].createdAt > r[j].createdAt || (r[i].createdAt == r[j].createdAt && r[i].id <= r[j].id)
  {
    SortBy(db.invites, InviteCreatedAt, InviteId)
  }

  /** `getAllRSVPs`: `ORDER BY created_at DESC`, ties lowest id first. */
  function ListRsvps(db: Db): (r: seq<RsvpRecord>)
    ensures |r| == |db.rsvps|
    ensures multiset(r) == multiset(db.rsvps)
    ensures forall i, j :: 0 <= i < j < |r| ==>
      r[i].createdAt > r[j].createdAt || (r[i].createdAt == r[j].createdAt && r[i].id <= r[j].id)
  {
    SortBy(db.rsvps, RsvpCreatedAt, RsvpId)
  }

  /** Index of the first row of a listing with this email, if any. */
  function FirstWithEmail(rows: seq<RsvpRecord>, email: string): (k: Option<nat>)
    ensures k.None? <==> forall i :: 0 <= i < |rows| ==> rows[i].email != email
    ensures k.Some? ==>
      && k.value < |rows| && rows[k.value].email == email
      && forall i :: 0 <= i < k.value ==> rows[i].email != email
  {
    if rows == [] then None
    else if rows[0].email == email then Some(0)
    else match FirstWithEmail(rows[1..], email)
      case None => None
      case Some(j) => Some(j + 1)
  }

  /** `getRSVPByEmail`: `WHERE email = ? ORDER BY created_at DESC LIMIT 1`,
      the first row with exactly this email in the newest-first listing, or
      null. Among rows created in the same second that is the lowest id. */
  function GetRsvpByEmail(db: Db, email: string): (r: Option<RsvpRecord>)
    ensures r.None? <==> forall i :: 0 <= i < |db.rsvps| ==> db.rsvps[i].email != email
    ensures r.Some? ==> r.value in db.rsvps && r.value.email == email
    ensures r.Some? ==> forall i :: 0 <= i < |db.rsvps| && db.rsvps[i].email == email ==>
      || db.rsvps[i].createdAt < r.value.createdAt
      || (db.rsvps[i].createdAt == r.value.createdAt && r.value.id <= db.rsvps[i].id)
  {
    var listing := ListRsvps(db);
    match FirstWithEmail(listing, email)
    case None =>
      NoneListed(db, listing, email);
      None
    case Some(k) =>
      FirstListed(db, listing, email, k);
      Some(listing[k])
  }

  lemma NoneListed(db: Db, listing: seq<RsvpRecord>, email: string)
    requires multiset(listing) == multiset(db.rsvps)
    requires forall i :: 0 <= i < |listing| ==> listing[i].email != email
    ensures forall i :: 0 <= i < |db.rsvps| ==> db.rsvps[i].email != email
  {
    forall i | 0 <= i < |db.rsvps| ensures db.rsvps[i].email != email {
      assert db.rsvps[i] in multiset(listing);
    }
  }

  lemma FirstListed(db: Db, listing: seq<RsvpRecord>, email: string, k: nat)
    requires listing == ListRsvps(db)
    requires k < |listing| && listing[k].email == email
    requires forall i :: 0 <= i < k ==> listing[i].email != email
    ensures listing[k] in db.rsvps
    ensures forall i :: 0 <= i < |db.rsvps| && db.rsvps[i].email == email ==>
      || db.rsvps[i].createdAt < listing[k].createdAt
      || (db.rsvps[i].createdAt == listing[k].createdAt && listing[k].id <= db.rsvps[i].id)
  {
    assert listing[k] in multiset(db.rsvps);
    forall i | 0 <= i < |db.rsvps| && db.rsvps[i].email == email
      ensures || db.rsvps[i].createdAt < listing[k].createdAt
              || (db.rsvps[i].createdAt == listing[k].createdAt && listing[k].id <= db.rsvps[i].id)
    {
      assert db.rsvps[i] in multiset(listing);
      var j :| 0 <= j < |listing| && listing[j] == db.rsvps[i];
      assert k <= j;
    }
  }

  // ---------------------------------------------------------------------
  // Aggregates

  function CountStatus(rows: seq<InviteRecord>, s: Status): (n: nat)
    ensures n <= |rows|
  {
    if rows == [] then 0
    else (if rows[0].status == s then 1 else 0) + CountStatus(rows[1..], s)
  }

  function CountAttendance(rows: seq<RsvpRecord>, a: Attendance): (n: nat)
    ensures n <= |rows|
    ensures n > 0 <==> exists i :: 0 <= i < |rows| && rows[i].attendance == a
  {
    if rows == [] then 0
    else (if rows[0].attendance == a then 1 else 0) + CountAttendance(rows[1..], a)
  }

  lemma {:induction false} StatusCountsPartition(rows: seq<InviteRecord>)
    ensures CountStatus(rows, Pending) + CountStatus(rows, Sent)
          + CountStatus(rows, Responded) + CountStatus(rows, Declined) == |rows|
  {
    if rows != [] {
      StatusCountsPartition(rows[1..]);
    }
  }

  lemma {:induction false} AttendanceCountsPartition(rows: seq<RsvpRecord>)
    ensures CountAttendance(rows, Yes) + CountAttendance(rows, No) == |rows|
  {
    if rows != [] {
      AttendanceCountsPartition(rows[1..]);
    }
  }

  /** The text SQLite stores for a status. */
  function StatusText(s: Status): (r: string)
    ensures CheckStatus(r) == Some(s)
  {
    match s
    case Pending => "pending"
    case Sent => "sent"
    case Responded => "responded"
    case Declined => "declined"
  }

  /** The text SQLite stores for an attendance answer. */
  function AttendanceText(a: Attendance): (r: string)
    ensures CheckAttendance(r) == Some(a)
  {
    match a
    case Yes => "yes"
    case No => "no"
  }

  /** Position of a status in the ascending text order GROUP BY emits. */
  function StatusRank(s: Status): nat
  {
    match s
    case Declined => 0
    case Pending => 1
    case Responded => 2
    case Sent => 3
  }

  datatype StatusCount = StatusCount(status: Status, count: nat)
  datatype AttendanceCount = AttendanceCount(attendance: Attendance, count: nat)

  function SumStatusCounts(groups: seq<StatusCount>): nat
  {
    if groups == [] then 0 else groups[0].count + SumStatusCounts(groups[1..])
  }

  function SumAttendanceCounts(groups: seq<AttendanceCount>): nat
  {
    if groups == [] then 0 else groups[0].count + SumAttendanceCounts(groups[1..])
  }

  /** `stats` has a group for status `s`. */
  predicate HasGroup(stats: seq<StatusCount>, s: Status)
  {
    exists k :: 0 <= k < |stats| && stats[k].status == s
  }

  /** The statuses in the ascending text order GROUP BY emits. */
  const StatusOrder: seq<Status> := [Declined, Pending, Responded, Sent]

  predicate RankIncreasing(ss: seq<Status>)
  {
    forall i, j :: 0 <= i < j < |ss| ==> StatusRank(ss[i]) < StatusRank(ss[j])
  }

  /** Total number of rows whose status is one of `ss`. */
  function CountAmong(rows: seq<InviteRecord>, ss: seq<Status>): nat
  {
    if ss == [] then 0 else CountStatus(rows, ss[0]) + CountAmong(rows, ss[1..])
  }

  /** One group per status of `ss` that occurs in `rows`, in the order of `ss`. */
  function Groups(rows: seq<InviteRecord>, ss: seq<Status>): (r: seq<StatusCount>)
    ensures forall k :: 0 <= k < |r| ==>
      r[k].count > 0 && r[k].count == CountStatus(rows, r[k].status) && r[k].status in ss
    ensures SumStatusCounts(r) == CountAmong(rows, ss)
  {
    if ss == [] then []
    else
      var rest := Groups(rows, ss[1..]);
      var n := CountStatus(rows, ss[0]);
      if n > 0 then
        var r := [StatusCount(ss[0], n)] + rest;
        assert r[1..] == rest;
        r
      else rest
  }

  lemma {:induction false} GroupsComplete(rows: seq<InviteRecord>, ss: seq<Status>, s: Status)
    requires s in ss && CountStatus(rows, s) > 0
    ensures HasGroup(Groups(rows, ss), s)
  {
    var r := Groups(rows, ss);
    var n := CountStatus(rows, ss[0]);
    if ss[0] == s {
      assert r[0].status == s;
    } else {
      GroupsComplete(rows, ss[1..], s);
      var rest := Groups(rows, ss[1..]);
      var k :| 0 <= k < |rest| && rest[k].status == s;
      if n > 0 {
        assert r[k + 1] == rest[k];
      } else {
        assert r[k] == rest[k];
      }
    }
  }

  lemma GroupsSkip(rows: seq<InviteRecord>, ss: seq<Status>)
    requires ss != [] && CountStatus(rows, ss[0]) == 0
    ensures Groups(rows, ss) == Groups(rows, ss[1..])
  {
  }

  lemma GroupsCons(rows: seq<InviteRecord>, ss: seq<Status>)
    requires ss != [] && CountStatus(rows, ss[0]) > 0
    ensures Groups(rows, ss) == [StatusCount(ss[0], CountStatus(rows, ss[0]))] + Groups(rows, ss[1..])
  {
  }

  /** Groups come out in the order of `ss`. */
  lemma {:induction false} GroupsOrdered(rows: seq<InviteRecord>, ss: seq<Status>)
    requires RankIncreasing(ss)
    ensures forall k, l :: 0 <= k < l < |Groups(rows, ss)| ==>
      StatusRank(Groups(rows, ss)[k].status) < StatusRank(Groups(rows, ss)[l].status)
  {
    if ss != [] {
      var tail := ss[1..];
      assert RankIncreasing(tail) by {
        forall i, j | 0 <= i < j < |tail|
          ensures StatusRank(tail[i]) < StatusRank(tail[j])
        {
          assert tail[i] == ss[i + 1] && tail[j] == ss[j + 1];
        }
      }
      GroupsOrdered(rows, tail);
      var rest := Groups(rows, tail);
      if CountStatus(rows, ss[0]) > 0 {
        GroupsCons(rows, ss);
        var r := [StatusCount(ss[0], CountStatus(rows, ss[0]))] + rest;
        forall k, l | 0 <= k < l < |r|
          ensures StatusRank(r[k].status) < StatusRank(r[l].status)
        {
          assert r[l] == rest[l - 1];
          if k > 0 {
            assert r[k] == rest[k - 1];
          } else {
            var st := rest[l - 1].status;
            assert st in tail;
            var i :| 0 <= i < |tail| && tail[i] == st;
            assert tail[i] == ss[i + 1];
          }
        }
      } else {
        GroupsSkip(rows, ss);
      }
    }
  }

  /** All four statuses together account for every row. */
  lemma CountAmongAllStatuses(rows: seq<InviteRecord>)
    ensures CountAmong(rows, StatusOrder) == |rows|
  {
    StatusCountsPartition(rows);
    assert [Sent][1..] == [];
    assert CountAmong(rows, [Sent]) == CountStatus(rows, Sent);
    assert [Responded, Sent][1..] == [Sent];
    assert CountAmong(rows, [Responded, Sent]) == CountStatus(rows, Responded) + CountStatus(rows, Sent);
    assert [Pending, Responded, Sent][1..] == [Responded, Sent];
    assert StatusOrder[1..] == [Pending, Responded, Sent];
  }

  /** `getInviteStats`: `SELECT status, COUNT(*) ... GROUP BY status`. */
  function InviteStats(db: Db): (r: seq<StatusCount>)
    ensures forall k :: 0 <= k < |r| ==>
      r[k].count > 0 && r[k].count == CountStatus(db.invites, r[k].status)
    ensures forall s: Status :: HasGroup(r, s) <==> CountStatus(db.invites, s) > 0
    ensures forall k, l :: 0 <= k < l < |r| ==> StatusRank(r[k].status) < StatusRank(r[l].status)
    ensures SumStatusCounts(r) == |db.invites|
  {
    GroupsOfAllStatuses(db.invites);
    Groups(db.invites, StatusOrder)
  }

  lemma GroupsOfAllStatuses(rows: seq<InviteRecord>)
    ensures var r := Groups(rows, StatusOrder);
      && (forall s: Status :: HasGroup(r, s) <==> CountStatus(rows, s) > 0)
      && (forall k, l :: 0 <= k < l < |r| ==> StatusRank(r[k].status) < StatusRank(r[l].status))
      && SumStatusCounts(r) == |rows|
  {
    CountAmongAllStatuses(rows);
    GroupsOrdered(rows, StatusOrder);
    forall s: Status
      ensures HasGroup(Groups(rows, StatusOrder), s) <==> CountStatus(rows, s) > 0
    {
      GroupOfStatus(rows, s);
    }
  }

  /** A status has a group exactly when some row has it. */
  lemma GroupOfStatus(rows: seq<InviteRecord>, s: Status)
    ensures HasGroup(Groups(rows, StatusOrder), s) <==> CountStatus(rows, s) > 0
  {
    var r := Groups(rows, StatusOrder);
    if CountStatus(rows, s) > 0 {
      StatusListed(s);
      GroupsComplete(rows, StatusOrder, s);
    }
    if HasGroup(r, s) {
      var k :| 0 <= k < |r| && r[k].status == s;
    }
  }

  lemma StatusListed(s: Status)
    ensures s in StatusOrder
  {
    match s
    case Declined => assert StatusOrder[0] == s;
    case Pending => assert StatusOrder[1] == s;
    case Responded => assert StatusOrder[2] == s;
    case Sent => assert StatusOrder[3] == s;
  }

  /** `getRSVPStats`: `SELECT attendance, COUNT(*) ... GROUP BY attendance`
      ('no' sorts before 'yes'). */
  function RsvpStats(db: Db): (r: seq<AttendanceCount>)
    ensures forall k :: 0 <= k < |r| ==>
      r[k].count > 0 && r[k].count == CountAttendance(db.rsvps, r[k].attendance)
    ensures forall a: Attendance :: HasAttendanceGroup(r, a) <==> CountAttendance(db.rsvps, a) > 0
    ensures forall k, l :: 0 <= k < l < |r| ==> r[k].attendance == No && r[l].attendance == Yes
    ensures SumAttendanceCounts(r) == |db.rsvps|
  {
    var rows := db.rsvps;
    var no, yes := CountAttendance(rows, No), CountAttendance(rows, Yes);
    AttendanceCountsPartition(rows);
    var r := (if no > 0 then [AttendanceCount(No, no)] else [])
           + (if yes > 0 then [AttendanceCount(Yes, yes)] else []);
    AttendanceGroupsSum(no, yes, r);
    r
  }

  predicate HasAttendanceGroup(stats: seq<AttendanceCount>, a: Attendance)
  {
    exists k :: 0 <= k < |stats| && stats[k].attendance == a
  }

  /** The two optional groups add up to both counts, and a positive `yes`
      count has its group. */
  lemma AttendanceGroupsSum(no: nat, yes: nat, r: seq<AttendanceCount>)
    requires r == (if no > 0 then [AttendanceCount(No, no)] else [])
                + (if yes > 0 then [AttendanceCount(Yes, yes)] else [])
    ensures SumAttendanceCounts(r) == no + yes
    ensures yes > 0 ==> HasAttendanceGroup(r, Yes)
  {
    if no > 0 && yes > 0 {
      assert r == [AttendanceCount(No, no), AttendanceCount(Yes, yes)];
      assert r[1..] == [AttendanceCount(Yes, yes)];
      assert SumAttendanceCounts(r[1..]) == yes;
      assert r[1].attendance == Yes;
    } else if no > 0 {
      assert r == [AttendanceCount(No, no)];
    } else if yes > 0 {
      assert r == [AttendanceCount(Yes, yes)];
      assert r[0].attendance == Yes;
    } else {
      assert r == [];
    }
  }
}

=== FILE: text.dfy ===
/** The JavaScript string operations the handlers use, on `string`
    (a sequence of Unicode scalar values). */
module Text {

  /** Number of UTF-16 code units one character occupies: JavaScript's
      `length` counts a character outside the Basic Multilingual Plane twice. */
  function CodeUnits(c: char): nat
  {
    if c as int >= 0x1_0000 then 2 else 1
  }

  /** JavaScript's `s.length`, which every Zod `min`/`max` string check uses. */
  function Utf16Length(s: string): (n: nat)
    ensures |s| <= n <= 2 * |s|
    ensures (forall i :: 0 <= i < |s| ==> (s[i] as int) < 0x1_0000) ==> n == |s|
  {
    if s == [] then 0 else CodeUnits(s[0]) + Utf16Length(s[1..])
  }

  /** The WhiteSpace and LineTerminator characters that `String.prototype.trim`
      removes (section 22.1.3.32 of ECMA-262). */
  predicate IsJsWhitespace(c: char)
  {
    c in {'\t', '\n', '\U{000B}', '\U{000C}', '\r', ' ', '\U{00A0}', '\U{1680}',
          '\U{2028}', '\U{2029}', '\U{202F}', '\U{205F}', '\U{3000}', '\U{FEFF}'}
    || ('\U{2000}' <= c <= '\U{200A}')
  }

  /** Length of the longest all-whitespace prefix of `s`. */
  function LeadingSpace(s: string): (n: nat)
    ensures n <= |s|
    ensures forall k :: 0 <= k < n ==> IsJsWhitespace(s[k])
    ensures n < |s| ==> !IsJsWhitespace(s[n])
  {
    if s == [] || !IsJsWhitespace(s[0]) then 0 else 1 + LeadingSpace(s[1..])
  }

  /** Length of the longest all-whitespace suffix of `s`. */
  function TrailingSpace(s: string): (n: nat)
    ensures n <= |s|
    ensures forall k :: |s| - n <= k < |s| ==> IsJsWhitespace(s[k])
    ensures n < |s| ==> !IsJsWhitespace(s[|s| - n - 1])
  {
    if s == [] || !IsJsWhitespace(s[|s| - 1]) then 0
    else 1 + TrailingSpace(s[..|s| - 1])
  }

  /** `s.trim()`: `s` without its leading and trailing whitespace. */
  function Trim(s: string): (r: string)
    ensures exists i, j ::
              && 0 <= i <= j <= |s| && r == s[i..j]
              && (forall k :: 0 <= k < i ==> IsJsWhitespace(s[k]))
              && (forall k :: j <= k < |s| ==> IsJsWhitespace(s[k]))
    ensures r == [] || (!IsJsWhitespace(r[0]) && !IsJsWhitespace(r[|r| - 1]))
  {
    var t := s[LeadingSpace(s)..];
    var r := t[..|t| - TrailingSpace(t)];
    assert r == s[LeadingSpace(s)..LeadingSpace(s) + |r|];
    r
  }

  /** A string `trim` leaves alone. */
  predicate IsTrimmed(s: string)
  {
    s == [] || (!IsJsWhitespace(s[0]) && !IsJsWhitespace(s[|s| - 1]))
  }

  lemma TrimOfTrimmed(s: string)
    requires IsTrimmed(s)
    ensures Trim(s) == s
  {
    assert LeadingSpace(s) == 0;
    assert TrailingSpace(s) == 0;
  }

  /** `toLowerCase` on one character, for the ASCII letters `A`-`Z`. */
  function LowerChar(c: char): (d: char)
  {
    if 'A' <= c <= 'Z' then (c as int + 32) as char else c
  }

  /** `s.toLowerCase()` restricted to ASCII case mapping. */
  function ToLower(s: string): (r: string)
    ensures |r| == |s|
    ensures forall i :: 0 <= i < |s| ==> r[i] == LowerChar(s[i])
    ensures forall i :: 0 <= i < |r| ==> !('A' <= r[i] <= 'Z')
  {
    if s == [] then [] else [LowerChar(s[0])] + ToLower(s[1..])
  }

  /** `s.startsWith(p)`. */
  predicate StartsWith(s: string, p: string)
  {
    |p| <= |s| && s[..|p|] == p
  }

  /** `parts.join(sep)`. */
  function Join(parts: seq<string>, sep: string): (r: string)
    ensures |parts| == 1 ==> r == parts[0]
    ensures forall d :: d in r ==> d in sep || exists i :: 0 <= i < |parts| && d in parts[i]
  {
    if parts == [] then ""
    else if |parts| == 1 then parts[0]
    else parts[0] + sep + Join(parts[1..], sep)
  }

  /** `s.split(c)[0]`: the text before the first `c`, or all of `s`. */
  function BeforeFirst(s: string, c: char): (r: string)
    ensures |r| <= |s| && r == s[..|r|]
    ensures c !in r
    ensures |r| < |s| ==> s[|r|] == c
  {
    if s == [] || s[0] == c then []
    else
      var rest := BeforeFirst(s[1..], c);
      assert [s[0]] + rest == s[..|rest| + 1];
      [s[0]] + rest
  }

  /** Cutting `a + [c] + b` at the first `c` gives `a` when `a` holds no `c`. */
  lemma {:induction false} BeforeFirstOf(a: string, c: char, b: string)
    requires c !in a
    ensures BeforeFirst(a + [c] + b, c) == a
  {
    if a != [] {
      assert (a + [c] + b)[0] == a[0];
      assert (a + [c] + b)[1..] == a[1..] + [c] + b;
      BeforeFirstOf(a[1..], c, b);
      assert a == [a[0]] + a[1..];
    }
  }

  /** `s.replace(/c/g, rep)`: every occurrence of the character `c` replaced by `rep`. */
  function ReplaceAll(s: string, c: char, rep: string): (r: string)
    ensures c !in rep ==> c !in r
  {
    if s == [] then []
    else (if s[0] == c then rep else [s[0]]) + ReplaceAll(s[1..], c, rep)
  }

  /** A string without the character is left as it is. */
  lemma {:induction false} ReplaceAbsent(s: string, c: char, rep: string)
    requires c !in s
    ensures ReplaceAll(s, c, rep) == s
  {
    if s != [] {
      ReplaceAbsent(s[1..], c, rep);
      assert s == [s[0]] + s[1..];
    }
  }

  lemma {:induction false} ReplaceAllAppend(a: string, b: string, c: char, rep: string)
    ensures ReplaceAll(a + b, c, rep) == ReplaceAll(a, c, rep) + ReplaceAll(b, c, rep)
  {
    if a == [] {
      assert a + b == b;
    } else {
      var head := if a[0] == c then rep else [a[0]];
      assert (a + b)[0] == a[0];
      assert (a + b)[1..] == a[1..] + b;
      assert ReplaceAll(a + b, c, rep) == head + ReplaceAll(a[1..] + b, c, rep);
      ReplaceAllAppend(a[1..], b, c, rep);
      assert ReplaceAll(a, c, rep) == head + ReplaceAll(a[1..], c, rep);
    }
  }

  /** The string without any character of `cs` (`s.replace(/[..]/g, '')`). */
  function RemoveAll(s: string, cs: set<char>): (r: string)
    ensures forall i :: 0 <= i < |r| ==> r[i] !in cs
    ensures |r| <= |s|
    ensures forall d :: d in r ==> d in s
  {
    if s == [] then []
    else (if s[0] in cs then [] else [s[0]]) + RemoveAll(s[1..], cs)
  }

  /** Every character outside `cs` survives the removal. */
  lemma {:induction false} RemoveAllKeeps(s: string, cs: set<char>, d: char)
    requires d in s && d !in cs
    ensures d in RemoveAll(s, cs)
  {
    if s[0] != d {
      RemoveAllKeeps(s[1..], cs, d);
    }
  }

  lemma {:induction false} RemoveAllAppend(a: string, b: string, cs: set<char>)
    ensures RemoveAll(a + b, cs) == RemoveAll(a, cs) + RemoveAll(b, cs)
  {
    if a == [] {
      assert a + b == b;
    } else {
      var head := if a[0] in cs then [] else [a[0]];
      assert (a + b)[0] == a[0];
      assert (a + b)[1..] == a[1..] + b;
      assert RemoveAll(a + b, cs) == head + RemoveAll(a[1..] + b, cs);
      RemoveAllAppend(a[1..], b, cs);
      assert RemoveAll(a, cs) == head + RemoveAll(a[1..], cs);
    }
  }

  /** The decimal digit for `d`. */
  function Digit(d: nat): char
    requires d < 10
  {
    "0123456789"[d]
  }

  predicate IsDigit(c: char)
  {
    '0' <= c <= '9'
  }

  /** `String(n)` for a natural number: its shortest decimal spelling. */
  function NatToString(n: nat): (r: string)
    ensures |r| >= 1
    ensures forall i :: 0 <= i < |r| ==> IsDigit(r[i])
    ensures n > 0 ==> r[0] != '0'
  {
    if n < 10 then [Digit(n)] else NatToString(n / 10) + [Digit(n % 10)]
  }

  /** Value of a string of decimal digits. */
  function DigitsValue(s: string): nat
    requires forall i :: 0 <= i < |s| ==> IsDigit(s[i])
  {
    if s == [] then 0
    else
      assert IsDigit(s[|s| - 1]);
      DigitsValue(s[..|s| - 1]) * 10 + (s[|s| - 1] as int - '0' as int)
  }

  lemma {:induction false} NatToStringValue(n: nat)
    ensures DigitsValue(NatToString(n)) == n
  {
    var r := NatToString(n);
    if n >= 10 {
      NatToStringValue(n / 10);
      assert r[..|r| - 1] == NatToString(n / 10);
    }
  }

  /** `String(n)` for an integer. */
  function IntToString(n: int): (r: string)
    ensures |r| >= 1
    ensures forall i :: 0 <= i < |r| ==> IsDigit(r[i]) || (i == 0 && r[i] == '-')
  {
    if n < 0 then "-" + NatToString(-n) else NatToString(n)
  }
}

=== FILE: zod.dfy ===
/** The part of Zod's `safeParse` the request schemas use: issues with a
    path, and the checks of `z.string()` and `z.number()` run in declaration
    order. */
module Zod {
  import opened Base
  import opened Text
  import opened Json

  /** One step of an issue path: an object key or an array index. */
  datatype PathItem = Key(name: string) | Index(i: nat)

  /** The Zod issue codes the schemas can raise. */
  datatype IssueCode =
    | InvalidType                // wrong JSON type, or a required key missing
    | TooSmall(minimum: int)     // `min` on a string length, array length or number
    | TooBig(maximum: int)       // `max` on a string length or number
    | InvalidString              // the `email` check
    | InvalidEnumValue           // a string outside `z.enum`
    | InvalidUnion               // no branch of `.or(...)` accepted the value

  datatype Issue = Issue(path: seq<PathItem>, code: IssueCode)

  /** `safeParse`'s result: the transformed data, or the non-empty issue list. */
  datatype Parsed<T> = Valid(value: T) | Invalid(issues: seq<Issue>)

  /** Every issue lies under `path`. */
  predicate Under(issues: seq<Issue>, path: seq<PathItem>)
  {
    forall k :: 0 <= k < |issues| ==> path <= issues[k].path
  }

  /** The issues of `.min(lo).max(hi)` on a string: Zod compares the UTF-16
      length and reports every failing check. */
  function LengthIssues(s: string, lo: nat, hi: nat, path: seq<PathItem>): (r: seq<Issue>)
    ensures r == [] <==> lo <= Utf16Length(s) <= hi
    ensures Under(r, path)
  {
    (if Utf16Length(s) < lo then [Issue(path, TooSmall(lo))] else [])
    + (if Utf16Length(s) > hi then [Issue(path, TooBig(hi))] else [])
  }

  /** The issues of `.min(lo).max(hi)` on a number. */
  function RangeIssues(n: real, lo: real, hi: real, path: seq<PathItem>): (r: seq<Issue>)
    ensures r == [] <==> lo <= n <= hi
    ensures Under(r, path)
  {
    (if n < lo then [Issue(path, TooSmall(lo.Floor))] else [])
    + (if n > hi then [Issue(path, TooBig(hi.Floor))] else [])
  }

  /** The issues of a parse result. */
  function IssuesOf<T>(p: Parsed<T>): seq<Issue>
  {
    if p.Invalid? then p.issues else []
  }
}
